=== FILE: README.md ===
# ado_ai work-item completion pipeline, modelled in Dafny

This project models the core of `ado_ai`, a tool that completes Azure DevOps
work items with the help of a Claude model. Two front ends share the core: a
command-line tool and a small web application. A run goes through these steps:

1. Fetch the work item and its recent comments from the tracking service.
2. Build a prompt and ask the model for an analysis.
3. Extract the JSON object from the model's reply and turn it into an
   analysis result with defaults.
4. Compute the field changes (state, remaining work, an `AI-Completed` tag).
5. Either stop (dry run, declined confirmation) or send the update together
   with a formatted comment.

Around this pipeline sit the configuration validators, the web side's
per-user settings store with encrypted credentials, the history record of
each analysis, and two web endpoints that touch the filesystem: writing an
analysis's suggested file changes into a work folder, and a directory browser.

The model is functional. Every entity is an immutable datatype and every
operation is a function. The tracking service, the model API, JSON decoding,
the database, the clock, encryption and the filesystem are oracle parameters:
functions that return a value or a typed error. The orchestrator returns its
list of progress events together with its result.

Python semantics that the code depends on are written out explicitly:

- truthiness, `or`, `str.find` and `rfind`, slicing with negative bounds,
  `split` on one character, `join`, and `str()` of an integer;
- ordered dicts, which become sequences of pairs;
- `re.sub(r'<[^>]+>', '', s)`;
- stable sorting by a tuple key.

Money is exact: costs are integer micro-dollars. Python floats appear as
`real` values carrying their `str()` text. Dates are calendar values with an
optional UTC offset, read and written in ISO 8601.

One thing is modelled exactly as the source has it: the header of the posted
comment is the UTF-8 encoding of the robot emoji read back as Windows-1254. The
source text holds the four characters U+011F U+0178 U+00A4 U+2013, and the
model sends those same characters.

Modules, one per source file, with shared helpers:

- `Wrappers`: `Option` and `Result`.
- `Strings`: Python string operations.
- `Json`: decoded JSON values.
- `Errors`: the exception hierarchy.
- `Retry`: the retry decorator.
- `Models`: tracking-service entities and the AI context.
- `DateTimes`: `datetime` values, their ISO 8601 text and Unix timestamps.
- `Lax`: pydantic's lax reading of text as an integer or a float.
- `AdoClient`: the tracking-service client.
- `Prompts` and `PromptText`: prompt templates.
- `ClaudeClient`: the model client.
- `Config`: settings validation.
- `Workflow`: the orchestrator.
- `SettingsManager`: the per-user settings store.
- `WorkflowService`: web-side run bookkeeping.
- `WorkItemsApi`: history listing and applying file changes.
- `FilesApi`: the file browser.
- `Paths`: path containment.
- `Sorting`: stable sort by key.
- `Http`: endpoint errors.

## Model

| member | source | states |
|---|---|---|
| Errors.Hierarchy | src/ado_ai_cli/utils/exceptions.py:4-56 | A not-found error is an `AzureDevOpsError`, which is an `AdoAiError`. Configuration, authentication, model-API, rate-limit and workflow errors derive from `AdoAiError` directly. No foreign class is an `AdoAiError`. |
| Errors.NotFoundMessageKeepsId | src/ado_ai_cli/utils/exceptions.py:22-27 | The not-found message starts with "Work item ". Different ids give different messages, so the message identifies the id. |
| Errors.RateLimitHint | src/ado_ai_cli/utils/exceptions.py:42-50 | The rate-limit message always starts with "API rate limit exceeded". It is exactly that base text iff `retry_after` is `None` or 0 (the truthiness test). |
| Errors.Message | src/ado_ai_cli/utils/exceptions.py:22-50 | `str(e)` is the message the error was raised with, except that the not-found error reads "Work item {id} not found" and the rate-limit message starts with "API rate limit exceeded". |
| Strings.Strip | src/ado_ai_cli/ai/claude_client.py:241-246 | `str.strip()` leaves neither end as whitespace, counting every character Python's `str.isspace()` accepts, the Unicode ones included. |
| Strings.StripCutsOnlySpace | src/ado_ai_cli/ai/claude_client.py:241-246 | What `str.strip()` keeps is a contiguous middle run of the text, and everything it cuts on either side is whitespace. |
| Retry.Run | src/ado_ai_cli/azure_devops/client.py:57-62 | The decorator makes 1 to 3 attempts and returns the last attempt's outcome. Every earlier attempt failed with the retried class. It stops early only on a success or a non-retried error. |
| Retry.SingleAttempt | src/ado_ai_cli/azure_devops/client.py:57-62 | When the first attempt does not raise the retried class, the run is exactly that one attempt. |
| Models.Keys | src/ado_ai_cli/azure_devops/client.py:180 | `list(fields.keys())` lists the field map's keys, one per entry, in insertion order. |
| Models.JoinConcat | src/ado_ai_cli/azure_devops/models.py:76 | Joining two non-empty runs of parts puts exactly one separator between their joins. |
| Models.JoinFour | src/ado_ai_cli/azure_devops/models.py:45-50 | Four parts joined by a separator are the parts with the separator between each pair. |
| Models.JoinPrefix | src/ado_ai_cli/azure_devops/models.py:76 | The join of the leading parts is a prefix of the join of all parts. |
| Models.ContextShape | src/ado_ai_cli/azure_devops/models.py:38-76 | The context starts with the ID, Type, Title and State lines, in that order and joined by blank lines, and has 4 + (number of present optional fields) parts. |
| Models.GetContextForAi | src/ado_ai_cli/azure_devops/models.py:38-50 | Whatever fields are present, the context opens with the "Work Item ID: " line; Models.ContextShape states the whole four-line header. |
| Models.PriorityAndRemainingWorkTests | src/ado_ai_cli/azure_devops/models.py:67-71 | Priority 0 gives the same context as no priority (truthiness test). A remaining work of 0.0 still adds a part (`is not None` test). |
| AdoClient.ExtractIdentityName | src/ado_ai_cli/azure_devops/client.py:272-297 | Priority order: None gives None and a string gives itself. A dict gives `displayName` if truthy, else `uniqueName`. An identity object gives its `display_name` attribute, else `unique_name`, else `str()`. |
| AdoClient.DictIdentityHasNoTextFallback | src/ado_ai_cli/azure_devops/client.py:288-289 | A dict without a truthy `displayName` gives its `uniqueName`, or `None` when that key is absent. It never falls back to the dict's text. |
| AdoClient.MappingDefaults | src/ado_ai_cli/azure_devops/client.py:88-111 | A missing type reads "Unknown"; a missing title or state reads "". The id and the raw field bag are carried over. The description falls back to the repro steps exactly when `System.Description` is missing or empty. |
| AdoClient.EmptyFieldsMapToDefaults | src/ado_ai_cli/azure_devops/client.py:88-110 | A work item whose fields are `None` maps to the all-defaults item, with no link URL. |
| AdoClient.GetWorkItem | src/ado_ai_cli/azure_devops/client.py:78-128 | A null response or status 404 gives WorkItemNotFoundError(id). Status 401/403 gives AuthenticationError. Any other status gives "Azure DevOps API error: …". A raised not-found error passes through; any other exception gives "Failed to fetch work item: …". A returned item is the mapped item itself, or "Failed to fetch work item: …" when its fields do not validate. Every escaping error is an `AdoAiError`, never the raw service error. |
| AdoClient.FetchFailed | src/ado_ai_cli/azure_devops/client.py:117-128 | The `except` chain: a service error is judged by its status, a raised not-found error passes unchanged, and anything else becomes "Failed to fetch work item: " plus its text. The outcome is always a failure with an `AdoAiError`. |
| AdoClient.ServiceFailure | src/ado_ai_cli/azure_devops/client.py:117-123 | Status 404 gives the not-found error for the id, 401 and 403 give "Invalid PAT or insufficient permissions", and any other status gives "Azure DevOps API error: " plus the message. |
| AdoClient.Mapped | src/ado_ai_cli/azure_devops/client.py:88-115 | A returned item that maps is the result, with the raw id. One that does not becomes "Failed to fetch work item: " plus the validation text. |
| AdoClient.MapWorkItem | src/ado_ai_cli/azure_devops/client.py:88-111 | A mapped item keeps the raw id and the raw field bag, `fields or {}`. |
| AdoClient.AsOptInt | src/ado_ai_cli/azure_devops/models.py:24 | The `int` field accepts a float iff its value is whole, and then holds that same value. |
| AdoClient.BoolFieldCoercion | src/ado_ai_cli/azure_devops/models.py:24-26 | A JSON boolean reads as 1 or 0 in the priority and work fields, nonzero exactly when it is true; as a float its text "1.0" or "0.0" reads back as itself. A string field and a date field refuse it. |
| AdoClient.IntFieldCoercion | src/ado_ai_cli/azure_devops/client.py:104 | The priority accepts an integer, its decimal text, that text followed by a point and only zeros, and a float of the same value; each gives that integer, as pydantic's lax `int` does. |
| AdoClient.FloatFieldCoercion | src/ado_ai_cli/azure_devops/client.py:105-106 | Text is accepted as remaining or completed work iff it reads as a plain decimal, and the float's `str()` text reads back as the same float. An integer becomes the float of the same value, whose text `str(i) + ".0"` also reads back as itself. |
| AdoClient.DateFieldRoundTrip | src/ado_ai_cli/azure_devops/client.py:99-100 | The created and changed dates read the ISO 8601 text of any valid `datetime` back as that same value, offset and microseconds included. |
| AdoClient.DateFieldFromTimestamp | src/ado_ai_cli/azure_devops/client.py:99-100 | A whole-second UTC date from 1600-01-01 up to 2e10 seconds after 1970 is read back from its Unix timestamp, whether given as an integer, a whole float or its decimal text. |
| AdoClient.DateFieldRefusesBefore1600 | src/ado_ai_cli/azure_devops/client.py:99-100 | A timestamp before 1600, in seconds or in milliseconds, makes the date field invalid. |
| Lax.IntTextRoundTrip | src/ado_ai_cli/azure_devops/models.py:24 | `str(i)` read as an `int` gives i. |
| Lax.ZeroFractionRoundTrip | src/ado_ai_cli/azure_devops/models.py:24 | `str(i)` followed by a point and any number of zeros reads as i. |
| Lax.DecimalTextStable | src/ado_ai_cli/azure_devops/models.py:25-26 | The canonical text of a decimal (sign, whole part without leading zeros, fraction without trailing zeros) reads back as the same value and the same text. |
| Lax.FloatTextStable | src/ado_ai_cli/azure_devops/models.py:25-26 | Whatever text a `float` field accepts, the text kept for the result reads back as the same float. |
| Lax.IntFloatText | src/ado_ai_cli/azure_devops/models.py:25-26 | `str(i) + ".0"`, the text of an integer made a float, reads back as the value i with that text. |
| DateTimes.ParseIso | src/ado_ai_cli/azure_devops/models.py:19-20 | Every text read as a date names a real `datetime`: month 1..12, a day that exists in that month of that Gregorian year, hour below 24, minute and second below 60, microseconds below a million, and an offset under a day. |
| DateTimes.IsoRoundTrip | src/ado_ai_web/services/workflow_service.py:114-115 | The `isoformat()` text of every valid `datetime` reads back as the same value. |
| DateTimes.DateOfDayNumber | src/ado_ai_cli/azure_devops/models.py:19-20 | Counting days from 0001-01-01 and back gives the same calendar date. |
| DateTimes.FromTimestamp | src/ado_ai_cli/azure_devops/models.py:19-20 | A Unix timestamp in range, from 1600 to the end of 9999, gives a valid UTC `datetime`. |
| DateTimes.TimestampRoundTrip | src/ado_ai_cli/azure_devops/models.py:19-20 | A timestamp reads as the instant it counts: seconds when its magnitude is at most 2e10, otherwise milliseconds with the remainder kept as microseconds. |
| DateTimes.UnixSecondsRoundTrip | src/ado_ai_cli/azure_devops/models.py:19-20 | Every whole-second UTC `datetime` whose Unix time lies from 1600-01-01 up to 2e10 seconds after 1970 is read back from that time. |
| DateTimes.TimestampFloor | src/ado_ai_cli/azure_devops/models.py:19-20 | The earliest accepted timestamp, -11676096000 seconds or the same in milliseconds, is 1600-01-01T00:00:00 UTC. |
| DateTimes.Before1600Refused | src/ado_ai_cli/azure_devops/models.py:19-20 | Every timestamp before the start of 1600 is refused. |
| DateTimes.EpochIsStartOf1970 | src/ado_ai_cli/azure_devops/models.py:19-20 | Timestamp 0 is 1970-01-01T00:00:00 UTC. |
| DateTimes.NotIsoDate | src/ado_ai_cli/azure_devops/models.py:19-20 | Text that does not start with four digits and a `-` is no ISO date, so a string of digits is read as a timestamp. |
| AdoClient.GetWorkItemSingleAttempt | src/ado_ai_cli/azure_devops/client.py:57-62 | Whatever the backend does on each of the three allowed attempts, the retry decorator returns the first attempt's outcome. |
| AdoClient.AddComment | src/ado_ai_cli/azure_devops/client.py:219-230 | Posting a comment succeeds iff the backend call does. A failure becomes "Failed to add comment: …", which the retry predicate does not match. |
| AdoClient.PatchDocument | src/ado_ai_cli/azure_devops/client.py:157-163 | The patch has one "add" operation per field, in map order, at path `/fields/{key}`, with the field's value. |
| AdoClient.UpdateWorkItem | src/ado_ai_cli/azure_devops/client.py:153-200 | Never fails. Success holds iff the patch and (for a non-empty comment) the comment post both succeed; then updated_fields are the map's keys. Otherwise updated_fields is [] and the message depends on the failing step. The comment is sent only after the patch and only when non-empty. |
| AdoClient.CommentFailureMasksUpdate | src/ado_ai_cli/azure_devops/client.py:172-200 | A failing comment post after a successful patch turns the whole result into success=false with updated_fields=[]. |
| AdoClient.MapComments | src/ado_ai_cli/azure_devops/client.py:252-263 | Mapping all backend comments succeeds iff each one maps. The result then has one comment per entry, in order. |
| AdoClient.MapComment | src/ado_ai_cli/azure_devops/client.py:255-262 | A comment maps iff its text is a string and its author reads; the dates are the library's `datetime` values, carried over unchanged. |
| AdoClient.GetComments | src/ado_ai_cli/azure_devops/client.py:243-270 | Never fails. Any failure or an absent list gives []. Otherwise the result has one comment per backend entry, in backend order, with the same id and text. |
| Prompts.SelectTemplate | src/ado_ai_cli/ai/prompts.py:231-241 | The lowercased type is tested for "bug", then "task", then "user story" or "story"; anything else gets the general template. |
| Prompts.UserStoryContainsStory | src/ado_ai_cli/ai/prompts.py:238 | The "user story" test adds nothing beyond the "story" test. |
| Prompts.CustomSuffix | src/ado_ai_cli/ai/prompts.py:81-82 | The instructions block is empty iff the custom text is absent or empty. Otherwise it holds the text right after the "ADDITIONAL INSTRUCTIONS" heading. |
| Prompts.NumberedLines | src/ado_ai_cli/ai/prompts.py:35-37 | One line per comment, in the given order. The line for comment i is numbered i + 1. |
| Prompts.ConcatAppend | src/ado_ai_cli/ai/prompts.py:35-37 | Appending a line to the lines appends its text to their concatenation. |
| Prompts.NumberedLinesSnoc | src/ado_ai_cli/ai/prompts.py:35-37 | Numbering one more comment appends its numbered line. |
| Prompts.BuildCommentsText | src/ado_ai_cli/ai/prompts.py:33-37 | The loop gives "" for no comments. Otherwise it gives the "Recent Comments" heading followed by the numbered lines. |
| Prompts.PromptIsAssembled | src/ado_ai_cli/ai/prompts.py:219-249 | The prompt is the selected template assembled around the work item's context text. |
| Prompts.GetPromptForWorkItem | src/ado_ai_cli/ai/prompts.py:219-249 | Whatever template the type selects, the work item's context appears in the prompt right after the template's opening sentence and a blank line. |
| Prompts.CustomAppendedOnce | src/ado_ai_cli/ai/prompts.py:242-247 | For every template the instructions block is appended exactly once at the end. An empty text appends nothing. |
| Prompts.CommentsOnlyInGeneral | src/ado_ai_cli/ai/prompts.py:33-37 | The bug, task and story templates ignore the comments. The general template shows them whenever there are any. |
| Prompts.ContextEmbedded | src/ado_ai_cli/ai/prompts.py:30 | Every template carries the context right after its opening sentence and a blank line. |
| Prompts.IntroLetters | src/ado_ai_cli/ai/prompts.py:87-216 | The four opening sentences differ at fixed positions. |
| Prompts.AssembleStartsWithIntro | src/ado_ai_cli/ai/prompts.py:18-216 | Every prompt opens with its template's opening sentence. |
| Prompts.TemplateRecoverable | src/ado_ai_cli/ai/prompts.py:219-249 | The template can be read back from the assembled prompt, so different templates give different prompts. |
| ClaudeClient.TotalTokens | src/ado_ai_cli/ai/claude_client.py:26-28 | The total is at least each count, and it exceeds the input count by exactly the output count. |
| ClaudeClient.Tier | src/ado_ai_cli/ai/claude_client.py:42-50 | The sonnet price applies iff the lowercased name contains "sonnet" and not "opus". Every other name is priced like opus. |
| ClaudeClient.CostMicros | src/ado_ai_cli/ai/claude_client.py:30-53 | The price table in micro-dollars per token: opus 5 per input and 25 per output token ($5 and $25 per million), sonnet 1 and 5. |
| ClaudeClient.CostMatchesDollarFormula | src/ado_ai_cli/ai/claude_client.py:40-53 | The micro-dollar cost divided by 10^6 equals (input/10^6)·rate_in + (output/10^6)·rate_out in exact arithmetic, with the rates 5/25 (opus) and 1/5 (sonnet). |
| ClaudeClient.CostMonotone | src/ado_ai_cli/ai/claude_client.py:40-53 | More input or output tokens never cost less, for every model. |
| ClaudeClient.CostExamples | src/ado_ai_cli/ai/claude_client.py:40-53 | A million opus input tokens cost $5. A million sonnet output tokens cost $5. A million of each on an unknown model cost $30. |
| ClaudeClient.OpusCheckedFirst | src/ado_ai_cli/ai/claude_client.py:42-45 | A name containing "opus" is priced as opus even when it also mentions "sonnet". |
| ClaudeClient.ParseJsonResponse | src/ado_ai_cli/ai/claude_client.py:218-257 | If the whole text decodes, that value is returned. Otherwise only the first "```json" block is decoded, or else only the first fenced block. A failure in either fenced branch is final. |
| ClaudeClient.FencedBlock | src/ado_ai_cli/ai/claude_client.py:238-247 | The extracted block is no longer than the reply, and neither of its ends is whitespace. |
| ClaudeClient.JsonFenceExtraction | src/ado_ai_cli/ai/claude_client.py:238-242 | For a reply containing one "```json" block, exactly the stripped block text is decoded. |
| ClaudeClient.FenceCloses | src/ado_ai_cli/ai/claude_client.py:240 | The closing fence found is the first one after the block body. |
| ClaudeClient.BraceFallback | src/ado_ai_cli/ai/claude_client.py:250-257 | With no fence, the span from the first `{` to the last `}` inclusive is decoded when the `{` comes first. Otherwise the fixed "Could not find valid JSON" error is raised. |
| ClaudeClient.AnalysisDefaults | src/ado_ai_cli/ai/claude_client.py:185-196 | An empty object gives "" for the texts, [] for the lists, the item's state as suggested status, 0 remaining work and no file changes. |
| ClaudeClient.AnalysisFromJson | src/ado_ai_cli/ai/claude_client.py:185-196 | Building the analysis succeeds iff every typed key reads. The tasks and risks are the decoded lists, the suggested status is the one read with the work item's state as its default, and the raw reply and token usage are carried over. |
| ClaudeClient.NullFileChangesNormalised | src/ado_ai_cli/ai/claude_client.py:84 | A null `file_changes` gives the same analysis as a missing one. |
| ClaudeClient.TranslateError | src/ado_ai_cli/ai/claude_client.py:205-216 | A library rate limit becomes RateLimitError carrying `retry_after`. Another library API error becomes "Claude API error: …". A ClaudeAPIError passes through unchanged. Anything else becomes "Failed to analyze work item: …". |
| ClaudeClient.AnalyzeWorkItem | src/ado_ai_cli/ai/claude_client.py:133-216 | Fails only with ClaudeAPIError or RateLimitError, never with a library error. A call failure is translated. A success carries the first content block as the raw reply and the response's token counts. |
| ClaudeClient.UndecodableReply | src/ado_ai_cli/ai/claude_client.py:177-182 | A reply without decodable JSON fails with "Failed to parse JSON response from Claude: " plus the decoder's detail. |
| ClaudeClient.AnalyzeSingleAttempt | src/ado_ai_cli/ai/claude_client.py:127-132 | The retry decorator never re-attempts an analysis. The first attempt's outcome is final. |
| Config.BoundedInt | src/ado_ai_cli/config.py:61-90 | An integer field is accepted iff it is unset or within its bounds. An unset field takes the default; a set one keeps its value. |
| Config.BuildSettings | src/ado_ai_cli/config.py:12-131 | Construction fails iff some field fails validation, and it reports the failing fields in declaration order. |
| Config.AcceptedSettingsAreValid | src/ado_ai_cli/config.py:61-131 | Accepted settings satisfy every validator: credentials are not placeholders, the org URL has an http or https scheme and names an Azure DevOps host, the log level is one of five names, and every number is within its bounds. |
| Config.OrgUrlNeedsScheme | src/ado_ai_cli/config.py:23-27 | "dev.azure.com/…" and "visualstudio.com/…" are refused whatever follows, because the field is an `HttpUrl` and needs a scheme. |
| Config.NoSchemeRefused | src/ado_ai_cli/config.py:23-27 | Any URL whose first character is not an `h` in either case is refused. |
| Config.ServiceUrlAccepted | src/ado_ai_cli/config.py:121-131 | Every URL of the documented form "https://dev.azure.com/{organization}" is accepted. |
| Config.Defaults | src/ado_ai_cli/config.py:45-96 | With only the four required values set, the defaults are model "claude-opus-4-6", log level INFO, auto-approve and dry-run false, retries 3, timeout 30, rate 60, max tokens 4096 and temperature 0.7. |
| Config.PlaceholderIgnoresCase | src/ado_ai_cli/config.py:100-119 | The placeholder test lowercases the value first, and the empty credential is a placeholder. |
| Config.Dump | src/ado_ai_cli/config.py:140 | The dump holds the PAT and the API key under their field names. |
| Config.RedactSensitiveFields | src/ado_ai_cli/config.py:138-143 | The redacted dump has the same keys. Exactly the PAT and the API key are replaced by "***REDACTED***"; every other value is unchanged. |
| Config.RedactionHidesSecrets | src/ado_ai_cli/config.py:138-143 | Settings that differ only in their secrets redact identically. |
| Config.LoadSettings | src/ado_ai_cli/config.py:146-164 | Loading succeeds iff validation does. A failure is a ConfigurationError, an `AdoAiError`, naming the failing fields and adding the `.env` hint. |
| Workflow.BuildUpdateFields | src/ado_ai_cli/core/workflow.py:235-253 | The diff has at most three entries with distinct keys, drawn from State, RemainingWork and Tags. |
| Workflow.UpdateFieldRules | src/ado_ai_cli/core/workflow.py:240-251 | State is present iff the suggestion is non-empty and differs from the current state, and then carries the suggestion. RemainingWork is present iff the suggestion differs, and an absent current value always differs; it carries the suggestion as a number, or null for no suggestion. Tags are present iff no existing tag equals "AI-Completed", and then carry the existing tags joined by ";" with that marker appended. |
| Workflow.LookupConcat | src/ado_ai_cli/core/workflow.py:237-251 | A key is looked up in the earlier entries of the dict first, then in the later ones. |
| Workflow.TagsAppendMarker | src/ado_ai_cli/core/workflow.py:248-251 | Splitting the sent tag string on ';' gives the existing tags, in order, followed by one "AI-Completed". |
| Workflow.EmptyDiff | src/ado_ai_cli/core/workflow.py:240-253 | The diff is empty iff three things hold: the state needs no change, the remaining work is equal, and the marker tag is present. |
| Workflow.UpdateSettles | src/ado_ai_cli/core/workflow.py:235-253 | Once the tracking service applies the diff, the same analysis asks for no further change. |
| Workflow.ApplyConcat | src/ado_ai_cli/azure_devops/client.py:160-163 | Applying two patches in turn is the same as applying their concatenation. |
| Workflow.FormatAiComment | src/ado_ai_cli/core/workflow.py:255-264 | The comment's length is the header's plus the analysis comment's plus the footer's. |
| Workflow.CommentRoundTrip | src/ado_ai_cli/core/workflow.py:255-264 | The analysis comment can be read back from the posted text. The text starts with the header and is never empty, so it is always posted. |
| Workflow.Emit | src/ado_ai_cli/core/workflow.py:123-128 | One event per step, in order, each naming the work item. Only the last event may carry an error. |
| Workflow.FetchWorkItem | src/ado_ai_cli/core/workflow.py:60-98 | Succeeds iff the client fetch does, and then carries the work item. A failure gives "Failed to fetch work item {id}: …" and no work item. |
| Workflow.Steps | src/ado_ai_cli/core/workflow.py:123-128 | The steps of a run, one per event, in order. |
| Workflow.Decide | src/ado_ai_cli/core/workflow.py:154-219 | After analysis the result keeps the work item and analysis. The update is called iff the run is not a dry run and the user did not decline. The update result is reported iff the update was called. |
| Workflow.CompleteWorkItem | src/ado_ai_cli/core/workflow.py:100-233 | Never raises. Every event names the work item. A success carries the work item and analysis with no message; a failure always carries a message. |
| Workflow.StepsOfEmit | src/ado_ai_cli/core/workflow.py:123-128 | The steps read off the emitted events are the steps emitted. |
| Workflow.DecideTrace | src/ado_ai_cli/core/workflow.py:154-219 | After analysis the run emits exactly one of four tails: `dry_run_complete`, nothing (declined), `updating completed`, or `updating failed`. |
| Workflow.CrashedTrace | src/ado_ai_cli/core/workflow.py:221-233 | A failure emits the steps so far and then one `error` event carrying "Workflow failed: …". |
| Workflow.EventProtocol | src/ado_ai_cli/core/workflow.py:130-233 | Every run emits one of the allowed step sequences, always starting with `fetching`. `error` comes only last, and only on failure. |
| Workflow.UpdateCalledIff | src/ado_ai_cli/core/workflow.py:155-191 | `update_work_item` is called iff four things hold: the fetch and the analysis succeed, the run is not a dry run, and the user did not decline. |
| Workflow.DryRun | src/ado_ai_cli/core/workflow.py:155-165 | A dry run emits exactly fetching, fetching_comments, analyzing and dry_run_complete. It reports success with the work item and analysis and no update result. |
| Workflow.Approval | src/ado_ai_cli/core/workflow.py:168-181 | With display on, a declined confirmation gives "User cancelled changes", keeps the item and analysis, and makes no update call. With display off, approval is skipped and the update proceeds. |
| Workflow.UpdateOutcome | src/ado_ai_cli/core/workflow.py:193-219 | A successful update emits `completed` and reports success with the update result. A failed one emits `failed` and copies its error message into the result. |
| Workflow.UpdateSendsDiffAndComment | src/ado_ai_cli/core/workflow.py:184-191 | The update sends the diff as its patch document, and once the patch succeeds it sends the formatted AI comment. |
| Workflow.FailureIsReported | src/ado_ai_cli/core/workflow.py:221-233 | A failing client call gives success=false, "Workflow failed: …" and no work item, analysis or update result, with no update call. |
| SettingsManager.NewCreateRequest | src/ado_ai_web/services/settings_manager.py:31-44 | The declared defaults: no API key, email or work folder; model "claude-opus-4-6"; no auto-approve; 4096 tokens; temperature 0.7. |
| SettingsManager.CreateUserAndSettings | src/ado_ai_web/services/settings_manager.py:68-105 | A taken username gives ValueError "Username '…' already exists". No user key and no system key gives the API-key ValueError. An email some user already has gives the unique index's integrity error at the flush. Creation succeeds iff none of these applies. The API-key ciphertext is stored only when a key was provided. |
| SettingsManager.NoDuplicateUsers | src/ado_ai_web/services/settings_manager.py:68-70 | After a creation, a second creation under the same username fails. |
| SettingsManager.NoDuplicateEmails | src/ado_ai_web/models/database.py:19 | After a creation with an email, a second creation with the same email fails, whatever its username. |
| SettingsManager.GetDecryptedCredentials | src/ado_ai_web/services/settings_manager.py:130-164 | No settings gives `None`. The API key is decrypted from the user's ciphertext when there is one, else the system key is used, else ValueError. A failing decryption of the key, and then of the PAT, propagates. Success holds iff both decrypt, and then the result holds all nine fields: the decrypted PAT, the API key, the URL, project, model, work folder, auto-approve, max tokens and temperature. |
| SettingsManager.ApiKeyOf | src/ado_ai_web/services/settings_manager.py:144-152 | The user's own key ciphertext is decrypted when present; otherwise the system key is used; with neither, ValueError "No Anthropic API key available (not in user settings or system config)". |
| SettingsManager.CredentialsRoundTrip | src/ado_ai_web/services/settings_manager.py:83-164 | When decryption inverts encryption, a created user reads back its own PAT. The API key read back is the one given, or the system key when none was given. |
| SettingsManager.UpdateSettings | src/ado_ai_web/services/settings_manager.py:166-217 | No settings gives `None` and an unchanged database. Otherwise each field changes iff its argument is not `None`. The ciphertexts change only for a provided new secret. No other user's settings change. |
| SettingsManager.UpdateIdempotent | src/ado_ai_web/services/settings_manager.py:189-213 | When decryption inverts each encryption and encryption is never empty, applying an update twice, each time with its own fresh encryption, gives the same users, the same settings rows, the same redacted view and the same decrypted credentials as applying it once. Only the ciphertexts may differ. |
| SettingsManager.EmptyUpdate | src/ado_ai_web/services/settings_manager.py:166-217 | An update with all arguments `None` returns the database unchanged, with the user's settings row, or `None` when there is none. |
| SettingsManager.PatchTwice | src/ado_ai_web/services/settings_manager.py:189-213 | Patching a row a second time with the same arguments changes only the ciphertexts, and those decrypt to the same values. |
| SettingsManager.GetRedactedSettings | src/ado_ai_web/services/settings_manager.py:219-244 | `None` iff there are no settings. Otherwise both secrets read "***REDACTED***", is_configured is true and the plain fields are copied. |
| SettingsManager.RedactionHidesCiphers | src/ado_ai_web/services/settings_manager.py:233-244 | The redacted view does not depend on the stored ciphertexts. |
| SettingsManager.DeleteUserAndSettings | src/ado_ai_web/services/settings_manager.py:246-262 | The corrected delete: false iff the user does not exist, and then nothing changes. Otherwise the user and its settings row are removed, and every other user and settings row is unchanged. |
| SettingsManager.DeleteUserAndSettingsAsWritten | src/ado_ai_web/services/settings_manager.py:256-262 | As written: a missing user gives false with nothing changed. For a user that owns a settings, history or file-access log row, the commit raises an integrity error and nothing is deleted. |
| SettingsManager.DeleteFailsForCreatedUser | src/ado_ai_web/services/settings_manager.py:256-262 | As written, deleting any user that `create_user_and_settings` made raises, because that user owns a settings row. |
| SettingsManager.DeleteForgetsOnlyThatUser | src/ado_ai_web/services/settings_manager.py:246-262 | After the corrected delete, the user has no credentials and no settings view, and every other user reads the same credentials and settings view as before. |
| Strings.IndexOf | src/ado_ai_web/services/workflow_service.py:109 | The first position of a character, or -1 exactly when it does not occur. |
| WorkflowService.TagLength | src/ado_ai_web/services/workflow_service.py:109 | A match of `<[^>]+>` at the start is `<`, one or more non-`>` characters, then `>`. A match exists iff the text starts with `<`, its second character is not `>`, and a `>` comes later; the match ends at the first such `>`. |
| WorkflowService.StripTags | src/ado_ai_web/services/workflow_service.py:109 | Removing the tag matches never lengthens the text, and a text without `<` is returned unchanged. |
| WorkflowService.CleanText | src/ado_ai_web/services/workflow_service.py:109 | An absent or empty text gives "". A present one gives the text with every tag match removed. The result never contains a tag match. |
| WorkflowService.StripKeepsChars | src/ado_ai_web/services/workflow_service.py:109 | Stripping only removes characters; every character of the result was in the input. |
| WorkflowService.StripTagsClean | src/ado_ai_web/services/workflow_service.py:109 | The stripped text contains no match of the tag pattern. |
| WorkflowService.StripNoTagsIdentity | src/ado_ai_web/services/workflow_service.py:109 | Text without a match is returned unchanged. |
| WorkflowService.StripIdempotent | src/ado_ai_web/services/workflow_service.py:122 | Stripping twice is the same as stripping once. |
| WorkflowService.StripKeepsPlainText | src/ado_ai_web/services/workflow_service.py:109 | A prefix without `<` passes through untouched: stripping it followed by any text is the prefix followed by the stripped text. |
| WorkflowService.StripLeadingTag | src/ado_ai_web/services/workflow_service.py:109 | A leading tag (`<`, no `>` inside, `>`) is removed and the rest is stripped as if it stood alone. |
| WorkflowService.StripTagPair | src/ado_ai_web/services/workflow_service.py:122 | An element `<name>` + x + `</name>` around any text x without `<`, for any tag name without `>`, strips to exactly x. |
| WorkflowService.IsoText | src/ado_ai_web/services/workflow_service.py:114-115 | A comment date is rendered iff it is present, and its text reads back as the same `datetime`. |
| WorkflowService.OrchestratorSettings | src/ado_ai_web/services/workflow_service.py:52-67 | Missing credentials raise ValueError("Credentials not found"), and a credentials error propagates. Built settings carry the stored URL, project, PAT, API key and model. |
| WorkflowService.FetchWorkItem | src/ado_ai_web/services/workflow_service.py:83-136 | A settings failure propagates. When the settings build and the fetch succeeds, the view carries the fetched item's id, type, title, state, assignee, priority, remaining work, tags and URL, its description with tags removed, and one tag-free view per fetched comment. A fetch failure raises the orchestrator's error message. |
| WorkflowService.StoredAnalysis | src/ado_ai_web/services/workflow_service.py:203-212 | The stored analysis is an object whose keys are exactly the eight analysis fields, each holding that field: a text as a string or null, the tasks and risks as decoded, the estimate as a number or null, and the file changes as a list. |
| WorkflowService.StoredAnalysisRoundTrip | src/ado_ai_web/services/workflow_service.py:203-212 | Reading the stored object back the way a reply is read gives the same analysis, so nothing is lost in storage. |
| WorkflowService.StoredUsage | src/ado_ai_web/services/workflow_service.py:213-216 | The stored token usage has exactly the keys input_tokens and output_tokens, with the two counts. |
| WorkflowService.ServiceOptions | src/ado_ai_web/services/workflow_service.py:190-197 | The orchestrator always runs as a dry run, without auto-approval or display, and with the custom prompt passed through. |
| WorkflowService.AnalyzeWorkItem | src/ado_ai_web/services/workflow_service.py:138-244 | The row is created as "analyzing" before orchestration and ends as "completed" or "failed" with completed_at set. It is "completed" iff the orchestration succeeded. No update ever happens, and events pass straight through. An exception is recorded with str(e) and re-raised. |
| WorkflowService.CompletedRowContents | src/ado_ai_web/services/workflow_service.py:199-228 | A completed row stores the eight-key analysis and the two-key usage. Its cost is priced with the credentials' model, defaulting to "claude-opus-4-6". |
| WorkflowService.FailedRunRecorded | src/ado_ai_web/services/workflow_service.py:230-233 | A result without success is recorded as "failed" with the result's error message. |
| WorkflowService.GetAnalysisResult | src/ado_ai_web/services/workflow_service.py:246-273 | `None` iff the id is unknown. Otherwise the view shows the row's status name, analysis and error message. |
| WorkflowService.ApplyChanges | src/ado_ai_web/services/workflow_service.py:275-303 | Always raises NotImplementedError, which is not an `AdoAiError`. |
| Paths.WithinIsPrefixAtBoundary | src/ado_ai_web/api/work_items.py:300-301 | Component-wise containment is the prefix test plus a boundary after the base: the path ends there, a `/` follows, or the base ends in `/`. |
| Paths.WithinImpliesPrefix | src/ado_ai_web/api/files.py:45-49 | The corrected containment never admits more than the prefix test. |
| Paths.ChildIsWithin | src/ado_ai_web/api/work_items.py:296-301 | A path named below the base is within it. |
| Paths.SiblingAdmittedByPrefix | src/ado_ai_web/api/work_items.py:300-301 | "/tmp/work-evil/x" passes the prefix test for "/tmp/work" but is not within it. |
| Paths.ParentOf | src/ado_ai_web/api/files.py:101-102 | When a `/` occurs after the first character, the parent is the path cut at its last `/`: a non-empty proper prefix followed by that `/`, with no `/` after it. Otherwise the parent is "/". |
| Paths.ParentFixedOnlyAtRoot | src/ado_ai_web/api/files.py:101 | A resolved path is its own parent exactly at the root. |
| Sorting.LexTotal | src/ado_ai_web/api/files.py:139 | Tuple and string comparison is total. |
| Sorting.LexTrans | src/ado_ai_web/api/files.py:139 | Tuple and string comparison is transitive. |
| Sorting.Insert | src/ado_ai_web/api/files.py:139 | Inserting into a sorted sequence keeps it sorted and adds exactly the element. |
| Sorting.SortBy | src/ado_ai_web/api/files.py:139 | The sort returns a permutation of its input, ordered by key. |
| Sorting.InsertAtEnd | src/ado_ai_web/api/files.py:139 | An element whose key is not below any other goes last. |
| Sorting.SortKeepsSorted | src/ado_ai_web/api/files.py:139 | An already ordered sequence is left as it is. |
| Sorting.InsertIsStable | src/ado_ai_web/api/files.py:139 | Inserting into a sorted sequence puts the new element after every element with the same key. |
| Sorting.SortByIsStable | src/ado_ai_web/api/files.py:139 | The elements with any one key come out in their input order, as Python's stable sort keeps them. |
| WorkItemsApi.UserRows | src/ado_ai_web/api/work_items.py:196-198 | A row is selected iff it is in the table and belongs to the user. |
| WorkItemsApi.Window | src/ado_ai_web/api/work_items.py:201 | OFFSET/LIMIT gives at most `limit` rows, namely the slice starting at the offset, clipped to the end; past the end it is empty. |
| WorkItemsApi.ListWorkItems | src/ado_ai_web/api/work_items.py:175-222 | The request is rejected with 422 iff limit is outside 1..100 or offset is negative. A result has at most `limit` rows. No user gives []. |
| WorkItemsApi.RankedIsUsersNewestFirst | src/ado_ai_web/api/work_items.py:196-200 | The ranking holds exactly the user's rows, each as often as in the table. Creation times never increase along it. |
| WorkItemsApi.ListedPage | src/ado_ai_web/api/work_items.py:196-220 | A page is the selected slice of the ranking, one item per row. It holds only the user's rows, newest first. |
| WorkItemsApi.EveryRowIsListed | src/ado_ai_web/api/work_items.py:196-201 | Every row of the user appears on some page. |
| WorkItemsApi.ProcessEntry | src/ado_ai_web/api/work_items.py:282-327 | An entry with a falsy path or null content is rejected with "Missing path or content". Its path is reported as given, or "unknown" when falsy. A write is attempted only for a string path whose resolved target passes the containment test against the resolved folder. |
| WorkItemsApi.ProcessAll | src/ado_ai_web/api/work_items.py:282-327 | One result per entry, in input order, unless a non-object entry stops the loop with an unhandled error. Every attempted write passed the containment test. |
| WorkItemsApi.CountsAddUp | src/ado_ai_web/api/work_items.py:336-337 | succeeded + failed equals the number of results. |
| WorkItemsApi.AllSucceededIff | src/ado_ai_web/api/work_items.py:329-330 | `all(success)` holds iff the success count equals the result count. |
| WorkItemsApi.Precheck | src/ado_ai_web/api/work_items.py:240-277 | Rejections come in this order: no user (404 "No user found"); a record missing or not the user's (404 "Analysis {id} not found"); no work folder (400); a falsy analysis (400 "No file changes found in analysis result"); an analysis that is not an object (unhandled); falsy file changes (400, same text); a missing folder (400 "Work folder does not exist: …"); file changes that are not a list (unhandled). Otherwise the request goes ahead. |
| WorkItemsApi.ApplyWith | src/ado_ai_web/api/work_items.py:240-277 | A rejected request answers with that error and writes nothing. |
| WorkItemsApi.ApplyFileChanges | src/ado_ai_web/api/work_items.py:226-339 | A rejected request answers with the precheck's error and writes nothing. Every file written resolves to the resolved work folder or a path below it, component-wise. |
| WorkItemsApi.ApplyFileChangesAsWritten | src/ado_ai_web/api/work_items.py:296-307 | As written, a rejected request still writes nothing, but a file written is only known to have a resolved path that starts with the folder's resolved path string. |
| WorkItemsApi.SummaryCounts | src/ado_ai_web/api/work_items.py:329-339 | files_processed equals the entry count and equals succeeded + failed. success holds iff every entry was written. There is one result per entry, in input order. |
| WorkItemsApi.SiblingWriteAsWritten | src/ado_ai_web/api/work_items.py:300-301 | With the prefix test, an entry resolving to "/tmp/work-evil/x" is written for folder "/tmp/work". The corrected test rejects it as path traversal and writes nothing. |
| FilesApi.AllowedBaseDirs | src/ado_ai_web/api/files.py:32-38 | Five allowed bases, the home directory first. |
| FilesApi.AnyBaseContainsIff | src/ado_ai_web/api/files.py:41-51 | A path is allowed iff some existing base resolves to a directory containing it, and every existing base before it resolves. A base whose resolution raises makes the answer false. |
| FilesApi.IsPathAllowed | src/ado_ai_web/api/files.py:41-51 | A path is allowed iff it resolves and some existing base, after no existing base whose resolution raises, resolves to a directory that contains it component-wise. |
| FilesApi.IsPathAllowedAsWritten | src/ado_ai_web/api/files.py:41-51 | The same search as written, with containment meaning that the resolved path string starts with the base's resolved string. |
| FilesApi.CorrectedAllowsLess | src/ado_ai_web/api/files.py:45-49 | Whatever the corrected test allows, the test as written allows too. |
| FilesApi.SiblingAllowedAsWritten | src/ado_ai_web/api/files.py:45-49 | As written, "/opt-backup/keys" passes as lying within "/opt". The corrected test refuses it. |
| FilesApi.EntryOf | src/ado_ai_web/api/files.py:119-126 | An entry keeps the item's name, path and directory flag. The size is present iff the item is a regular file. |
| FilesApi.Shown | src/ado_ai_web/api/files.py:107-130 | The listing has at most as many entries as there are items. An entry is listed iff it comes from an item that is not hidden: no leading ".", none of the seven system names, and `stat()` succeeds. |
| FilesApi.SortEntries | src/ado_ai_web/api/files.py:139 | The entries are a permutation of the listed ones, ordered by the key (not is_directory, lowercased name), so no file comes before a directory. |
| FilesApi.SortEntriesIsStable | src/ado_ai_web/api/files.py:139 | Entries with the same display key keep their listing order. |
| FilesApi.SameKindByName | src/ado_ai_web/api/files.py:139 | Among entries of the same kind, the lowercased names ascend by code point. |
| FilesApi.ParentLink | src/ado_ai_web/api/files.py:99-104 | The parent link is absent at the root or when the parent is not allowed, and otherwise is the parent. "Allowed" is the corrected component-wise test (FilesApi.IsPathAllowed); the `startswith` test as written also links a sibling parent such as "/opt-backup" under base "/opt" (FilesApi.SiblingAllowedAsWritten). |
| FilesApi.BrowseChecks | src/ado_ai_web/api/files.py:75-97 | The checks come in order: not allowed (403), not found (404), not a directory (400). Browsing succeeds iff all three pass and the directory can be read. |
| FilesApi.BrowseDirectory | src/ado_ai_web/api/files.py:55-156 | Each failing check gives its status and text: an unresolvable path 500, not allowed 403, not found 404, not a directory 400, an unreadable directory 403, another listing error 500. A success carries the resolved path, its parent link and the visible entries in display order. The 403 gate is the corrected component-wise test; as written, a sibling such as "/opt-backup/keys" under base "/opt" is browsed (FilesApi.SiblingAllowedAsWritten). |
| FilesApi.BrowseListing | src/ado_ai_web/api/files.py:99-145 | A listing shows the current path and exactly the visible entries, each as often as listed, ordered by the display key. The root has no parent link. |
| FilesApi.ValidatePath | src/ado_ai_web/api/files.py:157-199 | An unresolvable path gives "Invalid path: …". Then the checks run in order with their own messages: "Path is outside allowed directories", "Path does not exist", "Path is not a directory", and otherwise valid with "Path is valid and accessible" and the resolved path. "Outside allowed directories" uses the corrected component-wise test; as written, a sibling such as "/opt-backup/keys" under base "/opt" validates (FilesApi.SiblingAllowedAsWritten). |
| FilesApi.ValidateAgreesWithBrowse | src/ado_ai_web/api/files.py:75-193 | A path browses successfully iff it validates and its directory can be read. |

## Left out

- Terminal and process I/O are not modelled. This covers the presenter, the CLI entry point, logging, and the legacy orchestrator `workflow_old.py`, which duplicates the modelled logic.
- Retry delays are not modelled: the backoff timing of the decorators has no observable effect on the single-attempt outcome.
- Encryption is not modelled: encrypt and decrypt are oracle functions. Decryption returns a result, so its failures (an invalid token, an empty ciphertext) are modelled and propagate.
- The database engine, sessions and request/response schemas are not modelled. Tables are maps or sequences of rows, and a commit is a new value.
- Config-file discovery is not modelled: the server-wide configuration contributes only its optional API key, as a parameter.
- Client construction (`__init__` of the two clients) is not modelled. It only builds library objects from the settings.
- JSON decoding, the regex engine's internals, `Path.resolve`, `exists`, `is_dir`, `iterdir`, `mkdir` and `write_text` are oracle parameters.
- `get_default_user` is an input: it is a database query outside the modelled rules.
- The other `work_items.py` endpoints (`get_work_item`, `analyze`, `get_analysis_result`) are not modelled: they only forward to the service functions, which are modelled.
- `get_settings` is not modelled: it only caches the result of `load_settings`.
- Floating-point values are not modelled as floats. Temperature and remaining work are exact `real` values, with no rounding to the nearest double. A float's `str()` text is carried with it: as input data when it arrives as a float, and as the canonical plain decimal when it is read from text or made from an integer. That plain decimal equals Python's `str()` only when it is already the shortest text of a double ("2.5", "0.1", but not a twenty-digit fraction) and Python would not switch to exponent form, which it does below 1e-4 and from 1e16 up: `str(float(i))` for |i| of 1e16 or more is "1e+16" and the like, not `str(i) + ".0".
- History timestamps are clock readings, not dates; their ISO rendering in the history listing is left out.
- Config.BuildSettings: the failure reports the failing field names joined by ", ", not pydantic's full validation message text. The org URL is stored as given: the host's case folding and the trailing slash that `HttpUrl` adds are not modelled.
- Config.ValidOrgUrl: of the `HttpUrl` type only an http or https scheme followed by a non-empty rest is checked, not the full URL syntax.
- Strings.Lower: lowercases ASCII letters only; the source's `str.lower()` also folds non-ASCII letters.
- ClaudeClient.AnalyzeWorkItem: the fixed system prompt and the request parameters (model, max tokens, temperature) are inside the API-call oracle, which receives only the user prompt.
- ClaudeClient.AnalysisFromJson: the analysis result is typed. A present key of an unexpected JSON type makes the analysis fail with a modelled error, whereas the source stores the value untyped.
- ClaudeClient.TypeName: every integral number is named `int`, whereas Python names a decoded `1.0` `float`.
- ClaudeClient.CostMicros: the cost is exact micro-dollars, not the source's float dollars.
- AdoClient.GetComments: the `top` count is passed to the backend unchanged, so it is part of the oracle.
- SettingsManager.DeleteUserAndSettings: history and file-access log rows are outside the modelled database, so the corrected delete says nothing about them; in the as-written delete the set of their owners is a parameter.
- SettingsManager.UpdateSettings: encrypting an empty secret raises ValueError("Cannot encrypt empty string") in the source; the encrypt oracle is total, so that failure is not modelled.
- SettingsManager.CreateUserAndSettings: an empty PAT or API key would make encryption raise the same ValueError; that failure is not modelled either.
- AdoClient.MapWorkItem: the raw field bag holds nulls, strings, booleans, integers, floats, objects and identities, not JSON lists. Of pydantic's lax coercions, these forms are not modelled and are refused: integer text with `_` separators or over 4300 digits; float text with an exponent, `inf` or `nan`; date text with a separator other than `T` or a space, a `±HHMM` or `±HH` offset, more than six fraction digits, or a fractional timestamp; and timestamps given as text with a fraction. Whitespace trimming follows `str.strip`, not pydantic's own.
- AdoClient.GetWorkItem: when a returned field has the wrong type, the text after "Failed to fetch work item: " is the model's own ("invalid value for …", "invalid link entry html"), not pydantic's validation message.
- WorkItemsApi.ListWorkItems: rows with equal creation times keep table order; the database leaves their order unspecified. A rejected query reports only the names of the failing parameters, not the framework's detail text.
- WorkItemsApi.ApplyFileChanges: the response's `work_folder` is the stored path, not its `str(Path(...))` normalisation. An unhandled error (a non-object entry or analysis) is a bare 500.
- FilesApi.BrowseDirectory: the browser, its parent link (FilesApi.ParentLink) and the validator (FilesApi.ValidatePath) are modelled with the corrected containment test of the second "## Findings" row, not the `startswith` test as written; FilesApi.IsPathAllowedAsWritten and FilesApi.SiblingAllowedAsWritten model the test as written. The directory listing arrives in `sorted(iterdir())` order from the oracle. An entry's modification time is the text `str()` gives for it.

## Findings

| source | as written | input that shows it | evidently intended | confidence | as-written member | corrected member |
|---|---|---|---|---|---|---|
| src/ado_ai_web/api/work_items.py:300-301 | A file target counts as inside the work folder when its resolved path string starts with the folder's resolved path string. | Folder "/tmp/work" and entry path "../work-evil/x": the target resolves to "/tmp/work-evil/x", which passes the check and is written. | The target must be the folder itself or lie below it, component-wise, as the "Path traversal detected - file must be within work folder" message says. | high; not executed | WorkItemsApi.SiblingWriteAsWritten | WorkItemsApi.ApplyFileChanges |
| src/ado_ai_web/api/files.py:45-49 | A path counts as allowed when its resolved string starts with an allowed base's resolved string. | Base "/opt" and path "/opt-backup/keys": the path is allowed, so a sibling of the allowed directory can be browsed. | The path must be the base or lie below it, as the "outside allowed directories" message says. | high; not executed | FilesApi.SiblingAllowedAsWritten | FilesApi.IsPathAllowed |
| src/ado_ai_web/services/settings_manager.py:256-262 | Only the user row is deleted. The user's relationships to its settings, history and file-access log rows declare no cascade (src/ado_ai_web/models/database.py:25-27), so the session sets those rows' `user_id` to NULL on flush, and that column is NOT NULL in all three tables (database.py lines 39, 75 and 116). | Any user made by `create_user_and_settings`, which always owns a settings row: the commit raises an integrity error and nothing is deleted. | The user and all its settings are deleted, as the method's documentation says. | high; not executed | SettingsManager.DeleteFailsForCreatedUser | SettingsManager.DeleteForgetsOnlyThatUser |

=== FILE: ado_client.dfy ===
/** The tracking-service client (src/ado_ai_cli/azure_devops/client.py): fetching
    a work item and classifying the backend's failures, mapping its raw field bag
    onto a `WorkItem`, sending updates and comments, reading comments, and
    normalising identity references. Every backend call is an oracle value: what
    the call returned, or the exception it raised. */
module AdoClient {
  import opened Wrappers
  import opened Strings
  import opened Errors
  import opened Models
  import opened DateTimes
  import Lax
  import Retry

  /** A work item as the backend returns it; `fields` and `links` may be absent. */
  datatype RawWorkItem = RawWorkItem(id: int, fields: Option<map<string, Value>>, links: Option<map<string, Value>>)

  /** A comment as the backend library returns it; the library has already
      read its two dates into `datetime` objects. */
  datatype RawComment = RawComment(id: int, text: Value, createdBy: Value,
                                   createdDate: Option<ValidDateTime>, modifiedDate: Option<ValidDateTime>)

  /** One operation of the JSON patch document an update sends. */
  datatype PatchOp = PatchOp(op: string, path: string, value: FieldValue)

  /** The retry predicate of all three decorated methods: the backend library's service error. */
  predicate IsServiceError(e: Error) {
    e.ServiceError?
  }

  // Field names of the tracking service.
  const TypeField := "System.WorkItemType"
  const TitleField := "System.Title"
  const StateField := "System.State"
  const DescriptionField := "System.Description"
  const ReproStepsField := "Microsoft.VSTS.TCM.ReproSteps"

  /** `d.get(key, default)`. */
  function GetOrDefault(d: map<string, Value>, key: string, default: Value): Value {
    if key in d then d[key] else default
  }

  /** Validation of a required `str` field. */
  function AsStr(v: Value, name: string): Result<string, string> {
    if v.Str? then Success(v.s) else Failure("invalid value for " + name)
  }

  /** Validation of an `Optional[str]` field: numbers are not turned into text. */
  function AsOptStr(v: Value, name: string): Result<Option<string>, string> {
    match v
    case Null => Success(None)
    case Str(s) => Success(Some(s))
    case _ => Failure("invalid value for " + name)
  }

  /** Validation of an `Optional[int]` field: an integer, a boolean as 1 or 0,
      a float with a whole value, or a string that reads as an integer. */
  function AsOptInt(v: Value, name: string): (r: Result<Option<int>, string>)
    ensures v.Num? ==> (r.Success? <==> v.f.value.Floor as real == v.f.value)
    ensures v.Num? && r.Success? ==> r.value.Some? && r.value.value as real == v.f.value
  {
    match v
    case Null => Success(None)
    case Int(i) => Success(Some(i))
    case Bool(b) => Success(Some(if b then 1 else 0))
    case Num(f) =>
      if f.value.Floor as real == f.value then Success(Some(f.value.Floor)) else Failure("invalid value for " + name)
    case Str(s) => Found(Lax.ParseIntText(s), name)
    case _ => Failure("invalid value for " + name)
  }

  /** What a text reader found, or the field's validation failure. */
  function Found<T>(t: Option<T>, name: string): Result<Option<T>, string> {
    if t.Some? then Success(Some(t.value)) else Failure("invalid value for " + name)
  }

  /** Validation of an `Optional[float]` field: a float, an integer or a
      boolean (which becomes the float of the same value), or a string that
      reads as a decimal. */
  function AsOptFloat(v: Value, name: string): Result<Option<Float>, string> {
    match v
    case Null => Success(None)
    case Num(f) => Success(Some(f))
    case Int(i) => Success(Some(Float(i as real, IntToString(i) + ".0")))
    case Bool(b) => Success(Some(if b then Float(1.0, "1.0") else Float(0.0, "0.0")))
    case Str(s) => Found(Lax.ParseFloatText(s), name)
    case _ => Failure("invalid value for " + name)
  }

  /** Validation of an `Optional[datetime]` field: ISO 8601 text, or a Unix
      time given as an integer, a whole float or a string of digits; a
      boolean is refused. */
  function AsOptDateTime(v: Value, name: string): Result<Option<ValidDateTime>, string> {
    match v
    case Null => Success(None)
    case Str(s) =>
      if ParseIso(s).Some? then Success(Some(ParseIso(s).value))
      else UnixTime(Lax.ParseSigned(s), name)
    case Int(i) => UnixTime(Some(i), name)
    case Num(f) => UnixTime(if f.value.Floor as real == f.value then Some(f.value.Floor) else None, name)
    case _ => Failure("invalid value for " + name)
  }

  /** A Unix time read as a UTC `datetime`; a missing or out-of-range time is invalid. */
  function UnixTime(t: Option<int>, name: string): Result<Option<ValidDateTime>, string> {
    if t.Some? && FromTimestamp(t.value).Some? then Success(Some(FromTimestamp(t.value).value))
    else Failure("invalid value for " + name)
  }

  /** `_extract_identity_name`: none stays none, a string is itself, a dict gives
      `displayName or uniqueName`, an identity object its display name, else its
      unique name, else its `str()`. */
  function ExtractIdentityName(v: Value): (r: Value)
    ensures v.Null? ==> r.Null?
    ensures v.Str? ==> r == v
    ensures v.Dict? && Truthy(Get(v.entries, "displayName")) ==> r == v.entries["displayName"]
    ensures v.Dict? && !Truthy(Get(v.entries, "displayName")) ==> r == Get(v.entries, "uniqueName")
    ensures v.Identity? && v.displayName.Some? ==> r == v.displayName.value
    ensures v.Identity? && v.displayName.None? && v.uniqueName.Some? ==> r == v.uniqueName.value
    ensures v.Identity? && v.displayName.None? && v.uniqueName.None? ==> r == Str(v.text)
  {
    match v
    case Null => Null
    case Str(_) => v
    case Dict(d) => Or(Get(d, "displayName"), Get(d, "uniqueName"))
    case Identity(dn, un, text) =>
      if dn.Some? then dn.value else if un.Some? then un.value else Str(text)
    case Bool(b) => Str(if b then "True" else "False")
    case Int(i) => Str(IntToString(i))
    case Num(f) => Str(f.text)
  }

  /** A dict identity never falls back to a rendering of itself: with neither name
      truthy the result is the unique name as given, possibly none. */
  lemma DictIdentityHasNoTextFallback(d: map<string, Value>)
    requires !Truthy(Get(d, "displayName"))
    ensures ExtractIdentityName(Dict(d)) == Get(d, "uniqueName")
    ensures "uniqueName" !in d ==> ExtractIdentityName(Dict(d)) == Null
  {
  }

  /** The browser link: none without links, else the `href` of the `html` entry. */
  function HtmlUrl(links: Option<map<string, Value>>): Result<Option<string>, string> {
    if links.None? then Success(None)
    else
      var html := GetOrDefault(links.value, "html", Dict(map[]));
      if html.Dict? then AsOptStr(Get(html.entries, "href"), "url")
      else Failure("invalid link entry html")
  }

  /** The fields every work item shows first. */
  datatype Header = Header(workItemType: string, title: string, state: string, description: Option<string>)

  /** Who touched the item, when, and where it is filed. */
  datatype Details = Details(assignedTo: Option<string>, createdBy: Option<string>, createdDate: Option<ValidDateTime>,
                             changedDate: Option<ValidDateTime>, areaPath: Option<string>, iterationPath: Option<string>,
                             tags: Option<string>)

  /** The numbers and the type-specific texts. */
  datatype Planning = Planning(priority: Option<int>, remainingWork: Option<Float>, completedWork: Option<Float>,
                               acceptanceCriteria: Option<string>, reproSteps: Option<string>, systemInfo: Option<string>)

  function MapHeader(f: map<string, Value>): Result<Header, string> {
    var workItemType :- AsStr(GetOrDefault(f, TypeField, Str("Unknown")), "work_item_type");
    var title :- AsStr(GetOrDefault(f, TitleField, Str("")), "title");
    var state :- AsStr(GetOrDefault(f, StateField, Str("")), "state");
    var description :- AsOptStr(Or(Get(f, DescriptionField), Get(f, ReproStepsField)), "description");
    Success(Header(workItemType, title, state, description))
  }

  function MapDetails(f: map<string, Value>): Result<Details, string> {
    var assignedTo :- AsOptStr(ExtractIdentityName(Get(f, "System.AssignedTo")), "assigned_to");
    var createdBy :- AsOptStr(ExtractIdentityName(Get(f, "System.CreatedBy")), "created_by");
    var createdDate :- AsOptDateTime(Get(f, "System.CreatedDate"), "created_date");
    var changedDate :- AsOptDateTime(Get(f, "System.ChangedDate"), "changed_date");
    var areaPath :- AsOptStr(Get(f, "System.AreaPath"), "area_path");
    var iterationPath :- AsOptStr(Get(f, "System.IterationPath"), "iteration_path");
    var tags :- AsOptStr(Get(f, "System.Tags"), "tags");
    Success(Details(assignedTo, createdBy, createdDate, changedDate, areaPath, iterationPath, tags))
  }

  function MapPlanning(f: map<string, Value>): Result<Planning, string> {
    var priority :- AsOptInt(Get(f, "Microsoft.VSTS.Common.Priority"), "priority");
    var remainingWork :- AsOptFloat(Get(f, "Microsoft.VSTS.Scheduling.RemainingWork"), "remaining_work");
    var completedWork :- AsOptFloat(Get(f, "Microsoft.VSTS.Scheduling.CompletedWork"), "completed_work");
    var acceptanceCriteria :- AsOptStr(Get(f, "Microsoft.VSTS.Common.AcceptanceCriteria"), "acceptance_criteria");
    var reproSteps :- AsOptStr(Get(f, ReproStepsField), "repro_steps");
    var systemInfo :- AsOptStr(Get(f, "Microsoft.VSTS.TCM.SystemInfo"), "system_info");
    Success(Planning(priority, remainingWork, completedWork, acceptanceCriteria, reproSteps, systemInfo))
  }

  /** The field mapping of `get_work_item` followed by the model's validation,
      field by field in declaration order; the first invalid field is reported. */
  function MapWorkItem(raw: RawWorkItem): (r: Result<WorkItem, string>)
    ensures r.Success? ==> r.value.id == raw.id && r.value.rawFields == raw.fields.GetOr(map[])
  {
    var f := raw.fields.GetOr(map[]);
    var h :- MapHeader(f);
    var d :- MapDetails(f);
    var p :- MapPlanning(f);
    var url :- HtmlUrl(raw.links);
    Success(WorkItem(raw.id, h.workItemType, h.title, h.state, h.description, d.assignedTo, d.createdBy,
      d.createdDate, d.changedDate, d.areaPath, d.iterationPath, d.tags, p.priority, p.remainingWork,
      p.completedWork, p.acceptanceCriteria, p.reproSteps, p.systemInfo, url, f))
  }

  /** The mapping's defaults: a missing type reads "Unknown", a missing title or
      state reads "", the id and raw fields are carried over, and the description
      falls back to the repro steps exactly when the description is missing or
      empty. */
  lemma MappingDefaults(raw: RawWorkItem)
    requires MapWorkItem(raw).Success?
    ensures var w, f := MapWorkItem(raw).value, raw.fields.GetOr(map[]);
      && w.id == raw.id
      && w.rawFields == f
      && (TypeField !in f ==> w.workItemType == "Unknown")
      && (TitleField !in f ==> w.title == "")
      && (StateField !in f ==> w.state == "")
      && (Truthy(Get(f, DescriptionField)) ==> w.description == Some(f[DescriptionField].s))
      && (!Truthy(Get(f, DescriptionField)) ==> w.description == w.reproSteps)
  {
    var f := raw.fields.GetOr(map[]);
    MapWorkItemParts(raw);
    HeaderDefaults(f);
    PlanningReproSteps(f);
  }

  /** A mapped item is assembled from its three stages. */
  lemma MapWorkItemParts(raw: RawWorkItem)
    requires MapWorkItem(raw).Success?
    ensures var f, w := raw.fields.GetOr(map[]), MapWorkItem(raw).value;
      && MapHeader(f).Success? && MapPlanning(f).Success?
      && w.id == raw.id && w.rawFields == f
      && w.workItemType == MapHeader(f).value.workItemType && w.title == MapHeader(f).value.title
      && w.state == MapHeader(f).value.state && w.description == MapHeader(f).value.description
      && w.reproSteps == MapPlanning(f).value.reproSteps
  {
  }

  lemma HeaderDefaults(f: map<string, Value>)
    requires MapHeader(f).Success?
    ensures var h := MapHeader(f).value;
      && (TypeField !in f ==> h.workItemType == "Unknown")
      && (TitleField !in f ==> h.title == "")
      && (StateField !in f ==> h.state == "")
      && (Truthy(Get(f, DescriptionField)) ==> h.description == Some(f[DescriptionField].s))
      && (!Truthy(Get(f, DescriptionField)) ==> h.description == AsOptStr(Get(f, ReproStepsField), "description").value)
  {
  }

  lemma PlanningReproSteps(f: map<string, Value>)
    requires MapPlanning(f).Success?
    ensures AsOptStr(Get(f, ReproStepsField), "description").Success?
    ensures MapPlanning(f).value.reproSteps == AsOptStr(Get(f, ReproStepsField), "description").value
  {
  }

  /** An integer field takes an integer as it is, as its text, as its text
      with a point and zeros after it, and as a float of the same value. */
  lemma IntFieldCoercion(i: int, zeros: string, text: string, name: string)
    requires forall j :: 0 <= j < |zeros| ==> zeros[j] == '0'
    ensures AsOptInt(Int(i), name) == Success(Some(i))
    ensures AsOptInt(Str(IntToString(i)), name) == Success(Some(i))
    ensures AsOptInt(Str(IntToString(i) + "." + zeros), name) == Success(Some(i))
    ensures AsOptInt(Num(Float(i as real, text)), name) == Success(Some(i))
  {
    IntValueField(i, text, name);
    Lax.IntTextRoundTrip(i);
    IntTextField(IntToString(i), i, name);
    Lax.ZeroFractionRoundTrip(i, zeros);
    IntTextField(IntToString(i) + "." + zeros, i, name);
  }

  lemma IntValueField(i: int, text: string, name: string)
    ensures AsOptInt(Int(i), name) == Success(Some(i))
    ensures AsOptInt(Num(Float(i as real, text)), name) == Success(Some(i))
  {
  }

  lemma IntFloatField(i: int, name: string)
    ensures AsOptFloat(Int(i), name) == Success(Some(Float(i as real, IntToString(i) + ".0")))
  {
  }

  lemma BoolValueField(b: bool, name: string)
    ensures AsOptInt(Bool(b), name) == Success(Some(if b then 1 else 0))
    ensures AsOptFloat(Bool(b), name) == Success(Some(if b then Float(1.0, "1.0") else Float(0.0, "0.0")))
    ensures AsOptStr(Bool(b), name).Failure? && AsOptDateTime(Bool(b), name).Failure?
  {
  }

  lemma IntTextField(t: string, i: int, name: string)
    requires Lax.ParseIntText(t) == Some(i)
    ensures AsOptInt(Str(t), name) == Success(Some(i))
  {
  }

  lemma FloatTextField(t: string, f: Float, name: string)
    requires Lax.ParseFloatText(t) == Some(f)
    ensures AsOptFloat(Str(t), name) == Success(Some(f))
  {
  }

  /** A float field read from text keeps a text that reads back as the same
      float, and an integer becomes the float that its own text names. */
  lemma FloatFieldCoercion(s: string, i: int, name: string)
    ensures Lax.ParseFloatText(s).Some? ==>
      var r := AsOptFloat(Str(s), name);
      r.Success? && r.value.Some? && AsOptFloat(Str(r.value.value.text), name) == r
    ensures Lax.ParseFloatText(s).None? ==> AsOptFloat(Str(s), name).Failure?
    ensures var r := AsOptFloat(Int(i), name);
      r.Success? && r.value.Some? && AsOptFloat(Str(r.value.value.text), name) == r
  {
    if Lax.ParseFloatText(s).Some? {
      var f := Lax.ParseFloatText(s).value;
      FloatTextField(s, f, name);
      Lax.FloatTextStable(s);
      FloatTextField(f.text, f, name);
    }
    var t := IntToString(i) + ".0";
    IntFloatField(i, name);
    Lax.IntFloatText(i);
    FloatTextField(t, Float(i as real, t), name);
  }

  /** A boolean reads as 1 or 0 in a number field, with the same truth value
      as the flag, and is refused by the text and date fields. */
  lemma BoolFieldCoercion(b: bool, name: string)
    ensures AsOptInt(Bool(b), name) == Success(Some(if b then 1 else 0))
    ensures Truthy(Bool(b)) <==> AsOptInt(Bool(b), name).value.value != 0
    ensures var r := AsOptFloat(Bool(b), name);
      && r.Success? && r.value.Some? && r.value.value.value == (if b then 1.0 else 0.0)
      && AsOptFloat(Str(r.value.value.text), name) == r
    ensures AsOptStr(Bool(b), name).Failure? && AsOptDateTime(Bool(b), name).Failure?
  {
    BoolValueField(b, name);
    var f := if b then Float(1.0, "1.0") else Float(0.0, "0.0");
    BoolFloatText(b);
    FloatTextField(f.text, f, name);
  }

  /** The text of `float(True)` and `float(False)` reads back as that float. */
  lemma BoolFloatText(b: bool)
    ensures Lax.ParseFloatText(if b then "1.0" else "0.0") == Some(if b then Float(1.0, "1.0") else Float(0.0, "0.0"))
  {
    var i := if b then 1 else 0;
    assert IntToString(i) == [DigitChar(i)];
    assert IntToString(i) + ".0" == if b then "1.0" else "0.0";
    Lax.IntFloatText(i);
  }


  /** A date field reads the ISO text of any date back as that date. */
  lemma DateFieldRoundTrip(d: ValidDateTime, name: string)
    ensures AsOptDateTime(Str(IsoFormat(d)), name) == Success(Some(d))
  {
    IsoRoundTrip(d);
  }

  /** A timestamp before 1600, in seconds or in milliseconds, fails the date field. */
  lemma DateFieldRefusesBefore1600(t: int, name: string)
    requires t < Unix1600 * 1000 || -20000000000 <= t < Unix1600
    ensures AsOptDateTime(Int(t), name).Failure?
  {
    Before1600Refused(t);
  }

  /** A date field reads a whole-second UTC time from 1600 on back from its
      Unix timestamp, given as an integer, a whole float or its text. */
  lemma DateFieldFromTimestamp(d: ValidDateTime, text: string, name: string)
    requires d.offset == Some(0) && d.micro == 0
    requires Unix1600 <= UnixSeconds(d) <= 20000000000
    ensures AsOptDateTime(Int(UnixSeconds(d)), name) == Success(Some(d))
    ensures AsOptDateTime(Num(Float(UnixSeconds(d) as real, text)), name) == Success(Some(d))
    ensures AsOptDateTime(Str(IntToString(UnixSeconds(d))), name) == Success(Some(d))
  {
    var t := UnixSeconds(d);
    UnixSecondsRoundTrip(d);
    var s := IntToString(t);
    SignOfRendering(t);
    if t >= 0 {
      assert AllDigits(s);
    }
    NotIsoDate(s);
    Lax.ParseRendering(t);
  }

  /** A work item without a field bag maps to the all-defaults item. */
  lemma EmptyFieldsMapToDefaults(id: int)
    ensures MapWorkItem(RawWorkItem(id, None, None)).Success?
    ensures var w := MapWorkItem(RawWorkItem(id, None, None)).value;
      w.workItemType == "Unknown" && w.title == "" && w.state == "" && w.description.None?
      && w.priority.None? && w.remainingWork.None? && w.url.None? && w.rawFields == map[]
  {
  }

  /** `get_work_item`, one attempt: `backend` is what the library call returned
      (possibly none) or raised. */
  function GetWorkItem(id: int, backend: Result<Option<RawWorkItem>, Error>): (r: Result<WorkItem, Error>)
    ensures backend.Success? && backend.value.None? ==> r == Failure(WorkItemNotFoundError(id))
    ensures backend.Failure? && backend.error.ServiceError? ==>
      match backend.error.statusCode
      case Some(404) => r == Failure(WorkItemNotFoundError(id))
      case Some(401) => r == Failure(AuthenticationError("Invalid PAT or insufficient permissions"))
      case Some(403) => r == Failure(AuthenticationError("Invalid PAT or insufficient permissions"))
      case _ => r == Failure(AzureDevOpsError("Azure DevOps API error: " + backend.error.message))
    ensures backend.Failure? && !backend.error.ServiceError? && !IsA(backend.error, WorkItemNotFoundClass) ==>
      r == Failure(AzureDevOpsError("Failed to fetch work item: " + Message(backend.error)))
    ensures backend.Failure? && !backend.error.ServiceError? && IsA(backend.error, WorkItemNotFoundClass) ==>
      r == Failure(backend.error)
    ensures backend.Success? && backend.value.Some? ==>
      var m := MapWorkItem(backend.value.value);
      && (m.Success? ==> r == Success(m.value))
      && (m.Failure? ==> r == Failure(AzureDevOpsError("Failed to fetch work item: " + m.error)))
    ensures r.Success? ==> backend.Success? && backend.value.Some? && r.value.id == backend.value.value.id
    ensures r.Failure? ==> !IsServiceError(r.error) && IsA(r.error, AdoAiClass)
  {
    match backend
    case Failure(e) => FetchFailed(id, e)
    case Success(None) => Failure(WorkItemNotFoundError(id))
    case Success(Some(raw)) => Mapped(raw)
  }

  /** What a raised error becomes: the service's 404 is "not found", 401 and
      403 are an authentication failure, other service errors and anything
      else are wrapped, and a "not found" raised as such passes through. */
  function FetchFailed(id: int, e: Error): (r: Result<WorkItem, Error>)
    ensures e.ServiceError? ==>
      match e.statusCode
      case Some(404) => r == Failure(WorkItemNotFoundError(id))
      case Some(401) => r == Failure(AuthenticationError("Invalid PAT or insufficient permissions"))
      case Some(403) => r == Failure(AuthenticationError("Invalid PAT or insufficient permissions"))
      case _ => r == Failure(AzureDevOpsError("Azure DevOps API error: " + e.message))
    ensures !e.ServiceError? && IsA(e, WorkItemNotFoundClass) ==> r == Failure(e)
    ensures !e.ServiceError? && !IsA(e, WorkItemNotFoundClass) ==>
      r == Failure(AzureDevOpsError("Failed to fetch work item: " + Message(e)))
    ensures r.Failure? && !IsServiceError(r.error) && IsA(r.error, AdoAiClass)
  {
    if e.ServiceError? then ServiceFailure(id, e.statusCode, e.message)
    else if IsA(e, WorkItemNotFoundClass) then
      Hierarchy();
      Failure(e)
    else Failure(AzureDevOpsError("Failed to fetch work item: " + Message(e)))
  }

  /** A service error by its status code. */
  function ServiceFailure(id: int, code: Option<int>, m: string): (r: Result<WorkItem, Error>)
    ensures code == Some(404) ==> r == Failure(WorkItemNotFoundError(id))
    ensures code == Some(401) || code == Some(403) ==>
      r == Failure(AuthenticationError("Invalid PAT or insufficient permissions"))
    ensures code != Some(404) && code != Some(401) && code != Some(403) ==>
      r == Failure(AzureDevOpsError("Azure DevOps API error: " + m))
    ensures r.Failure? && !IsServiceError(r.error) && IsA(r.error, AdoAiClass)
  {
    Hierarchy();
    if code == Some(404) then Failure(WorkItemNotFoundError(id))
    else if code == Some(401) || code == Some(403) then
      Failure(AuthenticationError("Invalid PAT or insufficient permissions"))
    else Failure(AzureDevOpsError("Azure DevOps API error: " + m))
  }

  /** A returned item that maps is the result; one that does not is reported
      with the mapping's text. */
  function Mapped(raw: RawWorkItem): (r: Result<WorkItem, Error>)
    ensures MapWorkItem(raw).Success? ==> r == Success(MapWorkItem(raw).value)
    ensures MapWorkItem(raw).Failure? ==> r == Failure(AzureDevOpsError("Failed to fetch work item: " + MapWorkItem(raw).error))
    ensures r.Success? ==> r.value.id == raw.id
    ensures r.Failure? ==> !IsServiceError(r.error) && IsA(r.error, AdoAiClass)
  {
    match MapWorkItem(raw)
    case Success(w) => Success(w)
    case Failure(detail) => Failure(AzureDevOpsError("Failed to fetch work item: " + detail))
  }

  /** The retry decorator never re-attempts a fetch: whatever the backend does on
      each of the three allowed attempts, the first attempt's outcome is final. */
  lemma GetWorkItemSingleAttempt(id: int, b1: Result<Option<RawWorkItem>, Error>,
                                 b2: Result<Option<RawWorkItem>, Error>, b3: Result<Option<RawWorkItem>, Error>)
    ensures var outcomes := [GetWorkItem(id, b1), GetWorkItem(id, b2), GetWorkItem(id, b3)];
      Retry.Run(outcomes, IsServiceError) == Retry.Retried(GetWorkItem(id, b1), 1)
  {
    Retry.SingleAttempt([GetWorkItem(id, b1), GetWorkItem(id, b2), GetWorkItem(id, b3)], IsServiceError);
  }

  /** `add_comment`, one attempt: every failure becomes an `AzureDevOpsError`. */
  function AddComment(comment: string, backend: Option<Error>): (r: Result<(), Error>)
    ensures r.Success? <==> backend.None?
    ensures r.Failure? ==> r.error == AzureDevOpsError("Failed to add comment: " + Message(backend.value))
    ensures r.Failure? ==> !IsServiceError(r.error)
  {
    if backend.None? then Success(()) else Failure(AzureDevOpsError("Failed to add comment: " + Message(backend.value)))
  }

  /** The patch document: one "add" per field, at `/fields/{name}`, in the map's order. */
  function PatchDocument(fields: FieldMap): (doc: seq<PatchOp>)
    ensures |doc| == |fields|
    ensures forall i :: 0 <= i < |doc| ==>
      doc[i].op == "add" && doc[i].path == "/fields/" + fields[i].0 && doc[i].value == fields[i].1
  {
    if |fields| == 0 then [] else [PatchOp("add", "/fields/" + fields[0].0, fields[0].1)] + PatchDocument(fields[1..])
  }

  /** What `update_work_item` did: the patch document it sent, the comment it
      posted (if it got that far), and the result it returned. */
  datatype UpdateRun = UpdateRun(document: seq<PatchOp>, commentSent: Option<string>, result: UpdateWorkItemResult)

  /** `update_work_item`, one attempt. `updateBackend` is the failure the patch
      call raised, if any; `commentBackend` the failure of the comment call. */
  function UpdateWorkItem(id: int, fields: FieldMap, comment: Option<string>,
                          updateBackend: Option<Error>, commentBackend: Option<Error>): (run: UpdateRun)
    ensures run.document == PatchDocument(fields)
    ensures run.result.workItemId == id
    ensures run.result.success <==> updateBackend.None? && (!Present(comment) || commentBackend.None?)
    ensures run.result.success ==> run.result.updatedFields == Keys(fields) && run.result.errorMessage.None?
    ensures !run.result.success ==> run.result.updatedFields == [] && run.result.errorMessage.Some?
    ensures run.commentSent.Some? <==> updateBackend.None? && Present(comment)
    ensures run.commentSent.Some? ==> run.commentSent == comment
    ensures updateBackend.Some? && updateBackend.value.ServiceError? ==>
      run.result.errorMessage == Some("Azure DevOps API error: " + updateBackend.value.message)
    ensures updateBackend.Some? && !updateBackend.value.ServiceError? ==>
      run.result.errorMessage == Some("Failed to update work item: " + Message(updateBackend.value))
    ensures updateBackend.None? && Present(comment) && commentBackend.Some? ==>
      run.result.errorMessage == Some("Failed to update work item: " + ("Failed to add comment: " + Message(commentBackend.value)))
  {
    var doc := PatchDocument(fields);
    if updateBackend.Some? then
      var e := updateBackend.value;
      var msg := if e.ServiceError? then "Azure DevOps API error: " + e.message
                 else "Failed to update work item: " + Message(e);
      UpdateRun(doc, None, UpdateWorkItemResult(false, id, [], Some(msg)))
    else if Present(comment) then
      match AddComment(comment.value, commentBackend)
      case Success(_) => UpdateRun(doc, comment, UpdateWorkItemResult(true, id, Keys(fields), None))
      case Failure(e) =>
        UpdateRun(doc, comment, UpdateWorkItemResult(false, id, [], Some("Failed to update work item: " + Message(e))))
    else UpdateRun(doc, None, UpdateWorkItemResult(true, id, Keys(fields), None))
  }

  /** A failed comment makes the whole update report failure although the fields
      were already patched. */
  lemma CommentFailureMasksUpdate(id: int, fields: FieldMap, comment: string, e: Error)
    requires comment != ""
    ensures var run := UpdateWorkItem(id, fields, Some(comment), None, Some(e));
      run.document == PatchDocument(fields) && run.commentSent == Some(comment)
      && !run.result.success && run.result.updatedFields == []
  {
  }

  /** `get_comments`: validation of one backend entry. */
  function MapComment(c: RawComment): (r: Result<WorkItemComment, string>)
    ensures var author := ExtractIdentityName(c.createdBy);
      r.Success? <==> c.text.Str? && (author.Null? || author.Str?)
    ensures r.Success? ==>
      && r.value.id == c.id && r.value.text == c.text.s
      && r.value.createdDate == c.createdDate && r.value.modifiedDate == c.modifiedDate
  {
    var text :- AsStr(c.text, "text");
    var createdBy :- AsOptStr(ExtractIdentityName(c.createdBy), "created_by");
    Success(WorkItemComment(c.id, text, createdBy, c.createdDate, c.modifiedDate))
  }

  /** All entries mapped in order, or the first failure. */
  function MapComments(cs: seq<RawComment>): (r: Result<seq<WorkItemComment>, string>)
    ensures r.Success? <==> forall i :: 0 <= i < |cs| ==> MapComment(cs[i]).Success?
    ensures r.Success? ==> |r.value| == |cs| && forall i :: 0 <= i < |cs| ==> r.value[i] == MapComment(cs[i]).value
  {
    if |cs| == 0 then Success([])
    else
      var head :- MapComment(cs[0]);
      var tail :- MapComments(cs[1..]);
      Success([head] + tail)
  }

  /** `get_comments`, never failing: the backend returned a (possibly empty or
      absent) list of entries, or raised. `top` is passed to the backend
      unchanged, so it is part of the oracle. */
  function GetComments(backend: Result<Option<seq<RawComment>>, Error>): (r: seq<WorkItemComment>)
    ensures backend.Failure? ==> r == []
    ensures backend.Success? && backend.value.None? ==> r == []
    ensures backend.Success? && backend.value.Some? ==>
      var cs := backend.value.value;
      if forall i :: 0 <= i < |cs| ==> MapComment(cs[i]).Success? then
        |r| == |cs| && forall i :: 0 <= i < |cs| ==> r[i].id == cs[i].id && cs[i].text == Str(r[i].text)
      else r == []
  {
    match backend
    case Failure(_) => []
    case Success(None) => []
    case Success(Some(cs)) =>
      match MapComments(cs)
      case Success(list) => list
      case Failure(_) => []
  }
}

=== FILE: claude_client.dfy ===
/** The LLM client (src/ado_ai_cli/ai/claude_client.py): token accounting and
    pricing, extraction of a JSON object from the model's reply, the analysis
    result with its defaults, and the translation of the API library's
    exceptions. The API call is an oracle: a function from the user prompt to
    the library's response or the exception it raised. JSON decoding is an
    oracle too. */
module ClaudeClient {
  import opened Wrappers
  import opened Strings
  import opened Json
  import opened Errors
  import Models
  import Prompts
  import Retry

  datatype TokenUsage = TokenUsage(inputTokens: nat, outputTokens: nat)

  /** `TokenUsage.total_tokens`. */
  function TotalTokens(u: TokenUsage): (n: nat)
    ensures n >= u.inputTokens && n >= u.outputTokens
    ensures n - u.inputTokens == u.outputTokens
  {
    u.inputTokens + u.outputTokens
  }

  datatype PriceTier = OpusTier | SonnetTier

  /** The tier `calculate_cost` picks: "opus" in the lowercased name first,
      then "sonnet"; any other name is priced like opus. */
  function Tier(model: string): (t: PriceTier)
    ensures t == SonnetTier <==> !Contains(Lower(model), "opus") && Contains(Lower(model), "sonnet")
  {
    if Contains(Lower(model), "opus") then OpusTier
    else if Contains(Lower(model), "sonnet") then SonnetTier
    else OpusTier
  }

  /** Dollars per million input tokens and per million output tokens. */
  function InputRate(t: PriceTier): nat {
    match t
    case OpusTier => 5
    case SonnetTier => 1
  }

  function OutputRate(t: PriceTier): nat {
    match t
    case OpusTier => 25
    case SonnetTier => 5
  }

  /** `calculate_cost` in exact micro-dollars: a rate in dollars per million
      tokens is a rate in micro-dollars per token. */
  function CostMicros(u: TokenUsage, model: string): (c: nat)
    ensures Tier(model) == OpusTier ==> c == 5 * u.inputTokens + 25 * u.outputTokens
    ensures Tier(model) == SonnetTier ==> c == u.inputTokens + 5 * u.outputTokens
  {
    var t := Tier(model);
    u.inputTokens * InputRate(t) + u.outputTokens * OutputRate(t)
  }

  /** The micro-dollar cost is the source's dollar formula, evaluated exactly. */
  lemma CostMatchesDollarFormula(u: TokenUsage, model: string)
    ensures var t := Tier(model);
      CostMicros(u, model) as real / 1000000.0
      == (u.inputTokens as real / 1000000.0) * InputRate(t) as real
       + (u.outputTokens as real / 1000000.0) * OutputRate(t) as real
  {
  }

  /** The cost grows with either token count, for every model name. */
  lemma CostMonotone(a: TokenUsage, b: TokenUsage, model: string)
    requires a.inputTokens <= b.inputTokens && a.outputTokens <= b.outputTokens
    ensures CostMicros(a, model) <= CostMicros(b, model)
  {
    var t := Tier(model);
    assert a.inputTokens * InputRate(t) <= b.inputTokens * InputRate(t);
    assert a.outputTokens * OutputRate(t) <= b.outputTokens * OutputRate(t);
  }

  /** Three reference prices: a million input tokens on opus, a million output
      tokens on sonnet, and a million of each on a model of neither family. */
  lemma CostExamples()
    ensures CostMicros(TokenUsage(1000000, 0), "claude-opus-4-6") == 5000000
    ensures CostMicros(TokenUsage(0, 1000000), "claude-sonnet-4-5") == 5000000
    ensures CostMicros(TokenUsage(1000000, 1000000), "foo") == 30000000
  {
    assert OccursAt(Lower("claude-opus-4-6"), "opus", 7);
    var sonnet := Lower("claude-sonnet-4-5");
    assert sonnet == "claude-sonnet-4-5";
    assert OccursAt(sonnet, "sonnet", 7);
    assert "opus"[1] == 'p';
    MissingCharNotContained(sonnet, "opus", 'p');
    var foo := Lower("foo");
    assert foo == "foo";
    assert "sonnet"[2] == 'n';
    MissingCharNotContained(foo, "opus", 'p');
    MissingCharNotContained(foo, "sonnet", 'n');
  }

  /** The "opus" test comes first: a name mentioning both families is priced as opus. */
  lemma OpusCheckedFirst(model: string)
    requires Contains(Lower(model), "opus")
    ensures Tier(model) == OpusTier
  {
  }

  const NoJsonDetail := "Could not find valid JSON in response: line 1 column 1 (char 0)"

  /** The trimmed text between the first `marker` and the next fence after it.
      With no closing fence, Python's `find` gives -1 and the slice drops the
      text's last character. */
  function FencedBlock(text: string, marker: string): (r: string)
    requires Contains(text, marker)
    ensures |r| <= |text|
    ensures |r| == 0 || (!IsSpace(r[0]) && !IsSpace(r[|r| - 1]))
  {
    FindIffContains(text, marker);
    var start := Find(text, marker, 0) + |marker|;
    var end := Find(text, "```", start);
    Strip(Slice(text, start, end))
  }

  function DecodedOrError(d: DecodeResult): Result<Json, string> {
    match d
    case Decoded(v) => Success(v)
    case DecodeError(detail) => Failure(detail)
  }

  /** `_parse_json_response`: the whole text; else the first "```json" block;
      else the first fenced block; else the span from the first `{` to the
      last `}`; else a decode error. A fenced block that does not decode is
      final. */
  function ParseJsonResponse(text: string, decode: string -> DecodeResult): (r: Result<Json, string>)
    ensures decode(text).Decoded? ==> r == Success(decode(text).value)
    ensures decode(text).DecodeError? && Contains(text, "```json") ==>
      r == DecodedOrError(decode(FencedBlock(text, "```json")))
    ensures decode(text).DecodeError? && !Contains(text, "```json") && Contains(text, "```") ==>
      r == DecodedOrError(decode(FencedBlock(text, "```")))
  {
    match decode(text)
    case Decoded(v) => Success(v)
    case DecodeError(_) =>
      if Contains(text, "```json") then DecodedOrError(decode(FencedBlock(text, "```json")))
      else if Contains(text, "```") then DecodedOrError(decode(FencedBlock(text, "```")))
      else
        var start := Find(text, "{", 0);
        var end := RFind(text, '}') + 1;
        if start != -1 && end > start then DecodedOrError(decode(text[start..end]))
        else Failure(NoJsonDetail)
  }

  /** A reply that is a "```json" block with no earlier such marker and no
      backtick inside the block decodes exactly the trimmed block. */
  lemma JsonFenceExtraction(pre: string, body: string, post: string, decode: string -> DecodeResult)
    requires forall i :: 0 <= i < |pre| ==> !OccursAt(pre + "```json" + body + "```" + post, "```json", i)
    requires '`' !in body
    requires decode(pre + "```json" + body + "```" + post).DecodeError?
    ensures ParseJsonResponse(pre + "```json" + body + "```" + post, decode) == DecodedOrError(decode(Strip(body)))
  {
    var text := pre + "```json" + body + "```" + post;
    var s := |pre| + 7;
    var e := s + |body|;
    assert text == (pre + "```json") + body + ("```" + post);
    assert OccursAt(text, "```json", |pre|);
    FindIsFirst(text, "```json", 0, |pre|);
    FenceCloses(text, s, body);
    assert Slice(text, s, e) == body;
  }

  /** With no backtick in `text[s..s + |body|]` and a fence right after it,
      the next fence from `s` is there. */
  lemma FenceCloses(text: string, s: nat, body: string)
    requires s + |body| + 3 <= |text| && text[s..s + |body|] == body && text[s + |body|..s + |body| + 3] == "```"
    requires '`' !in body
    ensures Find(text, "```", s) == s + |body|
  {
    var e := s + |body|;
    forall i | s <= i < e
      ensures !OccursAt(text, "```", i)
    {
      assert text[i] == body[i - s];
    }
    FindIsFirst(text, "```", s, e);
  }

  /** With no fence at all, the brace span is decoded when a `{` comes before
      the last `}`, and otherwise the fixed decode error is raised. */
  lemma BraceFallback(text: string, decode: string -> DecodeResult)
    requires decode(text).DecodeError? && !Contains(text, "```")
    ensures var start, last := Find(text, "{", 0), RFind(text, '}');
      if 0 <= start < last then ParseJsonResponse(text, decode) == DecodedOrError(decode(text[start..last + 1]))
      else ParseJsonResponse(text, decode) == Failure(NoJsonDetail)
  {
    if Contains(text, "```json") {
      var i :| 0 <= i <= |text| - 7 && OccursAt(text, "```json", i);
      assert text[i..i + 3] == text[i..i + 7][..3] == "```";
      assert OccursAt(text, "```", i);
    }
  }

  /** The analysis as `analyze_work_item` builds it. Texts are `None` where the
      reply holds JSON null; the task and risk lists are kept as decoded. */
  datatype AnalysisResult = AnalysisResult(
    analysis: Option<string>,
    solution: Option<string>,
    tasks: Json,
    risks: Json,
    suggestedStatus: Option<string>,
    suggestedRemainingWork: Option<real>,
    comment: Option<string>,
    tokenUsage: TokenUsage,
    rawResponse: string,
    fileChanges: seq<Json>)

  /** A text key: missing gives the default, JSON null gives `None`. */
  function TextKey(fields: map<string, Json>, key: string, default: string): Result<Option<string>, string> {
    if key !in fields then Success(Some(default))
    else match fields[key]
      case JNull => Success(None)
      case JStr(s) => Success(Some(s))
      case _ => Failure("unexpected type for " + key)
  }

  /** `suggested_remaining_work`: missing gives 0, JSON null gives `None`. */
  function NumberKey(fields: map<string, Json>, key: string): Result<Option<real>, string> {
    if key !in fields then Success(Some(0.0))
    else match fields[key]
      case JNull => Success(None)
      case JNum(n) => Success(Some(n))
      case _ => Failure("unexpected type for " + key)
  }

  /** `file_changes or []`: missing and every falsy value give no changes. */
  function FileChangesKey(fields: map<string, Json>): Result<seq<Json>, string> {
    var v := Get(fields, "file_changes");
    if !Truthy(v) then Success([])
    else if v.JArr? then Success(v.items)
    else Failure("unexpected type for file_changes")
  }

  /** `get(key, [])` for the task and risk lists, kept as decoded. */
  function ListKey(fields: map<string, Json>, key: string): Json {
    if key in fields then fields[key] else JArr([])
  }

  /** The `AnalysisResult` built from a decoded object, with the source's defaults. */
  function AnalysisFromJson(fields: map<string, Json>, state: string, usage: TokenUsage, raw: string): (r: Result<AnalysisResult, string>)
    ensures r.Success? <==>
      && TextKey(fields, "analysis", "").Success? && TextKey(fields, "solution", "").Success?
      && TextKey(fields, "suggested_status", state).Success? && NumberKey(fields, "suggested_remaining_work").Success?
      && TextKey(fields, "comment", "").Success? && FileChangesKey(fields).Success?
    ensures r.Success? ==> r.value.rawResponse == raw && r.value.tokenUsage == usage
    ensures r.Success? ==> r.value.tasks == ListKey(fields, "tasks") && r.value.risks == ListKey(fields, "risks")
    ensures r.Success? ==> r.value.suggestedStatus == TextKey(fields, "suggested_status", state).value
  {
    var analysis :- TextKey(fields, "analysis", "");
    var solution :- TextKey(fields, "solution", "");
    var status :- TextKey(fields, "suggested_status", state);
    var remaining :- NumberKey(fields, "suggested_remaining_work");
    var comment :- TextKey(fields, "comment", "");
    var changes :- FileChangesKey(fields);
    Success(AnalysisResult(analysis, solution, ListKey(fields, "tasks"), ListKey(fields, "risks"),
      status, remaining, comment, usage, raw, changes))
  }

  /** An empty object gives every default: empty texts and lists, the work
      item's own state as the suggested status, and no remaining work. */
  lemma AnalysisDefaults(state: string, usage: TokenUsage, raw: string)
    ensures AnalysisFromJson(map[], state, usage, raw)
      == Success(AnalysisResult(Some(""), Some(""), JArr([]), JArr([]), Some(state), Some(0.0), Some(""), usage, raw, []))
  {
  }

  /** A null list of file changes reads as no changes, like a missing one. */
  lemma NullFileChangesNormalised(fields: map<string, Json>, state: string, usage: TokenUsage, raw: string)
    ensures AnalysisFromJson(fields["file_changes" := JNull], state, usage, raw)
      == AnalysisFromJson(fields - {"file_changes"}, state, usage, raw)
  {
    var f1, f2 := fields["file_changes" := JNull], fields - {"file_changes"};
    assert forall k :: k != "file_changes" ==> (k in f1 <==> k in f2) && (k in f1 ==> f1[k] == f2[k]);
    assert TextKey(f1, "analysis", "") == TextKey(f2, "analysis", "");
    assert TextKey(f1, "solution", "") == TextKey(f2, "solution", "");
    assert TextKey(f1, "suggested_status", state) == TextKey(f2, "suggested_status", state);
    assert NumberKey(f1, "suggested_remaining_work") == NumberKey(f2, "suggested_remaining_work");
    assert TextKey(f1, "comment", "") == TextKey(f2, "comment", "");
    assert ListKey(f1, "tasks") == ListKey(f2, "tasks");
    assert ListKey(f1, "risks") == ListKey(f2, "risks");
  }

  /** What the API library returns: the token counts and the text of each content block. */
  datatype ApiResponse = ApiResponse(inputTokens: nat, outputTokens: nat, content: seq<string>)

  /** Python's name of the type of a decoded value (integral numbers as `int`). */
  function TypeName(j: Json): string {
    match j
    case JNull => "NoneType"
    case JBool(_) => "bool"
    case JNum(n) => if n == n.Floor as real then "int" else "float"
    case JStr(_) => "str"
    case JArr(_) => "list"
    case JObj(_) => "dict"
  }

  /** The library exceptions the decorator retries on (`APIError` and its subclasses). */
  predicate IsApiError(e: Error) {
    e.ApiError? || e.ApiRateLimitError?
  }

  /** The handlers of `analyze_work_item`: the library's rate limit becomes the
      application's, any other library error a "Claude API error", the
      application's own LLM error passes, anything else is wrapped. */
  function TranslateError(e: Error): (r: Error)
    ensures e.ApiRateLimitError? ==> r == RateLimitError(e.retryAfter)
    ensures e.ApiError? ==> r == ClaudeApiError("Claude API error: " + e.message)
    ensures e.ClaudeApiError? ==> r == e
    ensures !IsApiError(e) && !e.ClaudeApiError? ==> r == ClaudeApiError("Failed to analyze work item: " + Message(e))
  {
    match e
    case ApiRateLimitError(retryAfter, _) => RateLimitError(retryAfter)
    case ApiError(m) => ClaudeApiError("Claude API error: " + m)
    case ClaudeApiError(_) => e
    case _ => ClaudeApiError("Failed to analyze work item: " + Message(e))
  }

  /** The part of `analyze_work_item` after the call returned: the first
      content block is parsed and turned into the analysis. Every failure is
      the application's LLM error. */
  function AnalyzeReply(state: string, resp: ApiResponse, decode: string -> DecodeResult): (r: Result<AnalysisResult, Error>)
    ensures r.Failure? ==> r.error.ClaudeApiError?
    ensures r.Success? ==>
      && |resp.content| > 0
      && r.value.rawResponse == resp.content[0]
      && r.value.tokenUsage == TokenUsage(resp.inputTokens, resp.outputTokens)
    ensures |resp.content| > 0 && ParseJsonResponse(resp.content[0], decode).Failure? ==>
      r == Failure(ClaudeApiError("Failed to parse JSON response from Claude: " + ParseJsonResponse(resp.content[0], decode).error))
  {
    if |resp.content| == 0 then Failure(ClaudeApiError("Failed to analyze work item: list index out of range"))
    else
      var text := resp.content[0];
      var usage := TokenUsage(resp.inputTokens, resp.outputTokens);
      match ParseJsonResponse(text, decode)
      case Failure(detail) => Failure(ClaudeApiError("Failed to parse JSON response from Claude: " + detail))
      case Success(JObj(fields)) =>
        (match AnalysisFromJson(fields, state, usage, text)
         case Success(a) => Success(a)
         case Failure(detail) => Failure(ClaudeApiError("Failed to analyze work item: " + detail)))
      case Success(other) =>
        Failure(ClaudeApiError("Failed to analyze work item: '" + TypeName(other) + "' object has no attribute 'get'"))
  }

  /** What `analyze_work_item` makes of the call's outcome: a raised error is
      translated, a reply is analysed. */
  function AnalyzeOutcome(state: string, resp: Result<ApiResponse, Error>, decode: string -> DecodeResult): (r: Result<AnalysisResult, Error>)
    ensures r.Failure? ==> r.error.ClaudeApiError? || r.error.RateLimitError?
    ensures resp.Failure? ==> r == Failure(TranslateError(resp.error))
    ensures r.Success? ==>
      && resp.Success? && |resp.value.content| > 0
      && r.value.rawResponse == resp.value.content[0]
      && r.value.tokenUsage == TokenUsage(resp.value.inputTokens, resp.value.outputTokens)
  {
    match resp
    case Failure(e) => Failure(TranslateError(e))
    case Success(reply) => AnalyzeReply(state, reply, decode)
  }

  /** `analyze_work_item`, one attempt. */
  function AnalyzeWorkItem(w: Models.WorkItem, cs: seq<Models.WorkItemComment>, custom: Option<string>,
                           call: string -> Result<ApiResponse, Error>, decode: string -> DecodeResult): (r: Result<AnalysisResult, Error>)
    ensures r.Failure? ==> r.error.ClaudeApiError? || r.error.RateLimitError?
    ensures r.Failure? ==> !IsApiError(r.error)
    ensures var resp := call(Prompts.GetPromptForWorkItem(w, cs, custom));
      && (resp.Failure? ==> r == Failure(TranslateError(resp.error)))
      && (r.Success? ==>
            && resp.Success? && |resp.value.content| > 0
            && r.value.rawResponse == resp.value.content[0]
            && r.value.tokenUsage == TokenUsage(resp.value.inputTokens, resp.value.outputTokens))
  {
    AnalyzeOutcome(w.state, call(Prompts.GetPromptForWorkItem(w, cs, custom)), decode)
  }

  /** A reply that does not decode is reported with the decoder's detail. */
  lemma UndecodableReply(w: Models.WorkItem, cs: seq<Models.WorkItemComment>, custom: Option<string>,
                         call: string -> Result<ApiResponse, Error>, decode: string -> DecodeResult)
    requires var resp := call(Prompts.GetPromptForWorkItem(w, cs, custom));
      resp.Success? && |resp.value.content| > 0 && ParseJsonResponse(resp.value.content[0], decode).Failure?
    ensures var text := call(Prompts.GetPromptForWorkItem(w, cs, custom)).value.content[0];
      AnalyzeWorkItem(w, cs, custom, call, decode)
        == Failure(ClaudeApiError("Failed to parse JSON response from Claude: " + ParseJsonResponse(text, decode).error))
  {
  }

  /** The retry decorator never re-attempts an analysis: no library error escapes it. */
  lemma AnalyzeSingleAttempt(w: Models.WorkItem, cs: seq<Models.WorkItemComment>, custom: Option<string>,
                             calls: seq<string -> Result<ApiResponse, Error>>, decode: string -> DecodeResult)
    requires 1 <= |calls| <= Retry.MaxAttempts
    ensures var outcomes := seq(|calls|, k requires 0 <= k < |calls| => AnalyzeWorkItem(w, cs, custom, calls[k], decode));
      Retry.Run(outcomes, IsApiError) == Retry.Retried(AnalyzeWorkItem(w, cs, custom, calls[0], decode), 1)
  {
    var outcomes := seq(|calls|, k requires 0 <= k < |calls| => AnalyzeWorkItem(w, cs, custom, calls[k], decode));
    Retry.SingleAttempt(outcomes, IsApiError);
  }
}

=== FILE: config.dfy ===
/** Application settings (src/ado_ai_cli/config.py): validation of the values
    read from the environment, their bounds and defaults, redaction of the two
    secrets, and the wrapping of every validation failure into a configuration
    error. Reading the environment and the `.env` file is not modelled: the
    input is the set of values found there, each present or not. */
module Config {
  import opened Wrappers
  import opened Strings
  import opened Errors

  /** The values found in the environment; `None` means the variable is unset. */
  datatype SettingsInput = SettingsInput(
    orgUrl: Option<string>,
    project: Option<string>,
    pat: Option<string>,
    apiKey: Option<string>,
    claudeModel: Option<string>,
    logLevel: Option<string>,
    autoApprove: Option<bool>,
    maxRetries: Option<int>,
    timeoutSeconds: Option<int>,
    dryRun: Option<bool>,
    rateLimitPerMinute: Option<int>,
    maxTokens: Option<int>,
    temperature: Option<real>)

  datatype Settings = Settings(
    orgUrl: string,
    project: string,
    pat: string,
    apiKey: string,
    claudeModel: string,
    logLevel: string,
    autoApprove: bool,
    maxRetries: int,
    timeoutSeconds: int,
    dryRun: bool,
    rateLimitPerMinute: int,
    maxTokens: int,
    temperature: real)

  const DefaultModel := "claude-opus-4-6"

  const Placeholders: seq<string> := [
    "your_personal_access_token_here",
    "your_anthropic_api_key_here",
    "<personal-access-token>",
    "<api-key>",
    "placeholder",
    "changeme",
    ""]

  /** `validate_credentials` rejects a value whose lowercased form is a placeholder. */
  predicate IsPlaceholder(v: string) {
    Lower(v) in Placeholders
  }

  /** The part of the `HttpUrl` type that is modelled: the URL names the
      `http` or `https` scheme, in any case, followed by a host. */
  predicate HttpScheme(url: string) {
    var u := Lower(url);
    (StartsWith(u, "http://") && |u| > 7) || (StartsWith(u, "https://") && |u| > 8)
  }

  /** The `HttpUrl` type, then `validate_org_url`: one of the two service
      host names occurs in the URL. */
  predicate ValidOrgUrl(url: string) {
    HttpScheme(url) && (Contains(url, "dev.azure.com") || Contains(url, "visualstudio.com"))
  }

  /** A URL without a scheme is refused even when it names the service:
      whatever follows the host name, "dev.azure.com/…" and
      "visualstudio.com/…" are not `HttpUrl`s. */
  lemma OrgUrlNeedsScheme(rest: string)
    ensures !ValidOrgUrl("dev.azure.com/" + rest)
    ensures !ValidOrgUrl("visualstudio.com/" + rest)
  {
    NoSchemeRefused("dev.azure.com/" + rest);
    NoSchemeRefused("visualstudio.com/" + rest);
  }

  /** A URL whose first letter is not an `h` in either case names no scheme. */
  lemma NoSchemeRefused(url: string)
    requires |url| > 0 && LowerChar(url[0]) != 'h'
    ensures !ValidOrgUrl(url)
  {
    var u := Lower(url);
    assert u[0] != 'h';
  }

  /** Lower-casing keeps a prefix that is already in lower case. */
  lemma LowerKeepsPrefix(s: string, p: string)
    requires StartsWith(s, p) && Lower(p) == p
    ensures StartsWith(Lower(s), p)
  {
    forall i | 0 <= i < |p|
      ensures Lower(s)[i] == p[i]
    {
      assert Lower(p)[i] == LowerChar(p[i]);
    }
  }

  /** Every organization URL of the documented form is accepted. */
  lemma ServiceUrlAccepted(org: string)
    ensures ValidOrgUrl("https://dev.azure.com/" + org)
  {
    var scheme, host := "https://", "dev.azure.com";
    var url := "https://dev.azure.com/" + org;
    assert url[..8] == scheme;
    assert Lower(scheme) == scheme;
    LowerKeepsPrefix(url, scheme);
    assert url[8..8 + |host|] == host;
    assert OccursAt(url, host, 8);
  }

  predicate ValidLogLevel(level: string) {
    level in ["DEBUG", "INFO", "WARNING", "ERROR", "CRITICAL"]
  }

  /** An integer field with its bounds and default: an unset value takes the
      default, a set one must lie within the bounds. */
  function BoundedInt(v: Option<int>, lo: int, hi: int, default: int): (r: Option<int>)
    requires lo <= default <= hi
    ensures r.Some? <==> v.None? || lo <= v.value <= hi
    ensures r.Some? ==> lo <= r.value <= hi
    ensures v.None? ==> r == Some(default)
    ensures v.Some? && r.Some? ==> r.value == v.value
  {
    if v.None? then Some(default) else if lo <= v.value <= hi then v else None
  }

  /** The names of the fields that fail validation, in declaration order. */
  function Failures(i: SettingsInput): seq<string> {
    (if i.orgUrl.None? || !ValidOrgUrl(i.orgUrl.value) then ["azure_devops_org_url"] else [])
    + (if i.project.None? then ["azure_devops_project"] else [])
    + (if i.pat.None? || IsPlaceholder(i.pat.value) then ["azure_devops_pat"] else [])
    + (if i.apiKey.None? || IsPlaceholder(i.apiKey.value) then ["anthropic_api_key"] else [])
    + (if i.logLevel.Some? && !ValidLogLevel(i.logLevel.value) then ["log_level"] else [])
    + (if BoundedInt(i.maxRetries, 0, 10, 3).None? then ["max_retries"] else [])
    + (if BoundedInt(i.timeoutSeconds, 1, 300, 30).None? then ["timeout_seconds"] else [])
    + (if BoundedInt(i.rateLimitPerMinute, 1, 1000, 60).None? then ["rate_limit_requests_per_minute"] else [])
    + (if BoundedInt(i.maxTokens, 100, 8192, 4096).None? then ["max_tokens"] else [])
    + (if i.temperature.Some? && !(0.0 <= i.temperature.value <= 1.0) then ["temperature"] else [])
  }

  /** `Settings()`: the validated settings, or the failing fields. */
  function BuildSettings(i: SettingsInput): (r: Result<Settings, seq<string>>)
    ensures r.Failure? <==> |Failures(i)| > 0
    ensures r.Failure? ==> r.error == Failures(i)
  {
    if |Failures(i)| > 0 then Failure(Failures(i))
    else
      Success(Settings(
        i.orgUrl.value, i.project.value, i.pat.value, i.apiKey.value,
        i.claudeModel.GetOr(DefaultModel), i.logLevel.GetOr("INFO"),
        i.autoApprove.GetOr(false),
        BoundedInt(i.maxRetries, 0, 10, 3).value,
        BoundedInt(i.timeoutSeconds, 1, 300, 30).value,
        i.dryRun.GetOr(false),
        BoundedInt(i.rateLimitPerMinute, 1, 1000, 60).value,
        BoundedInt(i.maxTokens, 100, 8192, 4096).value,
        i.temperature.GetOr(0.7)))
  }

  /** Every accepted configuration has real credentials, an Azure DevOps URL
      and every number within its bounds. */
  lemma AcceptedSettingsAreValid(i: SettingsInput)
    requires BuildSettings(i).Success?
    ensures var s := BuildSettings(i).value;
      && !IsPlaceholder(s.pat) && !IsPlaceholder(s.apiKey) && ValidOrgUrl(s.orgUrl)
      && ValidLogLevel(s.logLevel)
      && 0 <= s.maxRetries <= 10 && 1 <= s.timeoutSeconds <= 300
      && 1 <= s.rateLimitPerMinute <= 1000 && 100 <= s.maxTokens <= 8192
      && 0.0 <= s.temperature <= 1.0
  {
    assert |Failures(i)| == 0;
  }

  /** With only the four required values set, everything else takes its default. */
  lemma Defaults(url: string, project: string, pat: string, key: string)
    requires ValidOrgUrl(url) && !IsPlaceholder(pat) && !IsPlaceholder(key)
    ensures var r := BuildSettings(SettingsInput(Some(url), Some(project), Some(pat), Some(key),
                                                 None, None, None, None, None, None, None, None, None));
      r == Success(Settings(url, project, pat, key, DefaultModel, "INFO", false, 3, 30, false, 60, 4096, 0.7))
  {
  }

  /** Lower-casing a second time changes nothing. */
  lemma LowerIdempotent(v: string)
    ensures Lower(Lower(v)) == Lower(v)
  {
    forall i | 0 <= i < |v|
      ensures Lower(Lower(v))[i] == Lower(v)[i]
    {
      assert Lower(v)[i] == LowerChar(v[i]);
    }
  }

  /** The placeholder test ignores case: every value is a placeholder exactly
      when its lower-case form is, so "ChangeMe" is one; the empty credential
      is one too. */
  lemma PlaceholderIgnoresCase(v: string)
    ensures IsPlaceholder(v) <==> IsPlaceholder(Lower(v))
    ensures IsPlaceholder("ChangeMe") && IsPlaceholder("")
  {
    LowerIdempotent(v);
    assert Lower("ChangeMe") == "changeme" == Placeholders[5];
    assert Lower("") == "" == Placeholders[6];
  }

  /** A value of the settings dump. */
  datatype SettingValue = SText(s: string) | SInt(i: int) | SBool(b: bool) | SReal(r: real)

  const PatKey := "azure_devops_pat"
  const ApiKeyKey := "anthropic_api_key"
  const Redacted := "***REDACTED***"

  /** `model_dump()`: every field under its Python name. */
  function Dump(s: Settings): (d: map<string, SettingValue>)
    ensures PatKey in d && d[PatKey] == SText(s.pat)
    ensures ApiKeyKey in d && d[ApiKeyKey] == SText(s.apiKey)
  {
    Public(s)[PatKey := SText(s.pat)][ApiKeyKey := SText(s.apiKey)]
  }

  /** The dumped fields other than the two secrets. */
  function Public(s: Settings): map<string, SettingValue> {
    map[
      "azure_devops_org_url" := SText(s.orgUrl),
      "azure_devops_project" := SText(s.project),
      "claude_model" := SText(s.claudeModel),
      "log_level" := SText(s.logLevel),
      "auto_approve" := SBool(s.autoApprove),
      "max_retries" := SInt(s.maxRetries),
      "timeout_seconds" := SInt(s.timeoutSeconds),
      "dry_run" := SBool(s.dryRun),
      "rate_limit_requests_per_minute" := SInt(s.rateLimitPerMinute),
      "max_tokens" := SInt(s.maxTokens),
      "temperature" := SReal(s.temperature)]
  }

  /** `redact_sensitive_fields`: exactly the two secrets are masked. */
  function RedactSensitiveFields(s: Settings): (d: map<string, SettingValue>)
    ensures d.Keys == Dump(s).Keys
    ensures d[PatKey] == SText(Redacted) && d[ApiKeyKey] == SText(Redacted)
    ensures forall k :: k in d && k != PatKey && k != ApiKeyKey ==> d[k] == Dump(s)[k]
  {
    Dump(s)[PatKey := SText(Redacted)][ApiKeyKey := SText(Redacted)]
  }

  /** Redaction hides the secrets: two settings that differ only in their
      secrets redact identically. */
  lemma RedactionHidesSecrets(s: Settings, pat: string, key: string)
    ensures RedactSensitiveFields(s) == RedactSensitiveFields(s.(pat := pat, apiKey := key))
  {
    var s' := s.(pat := pat, apiKey := key);
    assert Public(s') == Public(s);
    Overwrite(Public(s), PatKey, ApiKeyKey, SText(s.pat), SText(s.apiKey), SText(pat), SText(key), SText(Redacted));
  }

  /** Writing both keys again forgets what they held. */
  lemma Overwrite<K, V>(m: map<K, V>, k1: K, k2: K, x: V, y: V, x': V, y': V, z: V)
    ensures m[k1 := x][k2 := y][k1 := z][k2 := z] == m[k1 := x'][k2 := y'][k1 := z][k2 := z]
  {
  }

  const LoadHint := "\n\nPlease ensure you have created a .env file with all required settings.\nCopy .env.example to .env and fill in your credentials."

  /** `load_settings`: any failure becomes a `ConfigurationError` naming the
      failing fields and telling how to set them. */
  function LoadSettings(i: SettingsInput): (r: Result<Settings, Error>)
    ensures r.Success? <==> |Failures(i)| == 0
    ensures r.Success? ==> r == Success(BuildSettings(i).value)
    ensures r.Failure? ==> r.error.ConfigurationError? && IsA(r.error, AdoAiClass)
    ensures r.Failure? ==> r.error.message == "Failed to load configuration: " + Join(Failures(i), ", ") + LoadHint
  {
    match BuildSettings(i)
    case Success(s) => Success(s)
    case Failure(fields) => Failure(ConfigurationError("Failed to load configuration: " + Join(fields, ", ") + LoadHint))
  }
}

=== FILE: datetime.dfy ===
/** Python's `datetime` values as the program meets them: their fields, the
    text `isoformat()` renders, the ISO 8601 forms pydantic accepts for a
    `datetime` field, and Unix timestamps read as UTC. */
module DateTimes {
  import opened Wrappers
  import opened Strings

  /** A date and time; `offset` is the UTC offset in minutes, `None` for a
      naive value. */
  datatype DateTime = DateTime(year: nat, month: nat, day: nat, hour: nat, minute: nat,
                               second: nat, micro: nat, offset: Option<int>)

  /** The Gregorian leap-year rule. */
  predicate IsLeap(y: int) {
    y % 4 == 0 && (y % 100 != 0 || y % 400 == 0)
  }

  function DaysInYear(y: int): nat {
    if IsLeap(y) then 366 else 365
  }

  function DaysInMonth(y: int, m: int): nat
    requires 1 <= m <= 12
  {
    if m == 2 then (if IsLeap(y) then 29 else 28)
    else if m == 4 || m == 6 || m == 9 || m == 11 then 30
    else 31
  }

  /** What a Python `datetime` can hold: years 1 to 9999, a real calendar
      day, and an offset of less than a day. */
  predicate Valid(d: DateTime) {
    && 1 <= d.year <= 9999 && 1 <= d.month <= 12 && 1 <= d.day <= DaysInMonth(d.year, d.month)
    && d.hour < 24 && d.minute < 60 && d.second < 60 && d.micro < 1000000
    && (d.offset.Some? ==> -1440 < d.offset.value < 1440)
  }

  /** A Python `datetime` object. */
  type ValidDateTime = d: DateTime | Valid(d) witness DateTime(1, 1, 1, 0, 0, 0, 0, None)

  // Rendering.

  /** `n` in exactly `w` digits, zero-padded on the left (`%0wd` for `n < 10^w`). */
  function Pad(n: nat, w: nat): (r: string)
    ensures |r| == w && AllDigits(r)
  {
    if w == 0 then "" else Pad(n / 10, w - 1) + [DigitChar(n % 10)]
  }

  /** `YYYY-MM-DD`, then `rest`. */
  function DateText(d: DateTime, rest: string): string {
    Pad(d.year, 4) + ("-" + (Pad(d.month, 2) + ("-" + (Pad(d.day, 2) + rest))))
  }

  /** `HH:MM:SS`, then `rest`. */
  function ClockText(d: DateTime, rest: string): string {
    Pad(d.hour, 2) + (":" + (Pad(d.minute, 2) + (":" + (Pad(d.second, 2) + rest))))
  }

  /** The microseconds as six digits after a point, shown only when not zero. */
  function FractionText(micro: nat): string {
    if micro == 0 then "" else "." + Pad(micro, 6)
  }

  /** The UTC offset as `+HH:MM` or `-HH:MM`; nothing for a naive value. */
  function ZoneText(offset: Option<int>): string {
    match offset
    case None => ""
    case Some(o) =>
      var a := if o < 0 then -o else o;
      (if o < 0 then "-" else "+") + (Pad(a / 60, 2) + (":" + Pad(a % 60, 2)))
  }

  /** `datetime.isoformat()`. */
  function IsoFormat(d: DateTime): string {
    DateText(d, "T" + ClockText(d, FractionText(d.micro) + ZoneText(d.offset)))
  }

  // Parsing.

  /** The number the first `n` characters spell when they are all digits,
      and the text after them. */
  function ReadNumber(s: string, n: nat): Option<(nat, string)> {
    if n <= |s| && AllDigits(s[..n]) then Some((ParseNat(s[..n]), s[n..])) else None
  }

  /** The text after a leading `c`. */
  function ReadChar(s: string, c: char): Option<string> {
    if |s| > 0 && s[0] == c then Some(s[1..]) else None
  }

  /** The length of the run of digits that starts `s`. */
  function DigitRun(s: string): (n: nat)
    ensures n <= |s| && AllDigits(s[..n])
    ensures n < |s| ==> !('0' <= s[n] <= '9')
  {
    if |s| > 0 && '0' <= s[0] <= '9' then
      var k := DigitRun(s[1..]);
      assert s[..k + 1] == [s[0]] + s[1..][..k];
      k + 1
    else 0
  }

  /** `YYYY-MM-DD`: the year, month and day, and the text after them. */
  function ReadDate(s: string): Option<(nat, nat, nat, string)> {
    var y :- ReadNumber(s, 4);
    var s1 :- ReadChar(y.1, '-');
    var m :- ReadNumber(s1, 2);
    var s2 :- ReadChar(m.1, '-');
    var d :- ReadNumber(s2, 2);
    Some((y.0, m.0, d.0, d.1))
  }

  /** A point and one to six digits, read as microseconds; zero when no point follows. */
  function ReadFraction(s: string): Option<(nat, string)> {
    if |s| > 0 && s[0] == '.' then
      var t := s[1..];
      var n := DigitRun(t);
      if 1 <= n <= 6 then Some((ParseNat(t[..n]) * Pow10(6 - n), t[n..])) else None
    else Some((0, s))
  }

  /** `HH:MM[:SS[.ffffff]]`: hour, minute, second and microseconds, and the
      text after them. */
  function ReadClock(s: string): Option<(nat, nat, nat, nat, string)> {
    var h :- ReadNumber(s, 2);
    var s1 :- ReadChar(h.1, ':');
    var m :- ReadNumber(s1, 2);
    match ReadChar(m.1, ':')
    case None => Some((h.0, m.0, 0, 0, m.1))
    case Some(s2) =>
      var sec :- ReadNumber(s2, 2);
      var f :- ReadFraction(sec.1);
      Some((h.0, m.0, sec.0, f.0, f.1))
  }

  /** The whole remaining text as a zone: nothing (naive), `Z` (UTC) or `±HH:MM`. */
  function ReadZone(s: string): Option<Option<int>> {
    if s == "" then Some(None)
    else if s == "Z" then Some(Some(0))
    else if s[0] == '+' || s[0] == '-' then
      var minutes :- ReadOffset(s[1..]);
      Some(Some(if s[0] == '-' then -(minutes as int) else minutes as int))
    else None
  }

  /** The whole remaining text as `HH:MM`, in minutes; at most 23 hours and 59 minutes. */
  function ReadOffset(s: string): Option<nat> {
    var h :- ReadNumber(s, 2);
    var s1 :- ReadChar(h.1, ':');
    var m :- ReadNumber(s1, 2);
    if m.1 == "" && h.0 < 24 && m.0 < 60 then Some(h.0 * 60 + m.0) else None
  }

  /** The part after the date: nothing (midnight, naive), or `T` or a space,
      a time and a zone. */
  function ReadTime(s: string): Option<(nat, nat, nat, nat, Option<int>)> {
    if s == "" then Some((0, 0, 0, 0, None))
    else if s[0] == 'T' || s[0] == ' ' then
      var c :- ReadClock(s[1..]);
      var zone :- ReadZone(c.4);
      Some((c.0, c.1, c.2, c.3, zone))
    else None
  }

  /** The ISO 8601 forms pydantic accepts for a `datetime` field; the fields
      must make a real date and time. */
  function ParseIso(s: string): (r: Option<DateTime>)
    ensures r.Some? ==> Valid(r.value)
  {
    var date :- ReadDate(s);
    var time :- ReadTime(date.3);
    var d := DateTime(date.0, date.1, date.2, time.0, time.1, time.2, time.3, time.4);
    if Valid(d) then Some(d) else None
  }

  /** Text whose first character is not a digit, or whose fifth is not `-`,
      is no ISO date. */
  lemma NotIsoDate(s: string)
    requires |s| > 4 ==> !('0' <= s[0] <= '9') || s[4] != '-'
    ensures ParseIso(s).None?
  {
    if |s| > 4 && !('0' <= s[0] <= '9') {
      assert !AllDigits(s[..4]);
    }
  }

  // The rendering reads back.

  lemma {:induction false} PadValue(n: nat, w: nat)
    requires n < Pow10(w)
    ensures ParseNat(Pad(n, w)) == n
  {
    if w > 0 {
      var s := Pad(n, w);
      assert s[..|s| - 1] == Pad(n / 10, w - 1);
      PadValue(n / 10, w - 1);
    }
  }

  lemma ReadPadded(n: nat, w: nat, rest: string)
    requires n < Pow10(w)
    ensures ReadNumber(Pad(n, w) + rest, w) == Some((n, rest))
  {
    var s := Pad(n, w) + rest;
    assert s[..w] == Pad(n, w);
    assert s[w..] == rest;
    PadValue(n, w);
  }

  lemma ReadSameChar(c: char, rest: string)
    ensures ReadChar([c] + rest, c) == Some(rest)
  {
    assert ([c] + rest)[1..] == rest;
  }

  lemma {:induction false} DigitRunOfDigits(p: string, rest: string)
    requires AllDigits(p)
    requires rest == "" || !('0' <= rest[0] <= '9')
    ensures DigitRun(p + rest) == |p|
    decreases |p|
  {
    if |p| > 0 {
      assert (p + rest)[1..] == p[1..] + rest;
      DigitRunOfDigits(p[1..], rest);
    } else {
      assert p + rest == rest;
    }
  }

  lemma ReadDateText(d: DateTime, rest: string)
    requires d.year < 10000 && d.month < 100 && d.day < 100
    ensures ReadDate(DateText(d, rest)) == Some((d.year, d.month, d.day, rest))
  {
    assert Pow10(4) == 10000 && Pow10(2) == 100;
    ReadPadded(d.year, 4, "-" + (Pad(d.month, 2) + ("-" + (Pad(d.day, 2) + rest))));
    ReadSameChar('-', Pad(d.month, 2) + ("-" + (Pad(d.day, 2) + rest)));
    ReadPadded(d.month, 2, "-" + (Pad(d.day, 2) + rest));
    ReadSameChar('-', Pad(d.day, 2) + rest);
    ReadPadded(d.day, 2, rest);
  }

  lemma ReadFractionText(micro: nat, rest: string)
    requires micro < 1000000
    requires rest == "" || !('0' <= rest[0] <= '9' || rest[0] == '.')
    ensures ReadFraction(FractionText(micro) + rest) == Some((micro, rest))
  {
    if micro == 0 {
      assert FractionText(micro) + rest == rest;
    } else {
      var digits := Pad(micro, 6);
      var s := "." + digits + rest;
      assert s[1..] == digits + rest;
      DigitRunOfDigits(digits, rest);
      assert (digits + rest)[..6] == digits;
      assert (digits + rest)[6..] == rest;
      assert Pow10(6) == 1000000;
      PadValue(micro, 6);
    }
  }

  lemma ReadClockText(d: DateTime, rest: string)
    requires d.hour < 100 && d.minute < 100 && d.second < 100 && d.micro < 1000000
    requires rest == "" || !('0' <= rest[0] <= '9' || rest[0] == '.')
    ensures ReadClock(ClockText(d, FractionText(d.micro) + rest)) == Some((d.hour, d.minute, d.second, d.micro, rest))
  {
    var tail := FractionText(d.micro) + rest;
    assert Pow10(2) == 100;
    ReadPadded(d.hour, 2, ":" + (Pad(d.minute, 2) + (":" + (Pad(d.second, 2) + tail))));
    ReadSameChar(':', Pad(d.minute, 2) + (":" + (Pad(d.second, 2) + tail)));
    ReadPadded(d.minute, 2, ":" + (Pad(d.second, 2) + tail));
    ReadSameChar(':', Pad(d.second, 2) + tail);
    ReadPadded(d.second, 2, tail);
    ReadFractionText(d.micro, rest);
  }

  lemma ReadOffsetText(a: nat)
    requires a < 1440
    ensures ReadOffset(Pad(a / 60, 2) + (":" + Pad(a % 60, 2))) == Some(a)
  {
    assert Pow10(2) == 100;
    ReadPadded(a / 60, 2, ":" + Pad(a % 60, 2));
    ReadSameChar(':', Pad(a % 60, 2));
    ReadPadded(a % 60, 2, "");
    assert Pad(a % 60, 2) + "" == Pad(a % 60, 2);
  }

  /** A signed offset of `a` minutes reads back with its sign. */
  lemma ReadSignedZone(sign: char, a: nat)
    requires sign == '+' || sign == '-'
    requires a < 1440
    ensures ReadZone([sign] + (Pad(a / 60, 2) + (":" + Pad(a % 60, 2)))) ==
      Some(Some(if sign == '-' then -(a as int) else a as int))
  {
    var body := Pad(a / 60, 2) + (":" + Pad(a % 60, 2));
    var s := [sign] + body;
    assert s[0] == sign && s[1..] == body && |s| == 6;
    ReadOffsetText(a);
  }

  lemma ReadZoneText(offset: Option<int>)
    requires offset.Some? ==> -1440 < offset.value < 1440
    ensures ReadZone(ZoneText(offset)) == Some(offset)
  {
    if offset.Some? {
      var o := offset.value;
      if o < 0 {
        ReadSignedZone('-', -o);
      } else {
        ReadSignedZone('+', o);
      }
    }
  }

  /** Every `datetime` renders to text that reads back as the same value. */
  lemma IsoRoundTrip(d: DateTime)
    requires Valid(d)
    ensures ParseIso(IsoFormat(d)) == Some(d)
  {
    var zone := ZoneText(d.offset);
    var clock := ClockText(d, FractionText(d.micro) + zone);
    ReadDateText(d, "T" + clock);
    ReadSameChar('T', clock);
    ReadClockText(d, zone);
    ReadZoneText(d.offset);
  }

  // Unix timestamps.

  /** Days from 0001-01-01 to the first day of year `y`. */
  function DaysBeforeYear(y: nat): int {
    var k := y - 1;
    365 * k + k / 4 - k / 100 + k / 400
  }

  /** Days from the first of the year to the first of month `m` (13 names the year's end). */
  function DaysBeforeMonth(y: int, m: nat): nat
    requires 1 <= m <= 13
  {
    if m == 1 then 0 else DaysBeforeMonth(y, m - 1) + DaysInMonth(y, m - 1)
  }

  /** A date's day number, counting 0001-01-01 as day 0. */
  function DayNumber(d: DateTime): int
    requires 1 <= d.month <= 12
  {
    DaysBeforeYear(d.year) + DaysBeforeMonth(d.year, d.month) + d.day - 1
  }

  /** One more day crosses a multiple of `4`, `100` or `400` exactly when it reaches one. */
  lemma DivSteps(k: int)
    ensures (k + 1) / 4 == k / 4 + (if (k + 1) % 4 == 0 then 1 else 0)
    ensures (k + 1) / 100 == k / 100 + (if (k + 1) % 100 == 0 then 1 else 0)
    ensures (k + 1) / 400 == k / 400 + (if (k + 1) % 400 == 0 then 1 else 0)
  {
  }

  lemma YearStep(y: nat)
    requires y >= 1
    ensures DaysBeforeYear(y + 1) == DaysBeforeYear(y) + DaysInYear(y)
  {
    DivSteps(y - 1);
  }

  lemma MonthsFillYear(y: int)
    ensures DaysBeforeMonth(y, 13) == DaysInYear(y)
  {
    var feb := DaysInMonth(y, 2);
    assert DaysBeforeMonth(y, 2) == 31;
    assert DaysBeforeMonth(y, 3) == 31 + feb;
    assert DaysBeforeMonth(y, 4) == 62 + feb;
    assert DaysBeforeMonth(y, 5) == 92 + feb;
    assert DaysBeforeMonth(y, 6) == 123 + feb;
    assert DaysBeforeMonth(y, 7) == 153 + feb;
    assert DaysBeforeMonth(y, 8) == 184 + feb;
    assert DaysBeforeMonth(y, 9) == 215 + feb;
    assert DaysBeforeMonth(y, 10) == 245 + feb;
    assert DaysBeforeMonth(y, 11) == 276 + feb;
    assert DaysBeforeMonth(y, 12) == 306 + feb;
  }

  /** Later years start later. */
  lemma {:induction false} YearsAscend(a: nat, b: nat)
    requires 1 <= a < b
    ensures DaysBeforeYear(a + 1) <= DaysBeforeYear(b)
    decreases b - a
  {
    if a + 1 < b {
      YearsAscend(a, b - 1);
      YearStep(b - 1);
    }
  }

  /** Later months start later. */
  lemma {:induction false} MonthsAscend(y: int, a: nat, b: nat)
    requires 1 <= a < b <= 13
    ensures DaysBeforeMonth(y, a + 1) <= DaysBeforeMonth(y, b)
    decreases b - a
  {
    if a + 1 < b {
      MonthsAscend(y, a, b - 1);
    }
  }

  /** The year holding day `n`, searching upward from year `y`. */
  function YearOf(n: nat, y: nat): (r: nat)
    requires y >= 1 && DaysBeforeYear(y) <= n
    ensures r >= y && DaysBeforeYear(r) <= n < DaysBeforeYear(r + 1)
    decreases n - DaysBeforeYear(y)
  {
    YearStep(y);
    if n < DaysBeforeYear(y + 1) then y else YearOf(n, y + 1)
  }

  /** The month and day holding day `k` of year `y`, searching upward from month `m`. */
  function MonthOf(y: int, k: nat, m: nat): (r: (nat, nat))
    requires 1 <= m <= 12 && DaysBeforeMonth(y, m) <= k < DaysInYear(y)
    ensures 1 <= r.0 <= 12 && 1 <= r.1 <= DaysInMonth(y, r.0)
    ensures DaysBeforeMonth(y, r.0) + r.1 - 1 == k
    decreases 12 - m
  {
    MonthsFillYear(y);
    if k < DaysBeforeMonth(y, m + 1) then (m, k - DaysBeforeMonth(y, m) + 1)
    else MonthOf(y, k, m + 1)
  }

  /** The date of day number `n`: the inverse of `DayNumber`. */
  function DateOf(n: nat): (r: (nat, nat, nat))
    ensures r.0 >= 1 && 1 <= r.1 <= 12 && 1 <= r.2 <= DaysInMonth(r.0, r.1)
    ensures DaysBeforeYear(r.0) + DaysBeforeMonth(r.0, r.1) + r.2 - 1 == n
  {
    assert DaysBeforeYear(1) == 0;
    var y := YearOf(n, 1);
    YearStep(y);
    MonthsFillYear(y);
    var md := MonthOf(y, n - DaysBeforeYear(y), 1);
    (y, md.0, md.1)
  }

  /** Every real date is the date of its own day number. */
  lemma DateOfDayNumber(d: DateTime)
    requires d.year >= 1 && 1 <= d.month <= 12 && 1 <= d.day <= DaysInMonth(d.year, d.month)
    ensures DayNumber(d) >= 0 && DateOf(DayNumber(d)) == (d.year, d.month, d.day)
  {
    var n := DayNumber(d);
    MonthsFillYear(d.year);
    MonthsAscend(d.year, d.month, 13);
    YearStep(d.year);
    var r := DateOf(n);
    if r.0 < d.year {
      YearsAscend(r.0, d.year);
    } else if r.0 > d.year {
      YearsAscend(d.year, r.0);
    }
    assert r.0 == d.year;
    if r.1 < d.month {
      MonthsAscend(d.year, r.1, d.month);
    } else if r.1 > d.month {
      MonthsAscend(d.year, d.month, r.1);
    }
  }

  const UnixEpochDay := 719162
  const MaxDayNumber := 3652059
  /** 1600-01-01T00:00:00 UTC in Unix seconds; earlier times are refused. */
  const Unix1600 := -11676096000

  /** pydantic's reading of a number as Unix time, in UTC: seconds, or
      milliseconds when the magnitude exceeds 2e10; a time before 1600 or
      after 9999 is refused. */
  function FromTimestamp(t: int): (r: Option<DateTime>)
    ensures r.Some? ==> Valid(r.value) && r.value.offset == Some(0)
  {
    if t < -20000000000 || t > 20000000000 then FromSeconds(t / 1000, t % 1000 * 1000)
    else FromSeconds(t, 0)
  }

  /** The UTC date and time `secs` seconds after the Unix epoch, with the
      given microseconds. */
  function FromSeconds(secs: int, micro: nat): (r: Option<DateTime>)
    requires micro < 1000000
    ensures r.Some? ==> Valid(r.value) && r.value.offset == Some(0) && r.value.micro == micro
  {
    var n := secs / 86400 + UnixEpochDay;
    var sod := secs % 86400;
    if secs >= Unix1600 && 0 <= n < MaxDayNumber then
      var date := DateOf(n);
      Some(DateTime(date.0, date.1, date.2, sod / 3600, sod % 3600 / 60, sod % 60, micro, Some(0)))
    else None
  }

  /** The instant a value names, in seconds since 1970-01-01T00:00:00 UTC. */
  function UnixSeconds(d: DateTime): int
    requires 1 <= d.month <= 12
  {
    (DayNumber(d) - UnixEpochDay) * 86400 + d.hour * 3600 + d.minute * 60 + d.second
    - d.offset.GetOr(0) * 60
  }

  /** A second of the day splits into hours, minutes and seconds and back. */
  lemma ClockOfSecond(sod: int)
    requires 0 <= sod < 86400
    ensures sod / 3600 * 3600 + sod % 3600 / 60 * 60 + sod % 60 == sod
  {
  }

  /** Hours, minutes and seconds are read back from the second of the day they name. */
  lemma ClockFields(h: int, m: int, sec: int)
    requires 0 <= h < 24 && 0 <= m < 60 && 0 <= sec < 60
    ensures var sod := h * 3600 + m * 60 + sec;
      sod / 3600 == h && sod % 3600 / 60 == m && sod % 60 == sec
  {
    var sod := h * 3600 + m * 60 + sec;
    assert sod % 3600 == m * 60 + sec;
  }

  /** The whole seconds of a millisecond count, and the milliseconds left over. */
  lemma SplitMillis(t: int)
    ensures t / 1000 * 1000 + t % 1000 * 1000 / 1000 == t
  {
    assert t % 1000 * 1000 / 1000 == t % 1000;
  }

  /** A timestamp reads as the instant it counts: seconds exactly, and
      milliseconds with their sub-second part kept as microseconds. */
  lemma TimestampRoundTrip(t: int)
    requires FromTimestamp(t).Some?
    ensures var d := FromTimestamp(t).value;
      if -20000000000 <= t <= 20000000000 then UnixSeconds(d) == t && d.micro == 0
      else UnixSeconds(d) * 1000 + d.micro / 1000 == t
  {
    if t < -20000000000 || t > 20000000000 {
      SecondsRoundTrip(t / 1000, t % 1000 * 1000);
      SplitMillis(t);
    } else {
      SecondsRoundTrip(t, 0);
    }
  }

  lemma SecondsRoundTrip(secs: int, micro: nat)
    requires micro < 1000000 && FromSeconds(secs, micro).Some?
    ensures UnixSeconds(FromSeconds(secs, micro).value) == secs
  {
    var n := secs / 86400 + UnixEpochDay;
    var sod := secs % 86400;
    var d := FromSeconds(secs, micro).value;
    assert DayNumber(d) == n;
    ClockOfSecond(sod);
    assert d.hour * 3600 + d.minute * 60 + d.second == sod;
  }

  /** A timestamp in seconds, given as a day number and a second of that day. */
  lemma FromDayAndSecond(t: int, n: int, sod: int)
    requires Unix1600 <= t <= 20000000000
    requires 0 <= n < MaxDayNumber && 0 <= sod < 86400
    requires t == (n - UnixEpochDay) * 86400 + sod
    ensures FromTimestamp(t) ==
      Some(DateTime(DateOf(n).0, DateOf(n).1, DateOf(n).2, sod / 3600, sod % 3600 / 60, sod % 60, 0, Some(0)))
  {
    assert t / 86400 == n - UnixEpochDay && t % 86400 == sod;
    assert FromTimestamp(t) == FromSeconds(t, 0);
  }

  /** Every whole-second UTC instant from 1600 up to 2e10 seconds after the
      epoch is read back from its timestamp. */
  lemma UnixSecondsRoundTrip(d: DateTime)
    requires Valid(d) && d.offset == Some(0) && d.micro == 0
    requires Unix1600 <= UnixSeconds(d) <= 20000000000
    ensures FromTimestamp(UnixSeconds(d)) == Some(d)
  {
    var sod := d.hour * 3600 + d.minute * 60 + d.second;
    var n := DayNumber(d);
    DateOfDayNumber(d);
    YearsAscend(d.year, 10000);
    MonthsFillYear(d.year);
    MonthsAscend(d.year, d.month, 13);
    FromDayAndSecond(UnixSeconds(d), n, sod);
    ClockFields(d.hour, d.minute, d.second);
  }

  /** Timestamp 0 is the start of 1970 in UTC. */
  lemma EpochIsStartOf1970()
    ensures FromTimestamp(0) == Some(DateTime(1970, 1, 1, 0, 0, 0, 0, Some(0)))
  {
    var d := DateTime(1970, 1, 1, 0, 0, 0, 0, Some(0));
    assert DaysBeforeYear(1970) == UnixEpochDay;
    assert UnixSeconds(d) == 0;
    UnixSecondsRoundTrip(d);
  }

  /** The earliest accepted timestamp is the start of 1600, in seconds and in
      milliseconds. */
  lemma TimestampFloor()
    ensures FromTimestamp(Unix1600) == Some(DateTime(1600, 1, 1, 0, 0, 0, 0, Some(0)))
    ensures FromTimestamp(Unix1600 * 1000) == Some(DateTime(1600, 1, 1, 0, 0, 0, 0, Some(0)))
  {
    var d := DateTime(1600, 1, 1, 0, 0, 0, 0, Some(0));
    assert DaysBeforeYear(1600) == 584022;
    assert UnixSeconds(d) == Unix1600;
    UnixSecondsRoundTrip(d);
    assert FromTimestamp(Unix1600 * 1000) == FromSeconds(Unix1600, 0);
  }

  /** Any timestamp before the start of 1600 is refused. */
  lemma Before1600Refused(t: int)
    requires t < Unix1600 * 1000 || -20000000000 <= t < Unix1600
    ensures FromTimestamp(t).None?
  {
    if t < -20000000000 {
      assert t / 1000 < Unix1600;
    }
  }
}

=== FILE: errors.dfy ===
/** The program's exception hierarchy (src/ado_ai_cli/utils/exceptions.py) and
    the foreign exceptions that reach its handlers, each with its `str()`. */
module Errors {
  import opened Wrappers
  import opened Strings

  datatype Error =
    // The application's own classes.
    | ConfigurationError(message: string)
    | AzureDevOpsError(message: string)
    | WorkItemNotFoundError(workItemId: int)
    | AuthenticationError(message: string)
    | ClaudeApiError(message: string)
    | RateLimitError(retryAfter: Option<int>)
    | WorkflowError(message: string)
    // The tracking-service library's `AzureDevOpsServiceError`.
    | ServiceError(statusCode: Option<int>, message: string)
    // The LLM library's `APIError`, and its subclass `RateLimitError`.
    | ApiError(message: string)
    | ApiRateLimitError(retryAfter: Option<int>, message: string)
    // Python built-ins raised or met by the web layer, and anything else.
    | ValueError(message: string)
    | NotImplementedError(message: string)
    // The database library's `IntegrityError`, with the driver's text.
    | IntegrityError(message: string)
    | OtherError(message: string)

  /** The application classes; `Foreign` stands for every class outside the hierarchy. */
  datatype ErrorClass =
    | AdoAiClass
    | ConfigurationClass
    | AzureDevOpsClass
    | WorkItemNotFoundClass
    | AuthenticationClass
    | ClaudeApiClass
    | RateLimitClass
    | WorkflowClass
    | Foreign

  function ClassOf(e: Error): ErrorClass {
    match e
    case ConfigurationError(_) => ConfigurationClass
    case AzureDevOpsError(_) => AzureDevOpsClass
    case WorkItemNotFoundError(_) => WorkItemNotFoundClass
    case AuthenticationError(_) => AuthenticationClass
    case ClaudeApiError(_) => ClaudeApiClass
    case RateLimitError(_) => RateLimitClass
    case WorkflowError(_) => WorkflowClass
    case _ => Foreign
  }

  /** The declared base class inside the hierarchy (`AdoAiError` derives from `Exception`, outside it). */
  function Parent(c: ErrorClass): Option<ErrorClass> {
    match c
    case AdoAiClass => None
    case Foreign => None
    case WorkItemNotFoundClass => Some(AzureDevOpsClass)
    case _ => Some(AdoAiClass)
  }

  function Depth(c: ErrorClass): nat {
    match c
    case AdoAiClass => 0
    case Foreign => 0
    case WorkItemNotFoundClass => 2
    case _ => 1
  }

  /** Python's `issubclass(c, d)` inside the hierarchy. */
  predicate IsSubclass(c: ErrorClass, d: ErrorClass)
    decreases Depth(c)
  {
    c == d || (Parent(c).Some? && IsSubclass(Parent(c).value, d))
  }

  /** Python's `isinstance(e, d)`. */
  predicate IsA(e: Error, d: ErrorClass) {
    IsSubclass(ClassOf(e), d)
  }

  /** Python's `str(e)`: the message the error was raised with, except that
      the not-found error names the id and the rate-limit error is built
      from its wait time. */
  function Message(e: Error): (m: string)
    ensures e.WorkItemNotFoundError? ==> m == "Work item " + IntToString(e.workItemId) + " not found"
    ensures e.RateLimitError? ==> StartsWith(m, RateLimitBase)
    ensures !e.WorkItemNotFoundError? && !e.RateLimitError? ==> m == e.message
  {
    match e
    case WorkItemNotFoundError(id) => "Work item " + IntToString(id) + " not found"
    case RateLimitError(retryAfter) => RateLimitMessage(retryAfter)
    case ConfigurationError(m) => m
    case AzureDevOpsError(m) => m
    case AuthenticationError(m) => m
    case ClaudeApiError(m) => m
    case WorkflowError(m) => m
    case ServiceError(_, m) => m
    case ApiError(m) => m
    case ApiRateLimitError(_, m) => m
    case ValueError(m) => m
    case NotImplementedError(m) => m
    case IntegrityError(m) => m
    case OtherError(m) => m
  }

  const RateLimitBase := "API rate limit exceeded"

  /** `retry_after` is tested by truthiness: `None` and `0` add nothing. */
  function RateLimitMessage(retryAfter: Option<int>): string {
    if retryAfter.Some? && retryAfter.value != 0 then
      RateLimitBase + ". Retry after " + IntToString(retryAfter.value) + " seconds"
    else RateLimitBase
  }

  /** The not-found error is an `AzureDevOpsError`, which is an `AdoAiError`; the
      other five application classes derive directly from `AdoAiError` and are not
      tracking-service errors. */
  lemma Hierarchy()
    ensures IsSubclass(WorkItemNotFoundClass, AzureDevOpsClass)
    ensures IsSubclass(AzureDevOpsClass, AdoAiClass)
    ensures IsSubclass(WorkItemNotFoundClass, AdoAiClass)
    ensures forall c :: c in {ConfigurationClass, AuthenticationClass, ClaudeApiClass, RateLimitClass, WorkflowClass} ==>
              Parent(c) == Some(AdoAiClass) && !IsSubclass(c, AzureDevOpsClass)
    ensures !IsSubclass(Foreign, AdoAiClass)
  {
  }

  /** The not-found message names the id, and different ids give different messages. */
  lemma NotFoundMessageKeepsId(a: int, b: int)
    ensures StartsWith(Message(WorkItemNotFoundError(a)), "Work item ")
    ensures Message(WorkItemNotFoundError(a)) == Message(WorkItemNotFoundError(b)) ==> a == b
  {
    var ma, mb := Message(WorkItemNotFoundError(a)), Message(WorkItemNotFoundError(b));
    if ma == mb {
      var sa, sb := IntToString(a), IntToString(b);
      assert ma == "Work item " + sa + " not found";
      assert mb == "Work item " + sb + " not found";
      assert |sa| == |sb|;
      assert sa == ma[10..10 + |sa|];
      assert sb == mb[10..10 + |sb|];
      IntToStringInjective(a, b);
    }
  }

  /** The message carries a retry hint exactly when `retry_after` is truthy, and
      then it begins with the plain message. */
  lemma RateLimitHint(retryAfter: Option<int>)
    ensures Message(RateLimitError(retryAfter)) == RateLimitBase <==> (retryAfter.None? || retryAfter.value == 0)
    ensures StartsWith(Message(RateLimitError(retryAfter)), RateLimitBase)
  {
  }
}

=== FILE: files_api.dfy ===
/** The server file browser of the web API (src/ado_ai_web/api/files.py):
    which paths may be looked at, the order of the checks on a requested
    directory, which entries a listing shows and in what order, and the
    parent link. The filesystem is an oracle over resolved path strings. */
module FilesApi {
  import opened Wrappers
  import opened Strings
  import opened Http
  import Paths
  import Sorting

  /** One directory entry as the filesystem reports it; `stat` is `None`
      when `stat()` raises. */
  datatype Item = Item(name: string, path: string, isDir: bool, isFile: bool, stat: Option<Stat>)

  /** The two `stat()` values the listing shows; the modification time is
      kept as the text `str()` gives for it. */
  datatype Stat = Stat(size: int, mtime: string)

  /** Reading a directory fails with a permission error or another error. */
  datatype ListError = PermissionDenied | ListFailed(text: string)

  /** The filesystem as the browser uses it. `resolve` is `Path(p).resolve()`
      or the text of the error it raises; `list` is `sorted(iterdir())`. */
  datatype Fs = Fs(
    home: string,
    resolve: string -> Result<string, string>,
    pathExists: string -> bool,
    isDir: string -> bool,
    list: string -> Result<seq<Item>, ListError>)

  /** `ALLOWED_BASE_DIRS`, the user's home directory first. */
  function AllowedBaseDirs(home: string): (r: seq<string>)
    ensures |r| == 5 && r[0] == home
  {
    [home, "/Users", "/home", "/var/www", "/opt"]
  }

  /** The `any(...)` over the bases: skipping a base that does not exist,
      stopping at the first whose resolved string contains the path, and
      giving `false` when resolving a base raises. */
  function AnyBaseContains(p: string, bases: seq<string>, fs: Fs, contained: (string, string) -> bool): bool {
    if |bases| == 0 then false
    else if !fs.pathExists(bases[0]) then AnyBaseContains(p, bases[1..], fs, contained)
    else match fs.resolve(bases[0])
      case Failure(_) => false
      case Success(b) => contained(p, b) || AnyBaseContains(p, bases[1..], fs, contained)
  }

  /** `is_path_allowed` with the containment test as a parameter. */
  function AllowedWith(path: string, fs: Fs, contained: (string, string) -> bool): bool {
    match fs.resolve(path)
    case Failure(_) => false
    case Success(p) => AnyBaseContains(p, AllowedBaseDirs(fs.home), fs, contained)
  }

  /** `is_path_allowed` as written: string-prefix containment. A path is
      allowed exactly when it resolves and the first base that both exists
      and contains it comes after no existing base whose resolving raises. */
  function IsPathAllowedAsWritten(path: string, fs: Fs): (r: bool)
    ensures r <==> (fs.resolve(path).Success? &&
      exists k :: 0 <= k < 5 && fs.pathExists(AllowedBaseDirs(fs.home)[k])
        && fs.resolve(AllowedBaseDirs(fs.home)[k]).Success?
        && Paths.PrefixContained(fs.resolve(path).value, fs.resolve(AllowedBaseDirs(fs.home)[k]).value)
        && (forall m :: 0 <= m < k && fs.pathExists(AllowedBaseDirs(fs.home)[m]) ==> fs.resolve(AllowedBaseDirs(fs.home)[m]).Success?))
  {
    if fs.resolve(path).Success? then
      AnyBaseContainsIff(fs.resolve(path).value, AllowedBaseDirs(fs.home), fs, Paths.PrefixContained);
      AllowedWith(path, fs, Paths.PrefixContained)
    else AllowedWith(path, fs, Paths.PrefixContained)
  }

  /** `is_path_allowed` as the model uses it: the same search with
      component-wise containment. */
  function IsPathAllowed(path: string, fs: Fs): (r: bool)
    ensures r <==> (fs.resolve(path).Success? &&
      exists k :: 0 <= k < 5 && fs.pathExists(AllowedBaseDirs(fs.home)[k])
        && fs.resolve(AllowedBaseDirs(fs.home)[k]).Success?
        && Paths.IsWithin(fs.resolve(path).value, fs.resolve(AllowedBaseDirs(fs.home)[k]).value)
        && (forall m :: 0 <= m < k && fs.pathExists(AllowedBaseDirs(fs.home)[m]) ==> fs.resolve(AllowedBaseDirs(fs.home)[m]).Success?))
  {
    if fs.resolve(path).Success? then
      AnyBaseContainsIff(fs.resolve(path).value, AllowedBaseDirs(fs.home), fs, Paths.IsWithin);
      AllowedWith(path, fs, Paths.IsWithin)
    else AllowedWith(path, fs, Paths.IsWithin)
  }

  /** A path is allowed exactly when it resolves, and some existing base,
      all bases before it resolving, resolves to a directory containing it. */
  lemma {:induction false} AnyBaseContainsIff(p: string, bases: seq<string>, fs: Fs, contained: (string, string) -> bool)
    ensures AnyBaseContains(p, bases, fs, contained) <==>
      exists k :: 0 <= k < |bases| && fs.pathExists(bases[k]) && fs.resolve(bases[k]).Success?
        && contained(p, fs.resolve(bases[k]).value)
        && (forall m :: 0 <= m < k && fs.pathExists(bases[m]) ==> fs.resolve(bases[m]).Success?)
  {
    if |bases| > 0 {
      AnyBaseContainsIff(p, bases[1..], fs, contained);
      var tail := bases[1..];
      if AnyBaseContains(p, bases, fs, contained) {
        if fs.pathExists(bases[0]) && contained(p, fs.resolve(bases[0]).value) {
          assert fs.resolve(bases[0]).Success?;
        } else {
          var k :| 0 <= k < |tail| && fs.pathExists(tail[k]) && fs.resolve(tail[k]).Success?
            && contained(p, fs.resolve(tail[k]).value)
            && (forall m :: 0 <= m < k && fs.pathExists(tail[m]) ==> fs.resolve(tail[m]).Success?);
          assert bases[k + 1] == tail[k];
          forall m | 0 <= m < k + 1 && fs.pathExists(bases[m])
            ensures fs.resolve(bases[m]).Success?
          {
            if m > 0 {
              assert bases[m] == tail[m - 1];
            }
          }
        }
      } else {
        forall k | 0 <= k < |bases| && fs.pathExists(bases[k]) && fs.resolve(bases[k]).Success?
            && contained(p, fs.resolve(bases[k]).value)
          ensures exists m :: 0 <= m < k && fs.pathExists(bases[m]) && fs.resolve(bases[m]).Failure?
        {
          if k == 0 {
          } else if fs.pathExists(bases[0]) && fs.resolve(bases[0]).Failure? {
            assert 0 < k;
          } else {
            assert tail[k - 1] == bases[k];
            var m :| 0 <= m < k - 1 && fs.pathExists(tail[m]) && fs.resolve(tail[m]).Failure?;
            assert bases[m + 1] == tail[m];
          }
        }
      }
    }
  }

  /** Whatever the corrected test allows, the test as written allows too. */
  lemma {:induction false} CorrectedAllowsLess(p: string, bases: seq<string>, fs: Fs)
    ensures AnyBaseContains(p, bases, fs, Paths.IsWithin) ==> AnyBaseContains(p, bases, fs, Paths.PrefixContained)
  {
    if |bases| > 0 {
      CorrectedAllowsLess(p, bases[1..], fs);
      if fs.pathExists(bases[0]) && fs.resolve(bases[0]).Success? {
        Paths.WithinImpliesPrefix(p, fs.resolve(bases[0]).value);
      }
    }
  }

  /** A filesystem with only "/opt" among the bases and a directory
      "/opt-backup" beside it. */
  function OptFs(): Fs {
    Fs("/nonexistent",
       p => Success(p),
       p => p == "/opt" || p == "/opt-backup/keys",
       p => true,
       p => Success([]))
  }

  /** As written, "/opt-backup/keys" passes as lying within "/opt"; the
      component-wise test refuses it. */
  lemma SiblingAllowedAsWritten()
    ensures IsPathAllowedAsWritten("/opt-backup/keys", OptFs())
    ensures !IsPathAllowed("/opt-backup/keys", OptFs())
  {
    var fs := OptFs();
    var p := "/opt-backup/keys";
    var bases := AllowedBaseDirs(fs.home);
    assert !fs.pathExists(bases[0]) && !fs.pathExists(bases[1]) && !fs.pathExists(bases[2]) && !fs.pathExists(bases[3]);
    assert fs.pathExists(bases[4]);
    assert bases[1..][1..][1..][1..] == ["/opt"];
    assert p[..|"/opt"|] == "/opt";
    assert Paths.PrefixContained(p, "/opt");
    assert p[|"/opt"|] == '-';
    Paths.WithinIsPrefixAtBoundary(p, "/opt");
    assert !Paths.IsWithin(p, "/opt");
  }

  // ---------------------------------------------------------------------
  // browse_directory

  /** One entry of a listing. */
  datatype FileEntry = FileEntry(name: string, path: string, isDirectory: bool, size: Option<int>, modified: Option<string>)

  datatype BrowseResponse = BrowseResponse(currentPath: string, parentPath: Option<string>, entries: seq<FileEntry>)

  /** The system directory names a listing never shows. */
  const SystemNames: seq<string> := ["System", "Library", "Applications", "tmp", "proc", "sys", "dev"]

  /** An item the listing skips: hidden, a system name, or not stat-able. */
  predicate Hidden(it: Item) {
    StartsWith(it.name, ".") || it.name in SystemNames || it.stat.None?
  }

  function EntryOf(it: Item): (e: FileEntry)
    requires it.stat.Some?
    ensures e.name == it.name && e.path == it.path && e.isDirectory == it.isDir
    ensures e.size.Some? <==> it.isFile
  {
    FileEntry(it.name, it.path, it.isDir, if it.isFile then Some(it.stat.value.size) else None, Some(it.stat.value.mtime))
  }

  /** The entries of the shown items, in listing order: an entry is shown
      exactly when some item that is not hidden produced it. */
  function Shown(items: seq<Item>): (r: seq<FileEntry>)
    ensures |r| <= |items|
    ensures forall e :: e in r <==> exists it :: it in items && !Hidden(it) && EntryOf(it) == e
  {
    if |items| == 0 then []
    else
      assert forall it :: it in items <==> it == items[0] || it in items[1..];
      (if Hidden(items[0]) then [] else [EntryOf(items[0])]) + Shown(items[1..])
  }

  /** `(not is_directory, name.lower())`: directories first, then by the
      lower-cased name, compared by code point. */
  function ListingKey(e: FileEntry): seq<int> {
    [if e.isDirectory then 0 else 1] + Sorting.CodePoints(Lower(e.name))
  }

  /** The listed entries in display order. */
  function SortEntries(entries: seq<FileEntry>): (r: seq<FileEntry>)
    ensures multiset(r) == multiset(entries)
    ensures Sorting.SortedBy(r, ListingKey)
    ensures forall i, j :: 0 <= i < j < |r| ==> !(!r[i].isDirectory && r[j].isDirectory)
  {
    var r := Sorting.SortBy(entries, ListingKey);
    forall i, j | 0 <= i < j < |r|
      ensures !(!r[i].isDirectory && r[j].isDirectory)
    {
      assert Sorting.LexLe(ListingKey(r[i]), ListingKey(r[j]));
    }
    r
  }

  /** Entries with the same sort key (same kind, names equal up to case) keep
      the order in which the directory listing produced them. */
  lemma SortEntriesIsStable(entries: seq<FileEntry>, k: seq<int>)
    ensures Sorting.WithKey(SortEntries(entries), ListingKey, k) == Sorting.WithKey(entries, ListingKey, k)
  {
    Sorting.SortByIsStable(entries, ListingKey, k);
  }

  /** Among entries of the same kind, the lower-cased names ascend. */
  lemma SameKindByName(entries: seq<FileEntry>, i: int, j: int)
    requires 0 <= i < j < |SortEntries(entries)|
    requires SortEntries(entries)[i].isDirectory == SortEntries(entries)[j].isDirectory
    ensures Sorting.LexLe(Sorting.CodePoints(Lower(SortEntries(entries)[i].name)), Sorting.CodePoints(Lower(SortEntries(entries)[j].name)))
  {
    var r := SortEntries(entries);
    assert Sorting.LexLe(ListingKey(r[i]), ListingKey(r[j]));
    assert ListingKey(r[i])[1..] == Sorting.CodePoints(Lower(r[i].name));
    assert ListingKey(r[j])[1..] == Sorting.CodePoints(Lower(r[j].name));
  }

  /** The parent link: none at the root, none when the parent is not allowed. */
  function ParentLink(p: string, fs: Fs): (r: Option<string>)
    ensures r.Some? <==> p != Paths.ParentOf(p) && IsPathAllowed(Paths.ParentOf(p), fs)
    ensures r.Some? ==> r.value == Paths.ParentOf(p)
  {
    var parent := Paths.ParentOf(p);
    if p != parent && IsPathAllowed(parent, fs) then Some(parent) else None
  }

  /** `browse_directory`: each failing check with its status and text, and
      on success the resolved path, its parent link and the shown entries
      in display order. */
  function BrowseDirectory(path: string, fs: Fs): (r: Result<BrowseResponse, HttpError>)
    ensures fs.resolve(path).Failure? ==>
      r == Failure(HttpException(500, "Failed to browse directory: " + fs.resolve(path).error))
    ensures fs.resolve(path).Success? ==> var p := fs.resolve(path).value;
      && (!IsPathAllowed(p, fs) ==>
          r == Failure(HttpException(403, "Access denied: Path '" + path + "' is outside allowed directories")))
      && (IsPathAllowed(p, fs) && !fs.pathExists(p) ==> r == Failure(HttpException(404, "Path not found: " + path)))
      && (IsPathAllowed(p, fs) && fs.pathExists(p) && !fs.isDir(p) ==>
          r == Failure(HttpException(400, "Path is not a directory: " + path)))
      && (IsPathAllowed(p, fs) && fs.pathExists(p) && fs.isDir(p) && fs.list(p) == Failure(PermissionDenied) ==>
          r == Failure(HttpException(403, "Permission denied: Cannot read directory '" + path + "'")))
      && (IsPathAllowed(p, fs) && fs.pathExists(p) && fs.isDir(p) && fs.list(p).Failure? && fs.list(p).error.ListFailed? ==>
          r == Failure(HttpException(500, "Failed to browse directory: " + fs.list(p).error.text)))
    ensures r.Success? ==> var p := fs.resolve(path).value;
      && r.value.currentPath == p && r.value.parentPath == ParentLink(p, fs)
      && multiset(r.value.entries) == multiset(Shown(fs.list(p).value))
      && Sorting.SortedBy(r.value.entries, ListingKey)
  {
    match fs.resolve(path)
    case Failure(e) => Failure(HttpException(500, "Failed to browse directory: " + e))
    case Success(p) =>
      if !IsPathAllowed(p, fs) then
        Failure(HttpException(403, "Access denied: Path '" + path + "' is outside allowed directories"))
      else if !fs.pathExists(p) then Failure(HttpException(404, "Path not found: " + path))
      else if !fs.isDir(p) then Failure(HttpException(400, "Path is not a directory: " + path))
      else match fs.list(p)
        case Failure(PermissionDenied) =>
          Failure(HttpException(403, "Permission denied: Cannot read directory '" + path + "'"))
        case Failure(ListFailed(e)) => Failure(HttpException(500, "Failed to browse directory: " + e))
        case Success(items) => Success(BrowseResponse(p, ParentLink(p, fs), SortEntries(Shown(items))))
  }

  /** The checks come in the order allowed (403), exists (404), is a
      directory (400), and a listing that succeeds shows exactly the items
      that are not hidden, directories first. */
  lemma BrowseChecks(path: string, fs: Fs)
    requires fs.resolve(path).Success?
    ensures var p := fs.resolve(path).value; var r := BrowseDirectory(path, fs);
      && (!IsPathAllowed(p, fs) ==> r.Failure? && StatusCode(r.error) == 403)
      && (IsPathAllowed(p, fs) && !fs.pathExists(p) ==> r.Failure? && StatusCode(r.error) == 404)
      && (IsPathAllowed(p, fs) && fs.pathExists(p) && !fs.isDir(p) ==> r.Failure? && StatusCode(r.error) == 400)
      && (r.Success? <==> IsPathAllowed(p, fs) && fs.pathExists(p) && fs.isDir(p) && fs.list(p).Success?)
  {
  }

  /** Sorting the shown entries neither adds nor drops one. */
  lemma ListedIff(items: seq<Item>, e: FileEntry)
    ensures e in SortEntries(Shown(items)) <==> exists it :: it in items && !Hidden(it) && EntryOf(it) == e
  {
    var shown := Shown(items);
    assert e in SortEntries(shown) <==> e in multiset(SortEntries(shown));
    assert e in shown <==> e in multiset(shown);
  }

  /** A successful listing shows each visible item once, in the display
      order, with the root having no parent link. */
  lemma BrowseListing(path: string, fs: Fs)
    requires BrowseDirectory(path, fs).Success?
    ensures var p := fs.resolve(path).value; var b := BrowseDirectory(path, fs).value;
      && b.currentPath == p
      && multiset(b.entries) == multiset(Shown(fs.list(p).value))
      && (forall e :: e in b.entries <==> exists it :: it in fs.list(p).value && !Hidden(it) && EntryOf(it) == e)
      && Sorting.SortedBy(b.entries, ListingKey)
      && (p == "/" ==> b.parentPath.None?)
  {
    var p := fs.resolve(path).value;
    var items := fs.list(p).value;
    assert BrowseDirectory(path, fs) == Success(BrowseResponse(p, ParentLink(p, fs), SortEntries(Shown(items))));
    forall e
      ensures e in SortEntries(Shown(items)) <==> exists it :: it in items && !Hidden(it) && EntryOf(it) == e
    {
      ListedIff(items, e);
    }
    if p == "/" {
      Paths.ParentFixedOnlyAtRoot(p);
    }
  }

  // ---------------------------------------------------------------------
  // validate_path

  datatype Validation = Validation(valid: bool, message: string, path: Option<string>)

  /** `validate_path`: the first failing check, in the order allowed,
      exists, is a directory; otherwise valid with the resolved path. */
  function ValidatePath(path: string, fs: Fs): (v: Validation)
    ensures fs.resolve(path).Failure? ==> v == Validation(false, "Invalid path: " + fs.resolve(path).error, None)
    ensures v.valid <==> fs.resolve(path).Success? && IsPathAllowed(fs.resolve(path).value, fs)
                         && fs.pathExists(fs.resolve(path).value) && fs.isDir(fs.resolve(path).value)
    ensures v.valid ==> v.path == Some(fs.resolve(path).value)
    ensures fs.resolve(path).Success? ==> var p := fs.resolve(path).value;
      && (!IsPathAllowed(p, fs) ==> v == Validation(false, "Path is outside allowed directories", None))
      && (IsPathAllowed(p, fs) && !fs.pathExists(p) ==> v == Validation(false, "Path does not exist", None))
      && (IsPathAllowed(p, fs) && fs.pathExists(p) && !fs.isDir(p) ==> v == Validation(false, "Path is not a directory", None))
      && (IsPathAllowed(p, fs) && fs.pathExists(p) && fs.isDir(p) ==> v == Validation(true, "Path is valid and accessible", Some(p)))
  {
    match fs.resolve(path)
    case Failure(e) => Validation(false, "Invalid path: " + e, None)
    case Success(p) =>
      if !IsPathAllowed(p, fs) then Validation(false, "Path is outside allowed directories", None)
      else if !fs.pathExists(p) then Validation(false, "Path does not exist", None)
      else if !fs.isDir(p) then Validation(false, "Path is not a directory", None)
      else Validation(true, "Path is valid and accessible", Some(p))
  }

  /** Validation and browsing agree: a path browses successfully exactly
      when it validates and its directory can be read. */
  lemma ValidateAgreesWithBrowse(path: string, fs: Fs)
    ensures BrowseDirectory(path, fs).Success? <==>
      ValidatePath(path, fs).valid && fs.list(ValidatePath(path, fs).path.value).Success?
  {
  }
}

=== FILE: http.dfy ===
/** The errors a web endpoint answers with: an `HTTPException` the handler
    raises, a query parameter the framework rejects before the handler runs,
    and an exception nobody catches, which the framework answers with 500. */
module Http {

  datatype HttpError =
    | HttpException(status: int, detail: string)
    | QueryInvalid(params: seq<string>)
    | Unhandled

  function StatusCode(e: HttpError): (code: int)
    ensures e.HttpException? ==> code == e.status
    ensures e.QueryInvalid? ==> code == 422
    ensures e.Unhandled? ==> code == 500
  {
    match e
    case HttpException(status, _) => status
    case QueryInvalid(_) => 422
    case Unhandled => 500
  }
}

=== FILE: json.dfy ===
/** JSON values as Python's `json` module produces them, and the outcome of
    decoding a string (RFC 8259). Decoding itself is not modelled: callers take
    it as a function parameter `decode: string -> DecodeResult`. */
module Json {

  datatype Json =
    | JNull
    | JBool(b: bool)
    | JNum(n: real)
    | JStr(s: string)
    | JArr(items: seq<Json>)
    | JObj(fields: map<string, Json>)

  /** `json.loads` either returns a value or raises `JSONDecodeError` with a detail text. */
  datatype DecodeResult = Decoded(value: Json) | DecodeError(detail: string)

  /** Python truthiness of a decoded value. */
  predicate Truthy(j: Json) {
    match j
    case JNull => false
    case JBool(b) => b
    case JNum(n) => n != 0.0
    case JStr(s) => s != ""
    case JArr(items) => |items| > 0
    case JObj(fields) => |fields| > 0
  }

  /** `d.get(key)` on a decoded object: JSON null and a missing key both read as `None`. */
  function Get(fields: map<string, Json>, key: string): Json {
    if key in fields then fields[key] else JNull
  }
}

=== FILE: lax.dfy ===
/** pydantic's lax-mode reading of text as a number: what an `int` or a
    `float` field of a model accepts when the value arrives as a string. */
module Lax {
  import opened Wrappers
  import opened Strings
  import opened Models

  /** An optional sign and one or more digits. */
  function ParseSigned(t: string): Option<int> {
    if |t| > 1 && (t[0] == '+' || t[0] == '-') && AllDigits(t[1..]) then
      Some(if t[0] == '-' then -(ParseNat(t[1..]) as int) else ParseNat(t[1..]) as int)
    else if |t| > 0 && AllDigits(t) then Some(ParseNat(t))
    else None
  }

  /** A point followed only by zeros is cut off, so "2.00" reads as "2". */
  function DropZeroFraction(t: string): string {
    var k := IndexOf(t, '.');
    if k >= 0 && forall i :: k < i < |t| ==> t[i] == '0' then t[..k] else t
  }

  /** The integer a string gives: surrounding whitespace is trimmed, a
      fraction of zeros is dropped, and what is left must be a signed
      integer. */
  function ParseIntText(s: string): Option<int> {
    ParseSigned(DropZeroFraction(Strip(s)))
  }

  /** The fraction's digits without trailing zeros; "0" when none are left. */
  function TrimZeros(f: string): (r: string)
    ensures |r| > 0 && (AllDigits(f) ==> AllDigits(r))
    ensures r == "0" || r[|r| - 1] != '0'
  {
    if |f| == 0 then "0"
    else if f[|f| - 1] == '0' then TrimZeros(f[..|f| - 1])
    else f
  }

  /** The value of digits `whole`, a point, and digits `frac`. */
  function DecimalValue(whole: string, frac: string): real
    requires AllDigits(whole) && AllDigits(frac)
  {
    ParseNat(whole) as real + ParseNat(frac) as real / Pow10(|frac|) as real
  }

  /** Python's `str()` of a float written in plain decimal: the sign, the
      whole part without leading zeros, a point, and the fraction without
      trailing zeros, keeping at least one digit. */
  function DecimalText(neg: bool, whole: string, frac: string): string
    requires AllDigits(whole) && AllDigits(frac)
  {
    SignText(neg) + (NatToString(ParseNat(whole)) + ("." + TrimZeros(frac)))
  }

  function Signed(neg: bool, v: real): real {
    if neg then -v else v
  }

  function SignText(neg: bool): string {
    if neg then "-" else ""
  }

  /** The float a string gives, for plain decimal text: surrounding
      whitespace trimmed, an optional sign, digits with at most one point,
      and at least one digit. */
  function ParseFloatText(s: string): Option<Float> {
    var t := Strip(s);
    ParseUnsigned(IsNegative(t), Unsigned(t))
  }

  predicate IsNegative(t: string) {
    |t| > 0 && t[0] == '-'
  }

  /** The text after a leading sign. */
  function Unsigned(t: string): string {
    if |t| > 0 && (t[0] == '+' || t[0] == '-') then t[1..] else t
  }

  /** The digits before the point, or all of the text when there is none. */
  function WholePart(body: string): string {
    var k := IndexOf(body, '.');
    if k >= 0 then body[..k] else body
  }

  /** The text after the first point, or nothing when there is none. */
  function FracPart(body: string): string {
    var k := IndexOf(body, '.');
    if k >= 0 then body[k + 1..] else ""
  }

  /** Digits with at most one point, and at least one digit; `neg` is the sign before them. */
  function ParseUnsigned(neg: bool, body: string): Option<Float> {
    var whole, frac := WholePart(body), FracPart(body);
    if |whole| + |frac| > 0 && AllDigits(whole) && AllDigits(frac) then
      Some(Float(Signed(neg, DecimalValue(whole, frac)), DecimalText(neg, whole, frac)))
    else None
  }

  // Properties.

  /** Text that neither starts nor ends with whitespace is not stripped. */
  lemma StripLeavesTrimmed(x: string)
    requires |x| > 0 && !IsSpace(x[0]) && !IsSpace(x[|x| - 1])
    ensures Strip(x) == x
  {
  }

  lemma NoPointInDigits(x: string)
    requires AllDigits(x)
    ensures IndexOf(x, '.') == -1
  {
  }

  /** The first point after a run of digits is the one that ends it. */
  lemma PointAfterDigits(x: string, rest: string)
    requires AllDigits(x)
    ensures IndexOf(x + "." + rest, '.') == |x|
    ensures IndexOf(x + ("." + rest), '.') == |x|
  {
    var s := x + "." + rest;
    assert s == x + ("." + rest);
    assert s[|x|] == '.';
    assert forall i :: 0 <= i < |x| ==> s[i] == x[i];
  }

  lemma RenderingIsTrimmed(i: int)
    ensures |IntToString(i)| > 0 && !IsSpace(IntToString(i)[0])
    ensures !IsSpace(IntToString(i)[|IntToString(i)| - 1])
    ensures '0' <= IntToString(i)[|IntToString(i)| - 1] <= '9'
  {
    SignOfRendering(i);
    var s := IntToString(i);
    var n := if i < 0 then -i else i;
    assert AllDigits(NatToString(n));
    assert s[|s| - 1] == NatToString(n)[|NatToString(n)| - 1];
  }

  lemma ParseRendering(i: int)
    ensures ParseSigned(IntToString(i)) == Some(i)
  {
    var s := IntToString(i);
    if i < 0 {
      ParseNatToString(-i);
      assert s[1..] == NatToString(-i);
    } else {
      ParseNatToString(i);
      assert NatToString(i)[0] != '+' && NatToString(i)[0] != '-';
    }
  }

  /** `str(i)` has no point. */
  lemma NoPointInRendering(i: int)
    ensures IndexOf(IntToString(i), '.') == -1
  {
    var s := IntToString(i);
    if i < 0 {
      var digits := NatToString(-i);
      assert s == ['-'] + digits;
      NoPointInDigits(digits);
      assert s[1..] == digits;
    } else {
      NoPointInDigits(s);
    }
  }

  /** The point after `str(i)` is the first one. */
  lemma PointAfterRendering(i: int, rest: string)
    ensures IndexOf(IntToString(i) + "." + rest, '.') == |IntToString(i)|
  {
    var s := IntToString(i);
    var t := s + "." + rest;
    if i < 0 {
      var digits := NatToString(-i);
      assert t == "-" + (digits + "." + rest);
      PointAfterDigits(digits, rest);
      assert t[1..] == digits + "." + rest;
    } else {
      PointAfterDigits(s, rest);
    }
  }

  /** `str(i)` reads back as `i`. */
  lemma IntTextRoundTrip(i: int)
    ensures ParseIntText(IntToString(i)) == Some(i)
  {
    var s := IntToString(i);
    RenderingIsTrimmed(i);
    StripLeavesTrimmed(s);
    NoPointInRendering(i);
    ParseRendering(i);
  }

  /** `str(i)` followed by a point and only zeros also reads back as `i`. */
  lemma ZeroFractionRoundTrip(i: int, zeros: string)
    requires forall j :: 0 <= j < |zeros| ==> zeros[j] == '0'
    ensures ParseIntText(IntToString(i) + "." + zeros) == Some(i)
  {
    var s := IntToString(i);
    var t := s + "." + zeros;
    RenderingIsTrimmed(i);
    assert |t| > 0 && t[0] == s[0];
    assert t[|t| - 1] == (if |zeros| == 0 then '.' else '0');
    StripLeavesTrimmed(t);
    PointAfterRendering(i, zeros);
    assert forall j :: |s| < j < |t| ==> t[j] == zeros[j - |s| - 1];
    assert t[..|s|] == s;
    ParseRendering(i);
  }

  lemma ScaleFraction(x: nat, y: nat)
    requires y > 0
    ensures (x * 10) as real / (y * 10) as real == x as real / y as real
  {
  }

  /** Trailing zeros of a fraction do not change its value. */
  lemma {:induction false} TrimZerosValue(f: string)
    requires AllDigits(f)
    ensures ParseNat(TrimZeros(f)) as real / Pow10(|TrimZeros(f)|) as real
         == ParseNat(f) as real / Pow10(|f|) as real
    decreases |f|
  {
    if |f| == 0 {
      assert ParseNat("0") == 0;
    } else if f[|f| - 1] == '0' {
      var g := f[..|f| - 1];
      TrimZerosValue(g);
      assert ParseNat(f) == ParseNat(g) * 10;
      ScaleFraction(ParseNat(g), Pow10(|g|));
    }
  }

  lemma TrimZerosIdempotent(f: string)
    ensures TrimZeros(TrimZeros(f)) == TrimZeros(f)
  {
    var r := TrimZeros(f);
    if r == "0" {
      assert r[..0] == "";
    }
  }

  /** Digits, a point and digits read as the decimal they spell. */
  lemma ReadUnsigned(neg: bool, w: string, f: string)
    requires |w| > 0 && AllDigits(w) && |f| > 0 && AllDigits(f)
    ensures ParseUnsigned(neg, w + ("." + f)) == Some(Float(Signed(neg, DecimalValue(w, f)), DecimalText(neg, w, f)))
  {
    var body := w + ("." + f);
    PointAfterDigits(w, f);
    assert WholePart(body) == w by {
      assert body[..|w|] == w;
    }
    assert FracPart(body) == f by {
      assert body[|w| + 1..] == f;
    }
  }

  /** Text that starts with a digit and does not end in whitespace reads
      with the sign put before it. */
  lemma ReadSigned(neg: bool, body: string)
    requires |body| > 0 && '0' <= body[0] <= '9' && !IsSpace(body[|body| - 1])
    ensures ParseFloatText(SignText(neg) + body) == ParseUnsigned(neg, body)
  {
    var text := SignText(neg) + body;
    assert text[0] == (if neg then '-' else body[0]);
    assert text[|text| - 1] == body[|body| - 1];
    StripLeavesTrimmed(text);
    assert IsNegative(text) == neg;
    assert Unsigned(text) == body by {
      if neg {
        assert text[1..] == body;
      } else {
        assert text == body;
        assert text[0] != '+' && text[0] != '-';
      }
    }
  }

  /** Re-rendering the whole part and trimming the fraction keep the value. */
  lemma SameDecimal(whole: string, frac: string)
    requires AllDigits(whole) && AllDigits(frac)
    ensures DecimalValue(NatToString(ParseNat(whole)), TrimZeros(frac)) == DecimalValue(whole, frac)
  {
    ParseNatToString(ParseNat(whole));
    TrimZerosValue(frac);
  }

  /** Re-rendering the whole part and trimming the fraction keep the text. */
  lemma SameText(neg: bool, whole: string, frac: string)
    requires AllDigits(whole) && AllDigits(frac)
    ensures DecimalText(neg, NatToString(ParseNat(whole)), TrimZeros(frac)) == DecimalText(neg, whole, frac)
  {
    ParseNatToString(ParseNat(whole));
    TrimZerosIdempotent(frac);
  }

  /** A parsed decimal's text reads back as the same float. */
  lemma DecimalTextStable(neg: bool, whole: string, frac: string)
    requires AllDigits(whole) && AllDigits(frac)
    ensures ParseFloatText(DecimalText(neg, whole, frac))
         == Some(Float(Signed(neg, DecimalValue(whole, frac)), DecimalText(neg, whole, frac)))
  {
    var w, f := NatToString(ParseNat(whole)), TrimZeros(frac);
    var body := w + ("." + f);
    var text := DecimalText(neg, whole, frac);
    assert text == SignText(neg) + body;
    assert body[|body| - 1] == f[|f| - 1];
    ReadSigned(neg, body);
    ReadUnsigned(neg, w, f);
    SameDecimal(whole, frac);
    SameText(neg, whole, frac);
  }

  /** The text `str()` gives for a parsed float reads back as the same float. */
  lemma FloatTextStable(s: string)
    requires ParseFloatText(s).Some?
    ensures ParseFloatText(ParseFloatText(s).value.text) == ParseFloatText(s)
  {
    var t := Strip(s);
    var neg, body := IsNegative(t), Unsigned(t);
    var whole, frac := WholePart(body), FracPart(body);
    assert ParseUnsigned(neg, body).Some?;
    DecimalTextStable(neg, whole, frac);
  }

  lemma ZeroFractionValue(w: string)
    requires AllDigits(w)
    ensures DecimalValue(w, "0") == ParseNat(w) as real
  {
    assert ParseNat("0") == 0 && Pow10(1) == 10;
  }

  /** The text an integer gets as a float, `str(float(i))`, reads back as the
      same value and text (plain decimal form only). */
  lemma IntFloatText(i: int)
    ensures ParseFloatText(IntToString(i) + ".0") == Some(Float(i as real, IntToString(i) + ".0"))
  {
    var neg := i < 0;
    var w := NatToString(if neg then -i else i);
    IntAsDecimal(i);
    DecimalTextStable(neg, w, "0");
  }

  /** `str(i) + ".0"` is the decimal text of `str(abs(i))` and fraction "0", with i's sign. */
  lemma IntAsDecimal(i: int)
    ensures var w := NatToString(if i < 0 then -i else i);
      && DecimalText(i < 0, w, "0") == IntToString(i) + ".0"
      && Signed(i < 0, DecimalValue(w, "0")) == i as real
  {
    var neg := i < 0;
    var n: nat := if neg then -i else i;
    var w := NatToString(n);
    ParseNatToString(n);
    var sign, point := SignText(neg), "." + TrimZeros("0");
    assert point == ".0";
    assert IntToString(i) == sign + w;
    assert DecimalText(neg, w, "0") == sign + (w + point);
    assert IntToString(i) + ".0" == sign + (w + point);
    ZeroFractionValue(w);
  }
}

=== FILE: models.dfy ===
/** The tracking service's entities as the program holds them
    (src/ado_ai_cli/azure_devops/models.py): raw field values, the work item
    snapshot, its comments, the update field map and the update outcome. */
module Models {
  import opened Wrappers
  import opened Strings
  import opened DateTimes

  /** A Python float: its value and the text `str()` gives for it. */
  datatype Float = Float(value: real, text: string)

  /** A raw value in a work item's field bag, or an identity reference. */
  datatype Value =
    | Null
    | Str(s: string)
    | Bool(b: bool)
    | Int(i: int)
    | Num(f: Float)
    | Dict(entries: map<string, Value>)
      /** An identity object: each `Option` says whether the attribute exists at all. */
    | Identity(displayName: Option<Value>, uniqueName: Option<Value>, text: string)

  /** Python truthiness; arbitrary objects are truthy. */
  predicate Truthy(v: Value) {
    match v
    case Null => false
    case Str(s) => s != ""
    case Bool(b) => b
    case Int(i) => i != 0
    case Num(f) => f.value != 0.0
    case Dict(entries) => |entries| > 0
    case Identity(_, _, _) => true
  }

  /** `d.get(key)`: a missing key reads as `None`. */
  function Get(d: map<string, Value>, key: string): Value {
    if key in d then d[key] else Null
  }

  /** Python's `a or b`. */
  function Or(a: Value, b: Value): Value {
    if Truthy(a) then a else b
  }

  /** An optional text is shown only when it is present and non-empty. */
  predicate Present(s: Option<string>) {
    s.Some? && s.value != ""
  }

  datatype WorkItem = WorkItem(
    id: int,
    workItemType: string,
    title: string,
    state: string,
    description: Option<string>,
    assignedTo: Option<string>,
    createdBy: Option<string>,
    createdDate: Option<ValidDateTime>,
    changedDate: Option<ValidDateTime>,
    areaPath: Option<string>,
    iterationPath: Option<string>,
    tags: Option<string>,
    priority: Option<int>,
    remainingWork: Option<Float>,
    completedWork: Option<Float>,
    acceptanceCriteria: Option<string>,
    reproSteps: Option<string>,
    systemInfo: Option<string>,
    url: Option<string>,
    rawFields: map<string, Value>)

  datatype WorkItemComment = WorkItemComment(
    id: int,
    text: string,
    createdBy: Option<string>,
    createdDate: Option<ValidDateTime>,
    modifiedDate: Option<ValidDateTime>)

  /** A value sent in an update: a text, a number, or null (Python's `None`). */
  datatype FieldValue = Text(s: string) | Number(n: real) | NullValue

  /** A Python dict of field updates; its insertion order is the order of the pairs. */
  type FieldMap = seq<(string, FieldValue)>

  function Keys(fields: FieldMap): (ks: seq<string>)
    ensures |ks| == |fields|
    ensures forall i :: 0 <= i < |fields| ==> ks[i] == fields[i].0
  {
    if |fields| == 0 then [] else [fields[0].0] + Keys(fields[1..])
  }

  datatype UpdateWorkItemResult = UpdateWorkItemResult(
    success: bool,
    workItemId: int,
    updatedFields: seq<string>,
    errorMessage: Option<string>)

  /** The result with its declared defaults: no updated fields and no error message. */
  function NewUpdateResult(success: bool, workItemId: int): UpdateWorkItemResult {
    UpdateWorkItemResult(success, workItemId, [], None)
  }

  /** One optional section: its heading and text when the text is present, nothing otherwise. */
  function Section(heading: string, s: Option<string>): seq<string> {
    if Present(s) then [heading + s.value] else []
  }

  /** The four parts every context starts with. */
  function HeaderParts(w: WorkItem): seq<string> {
    ["Work Item ID: " + IntToString(w.id), "Type: " + w.workItemType, "Title: " + w.title, "State: " + w.state]
  }

  /** The optional parts, in their fixed order. Priority is tested by
      truthiness (0 is left out); remaining work by `is not None` (0 is kept). */
  function OptionalParts(w: WorkItem): seq<string> {
    Section("Description:\n", w.description)
    + Section("Acceptance Criteria:\n", w.acceptanceCriteria)
    + Section("Reproduction Steps:\n", w.reproSteps)
    + Section("System Info:\n", w.systemInfo)
    + Section("Assigned To: ", w.assignedTo)
    + (if w.priority.Some? && w.priority.value != 0 then ["Priority: " + IntToString(w.priority.value)] else [])
    + (if w.remainingWork.Some? then ["Remaining Work: " + w.remainingWork.value.text + " hours"] else [])
    + Section("Tags: ", w.tags)
  }

  function ContextParts(w: WorkItem): seq<string> {
    HeaderParts(w) + OptionalParts(w)
  }

  /** `WorkItem.get_context_for_ai`: the parts joined by blank lines. */
  function GetContextForAi(w: WorkItem): (r: string)
    ensures StartsWith(r, "Work Item ID: ")
  {
    ContextOpensWithId(w);
    Join(ContextParts(w), "\n\n")
  }

  function B2N(b: bool): nat {
    if b then 1 else 0
  }

  /** How many optional parts the context should carry, counted field by field. */
  function IncludedCount(w: WorkItem): nat {
    B2N(Present(w.description)) + B2N(Present(w.acceptanceCriteria)) + B2N(Present(w.reproSteps))
    + B2N(Present(w.systemInfo)) + B2N(Present(w.assignedTo))
    + B2N(w.priority.Some? && w.priority.value != 0) + B2N(w.remainingWork.Some?) + B2N(Present(w.tags))
  }

  /** Joining two non-empty runs of parts puts one separator between them. */
  lemma {:induction false} JoinConcat(xs: seq<string>, ys: seq<string>, sep: string)
    requires |xs| >= 1 && |ys| >= 1
    ensures Join(xs + ys, sep) == Join(xs, sep) + sep + Join(ys, sep)
  {
    if |xs| == 1 {
      assert (xs + ys)[1..] == ys;
    } else {
      assert (xs + ys)[1..] == xs[1..] + ys;
      JoinConcat(xs[1..], ys, sep);
    }
  }

  /** Four parts joined by a separator. */
  lemma JoinFour(a: string, b: string, c: string, d: string, sep: string)
    ensures Join([a, b, c, d], sep) == a + sep + b + sep + c + sep + d
  {
    var xs := [a, b, c, d];
    assert xs[1..] == [b, c, d];
    assert xs[1..][1..] == [c, d];
    assert xs[1..][1..][1..] == [d];
    assert Join([c, d], sep) == c + sep + d;
    assert Join([b, c, d], sep) == b + sep + (c + sep + d);
    assert Join(xs, sep) == a + sep + (b + sep + (c + sep + d));
  }

  /** The join of a non-empty run of parts is a prefix of the join of any extension. */
  lemma JoinPrefix(xs: seq<string>, ys: seq<string>, sep: string)
    requires |xs| >= 1
    ensures StartsWith(Join(xs + ys, sep), Join(xs, sep))
  {
    if |ys| == 0 {
      assert xs + ys == xs;
    } else {
      JoinConcat(xs, ys, sep);
    }
  }

  lemma OptionalCount(w: WorkItem)
    ensures |OptionalParts(w)| == IncludedCount(w)
  {
  }

  lemma Regroup(x: string, s: string, t: string, y: string)
    ensures (x + s) + (t + y) == (x + (s + t)) + y
  {
  }

  /** The four header parts joined by blank lines, written out. */
  lemma HeaderText(w: WorkItem)
    ensures Join(HeaderParts(w), "\n\n")
         == "Work Item ID: " + IntToString(w.id) + "\n\nType: " + w.workItemType
            + "\n\nTitle: " + w.title + "\n\nState: " + w.state
  {
    var h := HeaderParts(w);
    var sep := "\n\n";
    JoinFour(h[0], h[1], h[2], h[3], sep);
    assert h == [h[0], h[1], h[2], h[3]];
    var p0 := "Work Item ID: " + IntToString(w.id);
    Regroup(p0, sep, "Type: ", w.workItemType);
    assert sep + "Type: " == "\n\nType: ";
    var p1 := p0 + "\n\nType: " + w.workItemType;
    Regroup(p1, sep, "Title: ", w.title);
    assert sep + "Title: " == "\n\nTitle: ";
    var p2 := p1 + "\n\nTitle: " + w.title;
    Regroup(p2, sep, "State: ", w.state);
    assert sep + "State: " == "\n\nState: ";
  }

  /** The context starts with the id, type, title and state parts in that order,
      and carries one further part per included optional field. */
  lemma ContextShape(w: WorkItem)
    ensures |ContextParts(w)| == 4 + IncludedCount(w)
    ensures StartsWith(GetContextForAi(w),
      "Work Item ID: " + IntToString(w.id) + "\n\nType: " + w.workItemType
      + "\n\nTitle: " + w.title + "\n\nState: " + w.state)
  {
    OptionalCount(w);
    HeaderText(w);
    JoinPrefix(HeaderParts(w), OptionalParts(w), "\n\n");
  }

  /** The joined parts open with the id label. */
  lemma ContextOpensWithId(w: WorkItem)
    ensures StartsWith(Join(ContextParts(w), "\n\n"), "Work Item ID: ")
  {
    var lead := "Work Item ID: ";
    var h := HeaderParts(w);
    JoinPrefix(h, OptionalParts(w), "\n\n");
    HeaderText(w);
    PrefixOfConcat(lead, IntToString(w.id) + "\n\nType: " + w.workItemType
      + "\n\nTitle: " + w.title + "\n\nState: " + w.state);
  }

  /** A priority of 0 is shown exactly like no priority; a remaining-work value
      of 0 is still shown. */
  lemma PriorityAndRemainingWorkTests(w: WorkItem, zero: Float)
    requires zero.value == 0.0
    ensures GetContextForAi(w.(priority := Some(0))) == GetContextForAi(w.(priority := None))
    ensures |ContextParts(w.(remainingWork := Some(zero)))| == |ContextParts(w.(remainingWork := None))| + 1
  {
  }
}

=== FILE: paths.dfy ===
/** Containment of one resolved filesystem path in another, and the parent of
    a resolved path. Paths here are the strings `str(Path(...).resolve())`
    produces: absolute, normalised, without a trailing `/` except for the
    root itself. Resolution is not modelled; callers receive resolved strings
    from an oracle. */
module Paths {
  import opened Strings

  /** The containment test the web API writes: the resolved path's string
      starts with the resolved base's string. */
  predicate PrefixContained(p: string, base: string) {
    StartsWith(p, base)
  }

  /** Component-wise containment: `p` is `base` itself or lies below it. A base
      that already ends in `/` (the root) needs no separator added. */
  predicate IsWithin(p: string, base: string) {
    if |base| > 0 && base[|base| - 1] == '/' then StartsWith(p, base)
    else p == base || StartsWith(p, base + "/")
  }

  /** Component-wise containment is the prefix test plus a component boundary
      right after the base: either nothing follows it, or a `/` does, or the
      base itself ends in `/`. */
  lemma WithinIsPrefixAtBoundary(p: string, base: string)
    ensures IsWithin(p, base) <==>
      PrefixContained(p, base)
      && (|p| == |base| || (|base| > 0 && base[|base| - 1] == '/') || p[|base|] == '/')
  {
    if |base| > 0 && base[|base| - 1] == '/' {
    } else if StartsWith(p, base + "/") {
      assert p[..|base|] == (p[..|base| + 1])[..|base|];
      assert p[|base|] == (p[..|base| + 1])[|base|];
    } else if PrefixContained(p, base) && |p| == |base| {
      assert p == p[..|base|];
    }
  }

  /** The corrected test never admits more than the prefix test. */
  lemma WithinImpliesPrefix(p: string, base: string)
    ensures IsWithin(p, base) ==> PrefixContained(p, base)
  {
    WithinIsPrefixAtBoundary(p, base);
  }

  /** A child named below the base is within it. */
  lemma ChildIsWithin(base: string, name: string)
    ensures IsWithin(base + "/" + name, base)
  {
    var p := base + "/" + name;
    assert p[..|base| + 1] == base + "/";
    if |base| > 0 && base[|base| - 1] == '/' {
      assert p[..|base|] == base;
    }
  }

  /** The prefix test admits a sibling directory whose name extends the
      base's name; the component-wise test rejects it. */
  lemma SiblingAdmittedByPrefix()
    ensures PrefixContained("/tmp/work-evil/x", "/tmp/work")
    ensures !IsWithin("/tmp/work-evil/x", "/tmp/work")
  {
    var p, b := "/tmp/work-evil/x", "/tmp/work";
    assert p[..|b|] == b;
    assert p[|b|] == '-';
    WithinIsPrefixAtBoundary(p, b);
  }

  /** `Path.parent` of a resolved path: everything before the last `/`, and
      the root for a path directly below the root (and for the root itself). */
  function ParentOf(p: string): (r: string)
    ensures |r| <= |p| || r == "/"
    ensures r != "/" ==> StartsWith(p, r + "/")
    ensures |p| > 0 && '/' in p[1..] ==>
      0 < |r| < |p| && r == p[..|r|] && p[|r|] == '/' && '/' !in p[|r| + 1..]
    ensures |p| == 0 || '/' !in p[1..] ==> r == "/"
  {
    var i := RFind(p, '/');
    if i <= 0 then
      assert forall k :: 0 <= k < |p| - 1 ==> p[1..][k] == p[k + 1];
      "/"
    else
      assert p[..i + 1] == p[..i] + "/";
      assert p[i] in p[1..] by { assert p[1..][i - 1] == p[i]; }
      var after := p[i + 1..];
      assert forall k :: 0 <= k < |after| ==> after[k] == p[i + 1 + k];
      p[..i]
  }

  /** A resolved path is its own parent exactly at the root. */
  lemma ParentFixedOnlyAtRoot(p: string)
    requires |p| > 0 && p[0] == '/'
    ensures ParentOf(p) == p <==> p == "/"
  {
    var i := RFind(p, '/');
    if p == "/" {
      assert p[0] == '/';
      assert RFind(p, '/') == 0;
    } else if i > 0 {
      assert |ParentOf(p)| == i < |p|;
    }
  }
}

=== FILE: prompt_text.dfy ===
/** The fixed parts of the four prompt templates (src/ado_ai_cli/ai/prompts.py):
    each template is its opening sentence, a blank line, the work item's context,
    a blank line and the instructions below, which end with a newline. */
module PromptText {

  /** The opening sentences share their first words: "Analyze the" for the
      general template, "Analyze this" for the others. */
  const GeneralStem := "Analyze the "
  const SpecificStem := "Analyze this "

  const GeneralIntro := GeneralStem + "following Azure DevOps work item and provide a comprehensive completion strategy."
  const BugIntro := SpecificStem + "bug" + " and provide a comprehensive fix strategy."
  const TaskIntro := SpecificStem + "task" + " and provide a detailed implementation plan."
  const StoryIntro := SpecificStem + "user story" + " and provide an implementation strategy that meets the acceptance criteria."

  /** The instructions of the general template. */
  const GeneralBody := @"Please provide your analysis in the following JSON format:

{
  ""analysis"": ""Brief analysis of the work item and its requirements (2-3 sentences)"",
  ""solution"": ""Detailed solution or implementation approach (be specific and actionable)"",
  ""tasks"": [
    ""List of specific tasks needed to complete this work item"",
    ""Each task should be clear and actionable"",
    ""Include testing and verification steps""
  ],
  ""risks"": [
    ""Potential risks, edge cases, or considerations"",
    ""Dependencies or blockers that should be addressed"",
    ""Areas that might need additional clarification""
  ],
  ""suggested_status"": ""Recommended status (e.g., 'Resolved', 'Active', 'Closed')"",
  ""suggested_remaining_work"": 0,
  ""comment"": ""Professional comment to add to the work item summarizing the analysis and solution (suitable for team visibility)"",
  ""file_changes"": [
    {
      ""path"": ""relative/path/to/file.ext"",
      ""content"": ""Complete file content to write"",
      ""description"": ""Brief description of what changed""
    }
  ]
}

Important guidelines:
- For Bugs: Focus on root cause analysis, fix verification, and preventing recurrence
- For Tasks: Provide step-by-step implementation approach
- For User Stories: Ensure acceptance criteria are addressed, suggest test scenarios
- Be specific and actionable in your recommendations
- Consider the current state and suggest appropriate next steps
- The comment should be professional and suitable for team collaboration
- file_changes is optional - only include it if the user specifically requests file modifications in their custom prompt (e.g., ""create a file"", ""update the code"", ""write to a file""). Each file change should include the complete file content.
"

  /** The instructions of the bug template. */
  const BugBody := @"Please provide your analysis in JSON format with these fields:

{
  ""analysis"": ""Root cause analysis of the bug"",
  ""solution"": ""Detailed fix approach with specific code changes or configuration updates"",
  ""tasks"": [
    ""Steps to implement the fix"",
    ""Testing steps to verify the fix"",
    ""Steps to prevent regression""
  ],
  ""risks"": [
    ""Potential side effects of the fix"",
    ""Areas that might be impacted"",
    ""Additional testing needed""
  ],
  ""suggested_status"": ""Resolved"",
  ""suggested_remaining_work"": 0,
  ""comment"": ""Professional comment summarizing the bug analysis and fix""
}

Focus on:
1. Root cause identification
2. Specific fix implementation
3. Verification approach
4. Prevention of similar issues in the future
"

  /** The instructions of the task template. */
  const TaskBody := @"Please provide your analysis in JSON format with these fields:

{
  ""analysis"": ""Understanding of the task requirements and scope"",
  ""solution"": ""Step-by-step implementation approach"",
  ""tasks"": [
    ""Specific implementation steps"",
    ""Configuration or setup needed"",
    ""Testing and validation steps"",
    ""Documentation updates needed""
  ],
  ""risks"": [
    ""Potential challenges or blockers"",
    ""Dependencies on other work items or systems"",
    ""Areas requiring clarification""
  ],
  ""suggested_status"": ""Resolved"",
  ""suggested_remaining_work"": 0,
  ""comment"": ""Professional comment summarizing the implementation approach""
}

Provide practical, actionable guidance for completing this task.
"

  /** The instructions of the user-story template. */
  const StoryBody := @"Please provide your analysis in JSON format with these fields:

{
  ""analysis"": ""Understanding of the user story and acceptance criteria"",
  ""solution"": ""Implementation approach that fulfills the acceptance criteria"",
  ""tasks"": [
    ""Development tasks to implement the story"",
    ""Test scenarios based on acceptance criteria"",
    ""UI/UX considerations if applicable"",
    ""Documentation or user guide updates""
  ],
  ""risks"": [
    ""Potential UX challenges"",
    ""Integration points with existing features"",
    ""Performance or scalability considerations""
  ],
  ""suggested_status"": ""Resolved"",
  ""suggested_remaining_work"": 0,
  ""comment"": ""Professional comment describing how the acceptance criteria will be met""
}

Ensure your solution directly addresses the acceptance criteria and provides clear test scenarios.
"
}

=== FILE: prompts.dfy ===
/** Prompt assembly (src/ado_ai_cli/ai/prompts.py): choosing a template from the
    work item's type, enumerating recent comments into the general template, and
    appending the user's additional instructions. */
module Prompts {
  import opened Wrappers
  import opened Strings
  import opened Models
  import opened PromptText

  datatype Template = General | Bug | Task | Story

  /** `get_prompt_for_work_item`'s choice, tested on the lowercased type in this
      order: "bug", then "task", then "user story" or "story", else general. */
  function SelectTemplate(workItemType: string): (t: Template)
    ensures var lt := Lower(workItemType);
      && (t == Bug <==> Contains(lt, "bug"))
      && (t == Task <==> !Contains(lt, "bug") && Contains(lt, "task"))
      && (t == Story <==> !Contains(lt, "bug") && !Contains(lt, "task") && Contains(lt, "story"))
  {
    var lt := Lower(workItemType);
    if Contains(lt, "bug") then Bug
    else if Contains(lt, "task") then Task
    else if Contains(lt, "user story") || Contains(lt, "story") then
      UserStoryContainsStory(lt);
      Story
    else General
  }

  /** The "user story" test adds nothing to the "story" test. */
  lemma UserStoryContainsStory(s: string)
    ensures Contains(s, "user story") ==> Contains(s, "story")
  {
    if Contains(s, "user story") {
      var i :| 0 <= i <= |s| - |"user story"| && OccursAt(s, "user story", i);
      assert s[i + 5..i + 10] == s[i..i + 10][5..10] == "story";
      assert OccursAt(s, "story", i + 5);
    }
  }

  /** The additional-instructions block: present only for non-empty instructions. */
  function CustomSuffix(custom: Option<string>): (r: string)
    ensures r == "" <==> !Present(custom)
    ensures Present(custom) ==> OccursAt(r, custom.value, |"\n\nADDITIONAL INSTRUCTIONS:\n"|)
  {
    if Present(custom) then "\n\nADDITIONAL INSTRUCTIONS:\n" + custom.value + "\n" else ""
  }

  /** An absent author shows as Python's `None`. */
  function AuthorText(c: WorkItemComment): string {
    if c.createdBy.Some? then c.createdBy.value else "None"
  }

  /** The line for the comment numbered `n`. */
  function CommentLine(n: int, c: WorkItemComment): string {
    IntToString(n) + ". [" + AuthorText(c) + "]: " + c.text + "\n"
  }

  /** One line per comment, numbered from 1 in the given order. */
  function NumberedLines(cs: seq<WorkItemComment>): (lines: seq<string>)
    ensures |lines| == |cs|
    ensures forall i :: 0 <= i < |cs| ==> lines[i] == CommentLine(i + 1, cs[i])
  {
    seq(|cs|, i requires 0 <= i < |cs| => CommentLine(i + 1, cs[i]))
  }

  const CommentsHeader := "\n\nRecent Comments:\n"

  /** The comments block of the general template; no comments give no block. */
  function CommentsSection(cs: seq<WorkItemComment>): string {
    if |cs| == 0 then "" else CommentsHeader + Concat(NumberedLines(cs))
  }

  lemma {:induction false} ConcatAppend(xs: seq<string>, y: string)
    ensures Concat(xs + [y]) == Concat(xs) + y
  {
    if |xs| > 0 {
      assert (xs + [y])[1..] == xs[1..] + [y];
      ConcatAppend(xs[1..], y);
    }
  }

  /** Numbering one more comment adds its line at the end. */
  lemma NumberedLinesSnoc(cs: seq<WorkItemComment>, i: nat)
    requires i < |cs|
    ensures NumberedLines(cs[..i + 1]) == NumberedLines(cs[..i]) + [CommentLine(i + 1, cs[i])]
  {
    var a, b := NumberedLines(cs[..i + 1]), NumberedLines(cs[..i]) + [CommentLine(i + 1, cs[i])];
    assert |a| == |b|;
    forall k | 0 <= k < |a|
      ensures a[k] == b[k]
    {
      assert cs[..i + 1][k] == cs[k];
    }
  }

  /** One turn of the comments loop appends the next numbered line. */
  lemma CommentsStep(cs: seq<WorkItemComment>, i: nat)
    requires i < |cs|
    ensures CommentsHeader + Concat(NumberedLines(cs[..i + 1]))
         == (CommentsHeader + Concat(NumberedLines(cs[..i]))) + CommentLine(i + 1, cs[i])
  {
    var line := CommentLine(i + 1, cs[i]);
    var lines := Concat(NumberedLines(cs[..i]));
    NumberedLinesSnoc(cs, i);
    ConcatAppend(NumberedLines(cs[..i]), line);
    assert (CommentsHeader + lines) + line == CommentsHeader + (lines + line);
  }

  /** The loop of `build_work_item_analysis_prompt` that builds the comments
      block line by line; it produces the numbered lines in order. */
  method BuildCommentsText(cs: seq<WorkItemComment>) returns (text: string)
    ensures |cs| == 0 ==> text == ""
    ensures |cs| > 0 ==> text == CommentsHeader + Concat(NumberedLines(cs))
  {
    if |cs| == 0 {
      return "";
    }
    text := CommentsHeader;
    var i := 0;
    while i < |cs|
      invariant 0 <= i <= |cs|
      invariant text == CommentsHeader + Concat(NumberedLines(cs[..i]))
    {
      CommentsStep(cs, i);
      text := text + CommentLine(i + 1, cs[i]);
      i := i + 1;
    }
    assert cs[..i] == cs;
  }

  function Intro(t: Template): string {
    match t
    case General => GeneralIntro
    case Bug => BugIntro
    case Task => TaskIntro
    case Story => StoryIntro
  }

  function Body(t: Template): string {
    match t
    case General => GeneralBody
    case Bug => BugBody
    case Task => TaskBody
    case Story => StoryBody
  }

  /** A template filled in with its instructions and a context text: the general
      one takes the comments block right after the context and the instructions
      block at the very end; the bug, task and user-story ones take neither. */
  function Fill(t: Template, body: string, ctx: string, cs: seq<WorkItemComment>, custom: Option<string>): string {
    if t == General then Intro(t) + "\n\n" + ctx + CommentsSection(cs) + "\n\n" + body + CustomSuffix(custom)
    else Intro(t) + "\n\n" + ctx + "\n\n" + body
  }

  /** `build_work_item_analysis_prompt`. */
  function AnalysisPrompt(w: WorkItem, cs: seq<WorkItemComment>, custom: Option<string>): string {
    Fill(General, GeneralBody, GetContextForAi(w), cs, custom)
  }

  /** `build_bug_specific_prompt`, `build_task_specific_prompt` and `build_user_story_specific_prompt`. */
  function SpecificPrompt(t: Template, w: WorkItem): string
    requires t != General
  {
    Fill(t, Body(t), GetContextForAi(w), [], None)
  }

  /** A template with the instructions block appended where the type-specific
      branch of `get_prompt_for_work_item` appends it. */
  function Assemble(t: Template, body: string, ctx: string, cs: seq<WorkItemComment>, custom: Option<string>): string {
    if t == General then Fill(t, body, ctx, cs, custom) else Fill(t, body, ctx, [], None) + CustomSuffix(custom)
  }

  /** `get_prompt_for_work_item`. */
  function GetPromptForWorkItem(w: WorkItem, cs: seq<WorkItemComment>, custom: Option<string>): (r: string)
    ensures OccursAt(r, GetContextForAi(w), |Intro(SelectTemplate(w.workItemType))| + 2)
  {
    var t := SelectTemplate(w.workItemType);
    ContextEmbedded(t, Body(t), GetContextForAi(w), cs, custom);
    if t == General then AnalysisPrompt(w, cs, custom)
    else SpecificPrompt(t, w) + CustomSuffix(custom)
  }

  /** The prompt is the selected template assembled around the work item's context. */
  lemma PromptIsAssembled(w: WorkItem, cs: seq<WorkItemComment>, custom: Option<string>)
    ensures var t := SelectTemplate(w.workItemType);
      GetPromptForWorkItem(w, cs, custom) == Assemble(t, Body(t), GetContextForAi(w), cs, custom)
  {
  }

  /** Every template ends with the instructions block appended exactly once, and
      empty instructions are the same as none. */
  lemma CustomAppendedOnce(t: Template, body: string, ctx: string, cs: seq<WorkItemComment>, custom: Option<string>)
    ensures Assemble(t, body, ctx, cs, custom) == Assemble(t, body, ctx, cs, None) + CustomSuffix(custom)
    ensures Assemble(t, body, ctx, cs, Some("")) == Assemble(t, body, ctx, cs, None)
  {
    if t == General {
      var pre := Intro(t) + "\n\n" + ctx + CommentsSection(cs) + "\n\n" + body;
      assert Assemble(t, body, ctx, cs, custom) == pre + CustomSuffix(custom);
      assert Assemble(t, body, ctx, cs, None) == pre + "" == pre;
    } else {
      var pre := Fill(t, body, ctx, [], None);
      assert Assemble(t, body, ctx, cs, None) == pre + "" == pre;
    }
  }

  /** Only the general template shows comments. */
  lemma CommentsOnlyInGeneral(t: Template, body: string, ctx: string, cs: seq<WorkItemComment>, custom: Option<string>)
    ensures t != General ==> Assemble(t, body, ctx, cs, custom) == Assemble(t, body, ctx, [], custom)
    ensures t == General && |cs| > 0 ==> Assemble(t, body, ctx, cs, custom) != Assemble(t, body, ctx, [], custom)
  {
    if t == General && |cs| > 0 {
      assert |CommentsSection(cs)| > 0;
      assert |Assemble(t, body, ctx, cs, custom)| > |Assemble(t, body, ctx, [], custom)|;
    }
  }

  /** Every template carries the context right after its opening sentence and a blank line. */
  lemma ContextEmbedded(t: Template, body: string, ctx: string, cs: seq<WorkItemComment>, custom: Option<string>)
    ensures OccursAt(Assemble(t, body, ctx, cs, custom), ctx, |Intro(t)| + 2)
  {
    var x := Intro(t) + "\n\n";
    var k := |x|;
    assert (x + ctx)[k..k + |ctx|] == ctx;
    x := x + ctx;
    var middle := if t == General then CommentsSection(cs) else "";
    OccursExtend(x, ctx, k, middle);
    x := x + middle;
    OccursExtend(x, ctx, k, "\n\n");
    x := x + "\n\n";
    OccursExtend(x, ctx, k, body);
    x := x + body;
    OccursExtend(x, ctx, k, CustomSuffix(custom));
    x := x + CustomSuffix(custom);
    if t != General {
      assert Intro(t) + "\n\n" + ctx + "" == Intro(t) + "\n\n" + ctx;
    }
    assert Assemble(t, body, ctx, cs, custom) == x;
  }

  /** The template a prompt was built from, read off its opening sentence: the
      general one reads "Analyze the", the others "Analyze this" followed by the
      first letter of "bug", "task" or "user story". */
  function TemplateOfPrompt(p: string): Template {
    if |p| < 14 || p[10] == 'e' then General
    else if p[13] == 'b' then Bug
    else if p[13] == 't' then Task
    else Story
  }

  /** The letters `TemplateOfPrompt` reads, in each opening sentence. */
  lemma IntroLetters(t: Template)
    ensures |Intro(t)| >= 14
    ensures Intro(t)[10] == (if t == General then 'e' else 'i')
    ensures t == Bug ==> Intro(t)[13] == 'b'
    ensures t == Task ==> Intro(t)[13] == 't'
    ensures t == Story ==> Intro(t)[13] == 'u'
  {
    match t
    case General =>
      var rest := "following Azure DevOps work item and provide a comprehensive completion strategy.";
      assert Intro(t) == GeneralStem + rest;
      assert Intro(t)[10] == GeneralStem[10];
    case Bug =>
      var rest := " and provide a comprehensive fix strategy.";
      assert Intro(t) == SpecificStem + "bug" + rest;
      assert Intro(t)[10] == SpecificStem[10] && Intro(t)[13] == "bug"[0];
    case Task =>
      var rest := " and provide a detailed implementation plan.";
      assert Intro(t) == SpecificStem + "task" + rest;
      assert Intro(t)[10] == SpecificStem[10] && Intro(t)[13] == "task"[0];
    case Story =>
      var rest := " and provide an implementation strategy that meets the acceptance criteria.";
      assert Intro(t) == SpecificStem + "user story" + rest;
      assert Intro(t)[10] == SpecificStem[10] && Intro(t)[13] == "user story"[0];
  }

  /** Every prompt opens with its template's opening sentence. */
  lemma AssembleStartsWithIntro(t: Template, body: string, ctx: string, cs: seq<WorkItemComment>, custom: Option<string>)
    ensures StartsWith(Assemble(t, body, ctx, cs, custom), Intro(t))
  {
    var i := Intro(t);
    var x := i + "\n\n";
    PrefixOfConcat(i, "\n\n");
    PrefixExtend(x, i, ctx);
    x := x + ctx;
    var middle := if t == General then CommentsSection(cs) else "";
    PrefixExtend(x, i, middle);
    x := x + middle;
    PrefixExtend(x, i, "\n\n");
    x := x + "\n\n";
    PrefixExtend(x, i, body);
    x := x + body;
    PrefixExtend(x, i, CustomSuffix(custom));
    x := x + CustomSuffix(custom);
    if t != General {
      assert i + "\n\n" + ctx + "" == i + "\n\n" + ctx;
    }
    assert Assemble(t, body, ctx, cs, custom) == x;
  }

  /** The prompt's opening sentence identifies the template it was built from. */
  lemma TemplateRecoverable(t: Template, body: string, ctx: string, cs: seq<WorkItemComment>, custom: Option<string>)
    ensures TemplateOfPrompt(Assemble(t, body, ctx, cs, custom)) == t
  {
    var p := Assemble(t, body, ctx, cs, custom);
    var i := Intro(t);
    AssembleStartsWithIntro(t, body, ctx, cs, custom);
    IntroLetters(t);
    assert p[10] == p[..|i|][10] && p[13] == p[..|i|][13];
  }
}

=== FILE: retry.dfy ===
/** The retry decorator the clients put on their backend calls: at most three
    attempts, re-attempting only when the exception escaping the attempt is of
    the retried class, and re-raising the last failure unchanged. The delays
    between attempts are not modelled. */
module Retry {
  import opened Wrappers
  import opened Errors

  const MaxAttempts := 3

  datatype Retried<T> = Retried(result: Result<T, Error>, attempts: nat)

  /** `outcomes[k]` is what the decorated method does on attempt `k + 1`. */
  function Run<T>(outcomes: seq<Result<T, Error>>, retryOn: Error -> bool): (r: Retried<T>)
    requires 1 <= |outcomes| <= MaxAttempts
    ensures 1 <= r.attempts <= |outcomes|
    ensures r.result == outcomes[r.attempts - 1]
    ensures forall k :: 0 <= k < r.attempts - 1 ==> outcomes[k].Failure? && retryOn(outcomes[k].error)
    ensures r.attempts < |outcomes| ==> r.result.Success? || !retryOn(r.result.error)
  {
    if |outcomes| == 1 || outcomes[0].Success? || !retryOn(outcomes[0].error) then
      Retried(outcomes[0], 1)
    else
      var rest := Run(outcomes[1..], retryOn);
      Retried(rest.result, rest.attempts + 1)
  }

  /** When the first attempt does not fail with the retried class, nothing is re-attempted. */
  lemma {:induction false} SingleAttempt<T>(outcomes: seq<Result<T, Error>>, retryOn: Error -> bool)
    requires 1 <= |outcomes| <= MaxAttempts
    requires outcomes[0].Success? || !retryOn(outcomes[0].error)
    ensures Run(outcomes, retryOn) == Retried(outcomes[0], 1)
  {
  }
}

=== FILE: settings_manager.dfy ===
/** Persistent per-user settings (src/ado_ai_web/services/settings_manager.py):
    creating a user with encrypted credentials, reading the credentials back
    with the server-wide API key as fallback, partial updates, the redacted
    view and deletion. The database is a value passed in and returned;
    encryption and decryption are oracle functions, and the server-wide
    configuration contributes only its optional API key. */
module SettingsManager {
  import opened Wrappers
  import opened Errors
  import Models

  /** An encrypted value as the encryption service returns it. */
  type Cipher = string

  datatype User = User(id: int, username: string, email: Option<string>, isActive: bool)

  datatype UserSettings = UserSettings(
    userId: int,
    patCipher: Cipher,
    apiKeyCipher: Option<Cipher>,
    orgUrl: string,
    project: string,
    claudeModel: string,
    workFolderPath: Option<string>,
    autoApprove: bool,
    maxTokens: int,
    temperature: real)

  /** The two tables: users by id, and each user's settings by user id. */
  datatype Db = Db(users: map<int, User>, settings: map<int, UserSettings>)

  /** The arguments of `create_user_and_settings`. */
  datatype CreateRequest = CreateRequest(
    username: string,
    orgUrl: string,
    project: string,
    pat: string,
    apiKey: Option<string>,
    workFolderPath: Option<string>,
    claudeModel: string,
    autoApprove: bool,
    maxTokens: int,
    temperature: real,
    email: Option<string>)

  /** A request with the declared defaults for everything optional. */
  function NewCreateRequest(username: string, orgUrl: string, project: string, pat: string): (r: CreateRequest)
    ensures r.apiKey.None? && r.workFolderPath.None? && r.email.None?
    ensures r.claudeModel == "claude-opus-4-6" && !r.autoApprove && r.maxTokens == 4096 && r.temperature == 0.7
  {
    CreateRequest(username, orgUrl, project, pat, None, None, "claude-opus-4-6", false, 4096, 0.7, None)
  }

  predicate UsernameTaken(db: Db, username: string) {
    exists id :: id in db.users && db.users[id].username == username
  }

  /** The `email` column is unique but nullable: a given email clashes with any
      user already holding the same one, and no email never clashes. */
  predicate EmailTaken(db: Db, email: Option<string>) {
    email.Some? && exists id :: id in db.users && db.users[id].email == email
  }

  /** `create_user_and_settings`. `freshId` is the id the database assigns.
      The username is checked by a query first, then the API key; a clashing
      email is only caught by the unique index when the new user row is
      flushed, which raises an integrity error (with the driver's text) and
      commits nothing. */
  function CreateUserAndSettings(db: Db, req: CreateRequest, systemKey: Option<string>, freshId: int,
                                 encrypt: string -> Cipher, driverText: string): (r: Result<(Db, User, UserSettings), Error>)
    requires freshId !in db.users && freshId !in db.settings
    ensures UsernameTaken(db, req.username) ==>
      r == Failure(ValueError("Username '" + req.username + "' already exists"))
    ensures !UsernameTaken(db, req.username) && !Models.Present(req.apiKey) && !Models.Present(systemKey) ==>
      r == Failure(ValueError("Anthropic API key must be provided or configured in system config"))
    ensures !UsernameTaken(db, req.username) && (Models.Present(req.apiKey) || Models.Present(systemKey))
              && EmailTaken(db, req.email) ==>
      r == Failure(IntegrityError(driverText))
    ensures r.Success? <==>
      && !UsernameTaken(db, req.username) && (Models.Present(req.apiKey) || Models.Present(systemKey))
      && !EmailTaken(db, req.email)
    ensures r.Success? ==>
      var (db', user, s) := r.value;
      && user == User(freshId, req.username, req.email, true)
      && s.userId == freshId && s.patCipher == encrypt(req.pat)
      && (s.apiKeyCipher.Some? <==> Models.Present(req.apiKey))
      && (s.apiKeyCipher.Some? ==> s.apiKeyCipher.value == encrypt(req.apiKey.value))
      && db' == Db(db.users[freshId := user], db.settings[freshId := s])
  {
    if UsernameTaken(db, req.username) then Failure(ValueError("Username '" + req.username + "' already exists"))
    else if !Models.Present(req.apiKey) && !Models.Present(systemKey) then
      Failure(ValueError("Anthropic API key must be provided or configured in system config"))
    else if EmailTaken(db, req.email) then Failure(IntegrityError(driverText))
    else
      var user := User(freshId, req.username, req.email, true);
      var apiCipher := if Models.Present(req.apiKey) then Some(encrypt(req.apiKey.value)) else None;
      var s := UserSettings(freshId, encrypt(req.pat), apiCipher, req.orgUrl, req.project, req.claudeModel,
                            req.workFolderPath, req.autoApprove, req.maxTokens, req.temperature);
      Success((Db(db.users[freshId := user], db.settings[freshId := s]), user, s))
  }

  /** Creating a user makes the username taken: a second creation under it fails. */
  lemma NoDuplicateUsers(db: Db, req: CreateRequest, req2: CreateRequest, systemKey: Option<string>,
                         id1: int, id2: int, encrypt: string -> Cipher, driverText: string)
    requires id1 !in db.users && id1 !in db.settings
    requires CreateUserAndSettings(db, req, systemKey, id1, encrypt, driverText).Success?
    requires req2.username == req.username
    requires var db' := CreateUserAndSettings(db, req, systemKey, id1, encrypt, driverText).value.0;
      id2 !in db'.users && id2 !in db'.settings
    ensures var db' := CreateUserAndSettings(db, req, systemKey, id1, encrypt, driverText).value.0;
      CreateUserAndSettings(db', req2, systemKey, id2, encrypt, driverText).Failure?
  {
    var db' := CreateUserAndSettings(db, req, systemKey, id1, encrypt, driverText).value.0;
    assert db'.users[id1].username == req.username;
  }

  /** Creating a user with an email makes that email taken: a second creation
      with the same email fails, whatever its username. */
  lemma NoDuplicateEmails(db: Db, req: CreateRequest, req2: CreateRequest, systemKey: Option<string>,
                          id1: int, id2: int, encrypt: string -> Cipher, driverText: string)
    requires id1 !in db.users && id1 !in db.settings
    requires CreateUserAndSettings(db, req, systemKey, id1, encrypt, driverText).Success?
    requires req.email.Some? && req2.email == req.email
    requires var db' := CreateUserAndSettings(db, req, systemKey, id1, encrypt, driverText).value.0;
      id2 !in db'.users && id2 !in db'.settings
    ensures var db' := CreateUserAndSettings(db, req, systemKey, id1, encrypt, driverText).value.0;
      CreateUserAndSettings(db', req2, systemKey, id2, encrypt, driverText).Failure?
  {
    var db' := CreateUserAndSettings(db, req, systemKey, id1, encrypt, driverText).value.0;
    assert db'.users[id1].email == req.email;
    assert EmailTaken(db', req2.email);
  }

  /** The decrypted credentials `get_decrypted_credentials` returns. */
  datatype Credentials = Credentials(
    pat: string,
    apiKey: string,
    orgUrl: string,
    project: string,
    claudeModel: string,
    workFolderPath: Option<string>,
    autoApprove: bool,
    maxTokens: int,
    temperature: real)

  /** The API key `get_decrypted_credentials` settles on: the user's own key
      decrypted when a non-empty one is stored, else the server-wide key when
      it is set, else a `ValueError`. */
  function ApiKeyOf(s: UserSettings, systemKey: Option<string>, decrypt: Cipher -> Result<string, Error>): (r: Result<string, Error>)
    ensures Models.Present(s.apiKeyCipher) ==> r == decrypt(s.apiKeyCipher.value)
    ensures !Models.Present(s.apiKeyCipher) && Models.Present(systemKey) ==> r == Success(systemKey.value)
    ensures !Models.Present(s.apiKeyCipher) && !Models.Present(systemKey) ==>
      r == Failure(ValueError("No Anthropic API key available (not in user settings or system config)"))
  {
    if Models.Present(s.apiKeyCipher) then decrypt(s.apiKeyCipher.value)
    else if Models.Present(systemKey) then Success(systemKey.value)
    else Failure(ValueError("No Anthropic API key available (not in user settings or system config)"))
  }

  /** `get_decrypted_credentials`: `None` without settings. The API key is
      settled first, then the PAT is decrypted; either step's exception
      propagates. Every plain field is the stored one. */
  function GetDecryptedCredentials(db: Db, userId: int, systemKey: Option<string>,
                                   decrypt: Cipher -> Result<string, Error>): (r: Result<Option<Credentials>, Error>)
    ensures userId !in db.settings ==> r == Success(None)
    ensures userId in db.settings ==>
      var s := db.settings[userId];
      var key := ApiKeyOf(s, systemKey, decrypt);
      && (key.Failure? ==> r == Failure(key.error))
      && (key.Success? && decrypt(s.patCipher).Failure? ==> r == Failure(decrypt(s.patCipher).error))
      && (r.Success? <==> key.Success? && decrypt(s.patCipher).Success?)
      && (r.Success? ==>
            && r.value.Some?
            && r.value.value.pat == decrypt(s.patCipher).value && r.value.value.apiKey == key.value
            && r.value.value.orgUrl == s.orgUrl && r.value.value.project == s.project
            && r.value.value.claudeModel == s.claudeModel && r.value.value.workFolderPath == s.workFolderPath
            && r.value.value.autoApprove == s.autoApprove && r.value.value.maxTokens == s.maxTokens
            && r.value.value.temperature == s.temperature)
  {
    if userId !in db.settings then Success(None)
    else
      var s := db.settings[userId];
      var key :- ApiKeyOf(s, systemKey, decrypt);
      var pat :- decrypt(s.patCipher);
      Success(Some(Credentials(pat, key, s.orgUrl, s.project, s.claudeModel,
                               s.workFolderPath, s.autoApprove, s.maxTokens, s.temperature)))
  }

  /** With a decryption that inverts the encryption, a created user's
      credentials read back as given, and the user's own key wins over the
      server-wide one. */
  lemma CredentialsRoundTrip(db: Db, req: CreateRequest, systemKey: Option<string>, freshId: int,
                             encrypt: string -> Cipher, decrypt: Cipher -> Result<string, Error>, driverText: string)
    requires freshId !in db.users && freshId !in db.settings
    requires forall x :: decrypt(encrypt(x)) == Success(x)
    requires forall x :: encrypt(x) != ""
    requires CreateUserAndSettings(db, req, systemKey, freshId, encrypt, driverText).Success?
    ensures var db' := CreateUserAndSettings(db, req, systemKey, freshId, encrypt, driverText).value.0;
      var c := GetDecryptedCredentials(db', freshId, systemKey, decrypt);
      && c.Success? && c.value.Some?
      && c.value.value.pat == req.pat
      && c.value.value.apiKey == (if Models.Present(req.apiKey) then req.apiKey.value else systemKey.value)
      && c.value.value.project == req.project && c.value.value.claudeModel == req.claudeModel
  {
    var (db', user, s) := CreateUserAndSettings(db, req, systemKey, freshId, encrypt, driverText).value;
    assert db'.settings[freshId] == s;
    assert decrypt(s.patCipher) == Success(req.pat);
    if Models.Present(req.apiKey) {
      assert s.apiKeyCipher == Some(encrypt(req.apiKey.value));
      assert Models.Present(s.apiKeyCipher);
    }
    var c := GetDecryptedCredentials(db', freshId, systemKey, decrypt);
    assert c.value.value.project == s.project;
  }

  /** The arguments of `update_settings`; `None` leaves a field as it is. */
  datatype SettingsPatch = SettingsPatch(
    orgUrl: Option<string>,
    project: Option<string>,
    pat: Option<string>,
    apiKey: Option<string>,
    workFolderPath: Option<string>,
    claudeModel: Option<string>,
    autoApprove: Option<bool>,
    maxTokens: Option<int>,
    temperature: Option<real>)

  /** `update_settings`: `None` when the user has no settings; otherwise every
      given field replaced, every other one kept, and no other row touched. */
  function UpdateSettings(db: Db, userId: int, p: SettingsPatch, encrypt: string -> Cipher): (r: (Db, Option<UserSettings>))
    ensures userId !in db.settings ==> r == (db, None)
    ensures userId in db.settings <==> r.1.Some?
    ensures r.1.Some? ==>
      var (s, s') := (db.settings[userId], r.1.value);
      && r.0 == Db(db.users, db.settings[userId := s'])
      && s'.userId == s.userId
      && (p.orgUrl.Some? ==> s'.orgUrl == p.orgUrl.value) && (p.orgUrl.None? ==> s'.orgUrl == s.orgUrl)
      && (p.project.Some? ==> s'.project == p.project.value) && (p.project.None? ==> s'.project == s.project)
      && (p.workFolderPath.Some? ==> s'.workFolderPath == p.workFolderPath)
      && (p.workFolderPath.None? ==> s'.workFolderPath == s.workFolderPath)
      && (p.claudeModel.Some? ==> s'.claudeModel == p.claudeModel.value)
      && (p.claudeModel.None? ==> s'.claudeModel == s.claudeModel)
      && (p.autoApprove.Some? ==> s'.autoApprove == p.autoApprove.value)
      && (p.autoApprove.None? ==> s'.autoApprove == s.autoApprove)
      && (p.maxTokens.Some? ==> s'.maxTokens == p.maxTokens.value) && (p.maxTokens.None? ==> s'.maxTokens == s.maxTokens)
      && (p.temperature.Some? ==> s'.temperature == p.temperature.value)
      && (p.temperature.None? ==> s'.temperature == s.temperature)
      && (p.pat.Some? ==> s'.patCipher == encrypt(p.pat.value)) && (p.pat.None? ==> s'.patCipher == s.patCipher)
      && (p.apiKey.Some? ==> s'.apiKeyCipher == Some(encrypt(p.apiKey.value)))
      && (p.apiKey.None? ==> s'.apiKeyCipher == s.apiKeyCipher)
  {
    if userId !in db.settings then (db, None)
    else
      var s' := Patched(db.settings[userId], p, encrypt);
      (Db(db.users, db.settings[userId := s']), Some(s'))
  }

  /** One settings row with a patch applied. */
  function Patched(s: UserSettings, p: SettingsPatch, encrypt: string -> Cipher): UserSettings {
    UserSettings(
      s.userId,
      if p.pat.Some? then encrypt(p.pat.value) else s.patCipher,
      if p.apiKey.Some? then Some(encrypt(p.apiKey.value)) else s.apiKeyCipher,
      p.orgUrl.GetOr(s.orgUrl), p.project.GetOr(s.project), p.claudeModel.GetOr(s.claudeModel),
      if p.workFolderPath.Some? then p.workFolderPath else s.workFolderPath,
      p.autoApprove.GetOr(s.autoApprove), p.maxTokens.GetOr(s.maxTokens), p.temperature.GetOr(s.temperature))
  }

  /** A row patched twice differs from the row patched once only in its
      ciphertexts, which decrypt alike. */
  lemma PatchTwice(s: UserSettings, p: SettingsPatch, systemKey: Option<string>,
                   encrypt1: string -> Cipher, encrypt2: string -> Cipher, decrypt: Cipher -> Result<string, Error>)
    requires forall x :: decrypt(encrypt1(x)) == Success(x) && encrypt1(x) != ""
    requires forall x :: decrypt(encrypt2(x)) == Success(x) && encrypt2(x) != ""
    ensures var s1 := Patched(s, p, encrypt1); var s2 := Patched(s1, p, encrypt2);
      && s2.(patCipher := s1.patCipher, apiKeyCipher := s1.apiKeyCipher) == s1
      && decrypt(s2.patCipher) == decrypt(s1.patCipher)
      && ApiKeyOf(s2, systemKey, decrypt) == ApiKeyOf(s1, systemKey, decrypt)
  {
    var s1 := Patched(s, p, encrypt1);
    var s2 := Patched(s1, p, encrypt2);
    if p.pat.Some? {
      assert decrypt(s2.patCipher) == Success(p.pat.value) == decrypt(s1.patCipher);
    }
    if p.apiKey.Some? {
      assert decrypt(s2.apiKeyCipher.value) == Success(p.apiKey.value) == decrypt(s1.apiKeyCipher.value);
    }
  }

  const EmptyPatch := SettingsPatch(None, None, None, None, None, None, None, None, None)

  /** An empty update changes nothing. */
  lemma EmptyUpdate(db: Db, userId: int, encrypt: string -> Cipher)
    ensures UpdateSettings(db, userId, EmptyPatch, encrypt) ==
      (db, if userId in db.settings then Some(db.settings[userId]) else None)
  {
    if userId in db.settings {
      assert db.settings[userId := db.settings[userId]] == db.settings;
    }
  }

  /** Applying the same patch twice is applying it once, up to decryption:
      each encryption makes a fresh token, so the second call may store other
      ciphertexts, but they decrypt to the same secrets, and every plain field
      and every other user's row is as after the first call. */
  lemma UpdateIdempotent(db: Db, userId: int, p: SettingsPatch, systemKey: Option<string>,
                         encrypt1: string -> Cipher, encrypt2: string -> Cipher, decrypt: Cipher -> Result<string, Error>)
    requires forall x :: decrypt(encrypt1(x)) == Success(x) && encrypt1(x) != ""
    requires forall x :: decrypt(encrypt2(x)) == Success(x) && encrypt2(x) != ""
    ensures var db1 := UpdateSettings(db, userId, p, encrypt1).0;
      var db2 := UpdateSettings(db1, userId, p, encrypt2).0;
      && db2.users == db1.users && db2.settings.Keys == db1.settings.Keys
      && (forall id :: id in db1.settings && id != userId ==> db2.settings[id] == db1.settings[id])
      && GetRedactedSettings(db2, userId) == GetRedactedSettings(db1, userId)
      && GetDecryptedCredentials(db2, userId, systemKey, decrypt) == GetDecryptedCredentials(db1, userId, systemKey, decrypt)
  {
    if userId in db.settings {
      var s1 := Patched(db.settings[userId], p, encrypt1);
      var db1 := Db(db.users, db.settings[userId := s1]);
      assert UpdateSettings(db, userId, p, encrypt1).0 == db1;
      var s2 := Patched(s1, p, encrypt2);
      assert UpdateSettings(db1, userId, p, encrypt2).0 == Db(db.users, db.settings[userId := s2]);
      PatchTwice(db.settings[userId], p, systemKey, encrypt1, encrypt2, decrypt);
    }
  }

  const Redacted := "***REDACTED***"

  /** The redacted view of a user's settings. */
  datatype RedactedSettings = RedactedSettings(
    orgUrl: string,
    project: string,
    pat: string,
    apiKey: string,
    claudeModel: string,
    workFolderPath: Option<string>,
    autoApprove: bool,
    maxTokens: int,
    temperature: real,
    isConfigured: bool)

  /** `get_redacted_settings`: both secrets masked, every plain field copied. */
  function GetRedactedSettings(db: Db, userId: int): (r: Option<RedactedSettings>)
    ensures r.None? <==> userId !in db.settings
    ensures r.Some? ==>
      var s := db.settings[userId];
      && r.value.pat == Redacted && r.value.apiKey == Redacted && r.value.isConfigured
      && r.value.orgUrl == s.orgUrl && r.value.project == s.project && r.value.claudeModel == s.claudeModel
      && r.value.workFolderPath == s.workFolderPath && r.value.autoApprove == s.autoApprove
      && r.value.maxTokens == s.maxTokens && r.value.temperature == s.temperature
  {
    if userId !in db.settings then None
    else
      var s := db.settings[userId];
      Some(RedactedSettings(s.orgUrl, s.project, Redacted, Redacted, s.claudeModel, s.workFolderPath,
                            s.autoApprove, s.maxTokens, s.temperature, true))
  }

  /** The redacted view does not depend on the stored secrets. */
  lemma RedactionHidesCiphers(db: Db, userId: int, pat: Cipher, key: Option<Cipher>)
    requires userId in db.settings
    ensures var s := db.settings[userId];
      GetRedactedSettings(db, userId)
        == GetRedactedSettings(Db(db.users, db.settings[userId := s.(patCipher := pat, apiKeyCipher := key)]), userId)
  {
  }

  /** `delete_user_and_settings` as written: only the user row is deleted.
      The user's relationships to its settings row, its history rows and its
      file-access log rows declare no cascade, so on flush the session sets
      those rows' `user_id` to NULL; the column is NOT NULL, so the commit
      raises an integrity error (with the driver's text) and nothing is
      deleted. `owners` holds the ids of the users that own a history row or
      a file-access log row. */
  function DeleteUserAndSettingsAsWritten(db: Db, userId: int, owners: set<int>, driverText: string): (r: Result<(Db, bool), Error>)
    ensures userId !in db.users ==> r == Success((db, false))
    ensures userId in db.users && (userId in db.settings || userId in owners) ==> r == Failure(IntegrityError(driverText))
    ensures r.Success? && r.value.1 ==> r.value.0 == Db(db.users - {userId}, db.settings)
  {
    if userId !in db.users then Success((db, false))
    else if userId in db.settings || userId in owners then Failure(IntegrityError(driverText))
    else Success((Db(db.users - {userId}, db.settings), true))
  }

  /** Every user that `create_user_and_settings` makes owns a settings row,
      so deleting it as written always raises. */
  lemma DeleteFailsForCreatedUser(db: Db, req: CreateRequest, systemKey: Option<string>, freshId: int,
                                  encrypt: string -> Cipher, owners: set<int>, driverText: string)
    requires freshId !in db.users && freshId !in db.settings
    requires CreateUserAndSettings(db, req, systemKey, freshId, encrypt, driverText).Success?
    ensures var db' := CreateUserAndSettings(db, req, systemKey, freshId, encrypt, driverText).value.0;
      DeleteUserAndSettingsAsWritten(db', freshId, owners, driverText).Failure?
  {
    var db' := CreateUserAndSettings(db, req, systemKey, freshId, encrypt, driverText).value.0;
    assert freshId in db'.users && freshId in db'.settings;
  }

  /** `delete_user_and_settings` as its documentation states it: the user and
      all its settings are deleted; false, with nothing changed, when the user
      does not exist. */
  function DeleteUserAndSettings(db: Db, userId: int): (r: (Db, bool))
    ensures r.1 <==> userId in db.users
    ensures !r.1 ==> r.0 == db
    ensures r.1 ==> r.0.users.Keys == db.users.Keys - {userId} && userId !in r.0.settings
    ensures r.1 ==> r.0.settings.Keys == db.settings.Keys - {userId}
    ensures forall id :: id in r.0.users ==> r.0.users[id] == db.users[id]
    ensures forall id :: id in r.0.settings ==> r.0.settings[id] == db.settings[id]
  {
    if userId !in db.users then (db, false)
    else (Db(db.users - {userId}, db.settings - {userId}), true)
  }

  /** After a deletion the user's credentials and settings are gone, and
      every other user reads the same credentials and settings as before. */
  lemma DeleteForgetsOnlyThatUser(db: Db, userId: int, other: int, systemKey: Option<string>,
                                  decrypt: Cipher -> Result<string, Error>)
    requires userId in db.users && other != userId
    ensures var db' := DeleteUserAndSettings(db, userId).0;
      && GetDecryptedCredentials(db', userId, systemKey, decrypt) == Success(None)
      && GetRedactedSettings(db', userId).None?
      && GetDecryptedCredentials(db', other, systemKey, decrypt) == GetDecryptedCredentials(db, other, systemKey, decrypt)
      && GetRedactedSettings(db', other) == GetRedactedSettings(db, other)
  {
    var db' := DeleteUserAndSettings(db, userId).0;
    assert other in db'.settings <==> other in db.settings;
    if other in db.settings {
      assert db'.settings[other] == db.settings[other];
    }
  }
}

=== FILE: sorting.dfy ===
/** Stable sorting by a key, as Python's `list.sort(key=...)` and an SQL
    `ORDER BY` do it. Keys are sequences of integers compared
    lexicographically, a shorter prefix first: this is how Python compares
    both strings (by code point) and tuples, so each caller encodes its
    sort key as such a sequence. */
module Sorting {

  /** Lexicographic order on integer sequences; a prefix sorts first. */
  predicate LexLe(a: seq<int>, b: seq<int>)
    decreases |a|
  {
    |a| == 0 || (|b| > 0 && (a[0] < b[0] || (a[0] == b[0] && LexLe(a[1..], b[1..]))))
  }

  lemma {:induction false} LexTotal(a: seq<int>, b: seq<int>)
    ensures LexLe(a, b) || LexLe(b, a)
    decreases |a|
  {
    if |a| > 0 && |b| > 0 && a[0] == b[0] {
      LexTotal(a[1..], b[1..]);
    }
  }

  lemma {:induction false} LexRefl(a: seq<int>)
    ensures LexLe(a, a)
    decreases |a|
  {
    if |a| > 0 {
      LexRefl(a[1..]);
    }
  }

  lemma {:induction false} LexTrans(a: seq<int>, b: seq<int>, c: seq<int>)
    requires LexLe(a, b) && LexLe(b, c)
    ensures LexLe(a, c)
    decreases |a|
  {
    if |a| > 0 && a[0] == b[0] && b[0] == c[0] {
      LexTrans(a[1..], b[1..], c[1..]);
    }
  }

  /** The keys of `s` never decrease. */
  predicate SortedBy<T>(s: seq<T>, key: T -> seq<int>) {
    forall i, j :: 0 <= i < j < |s| ==> LexLe(key(s[i]), key(s[j]))
  }

  /** Insert `x` after every element whose key is not greater than its own,
      which keeps equal keys in arrival order. */
  function Insert<T(==)>(x: T, s: seq<T>, key: T -> seq<int>): (r: seq<T>)
    requires SortedBy(s, key)
    ensures multiset(r) == multiset(s) + multiset{x}
    ensures |r| == |s| + 1
    ensures SortedBy(r, key)
  {
    if |s| == 0 then [x]
    else if !LexLe(key(s[0]), key(x)) then
      LexTotal(key(s[0]), key(x));
      forall j | 0 <= j < |s|
        ensures LexLe(key(x), key(s[j]))
      {
        if j > 0 {
          LexTrans(key(x), key(s[0]), key(s[j]));
        }
      }
      [x] + s
    else
      var t := Insert(x, s[1..], key);
      assert s == [s[0]] + s[1..];
      HeadStaysFirst(s[0], s[1..], x, t, key);
      [s[0]] + t
  }

  /** A key not above `x` nor any key of `rest` is not above any key of a
      permutation of `rest` with `x` added. */
  lemma HeadStaysFirst<T>(y: T, rest: seq<T>, x: T, t: seq<T>, key: T -> seq<int>)
    requires SortedBy([y] + rest, key) && LexLe(key(y), key(x))
    requires multiset(t) == multiset(rest) + multiset{x}
    ensures forall j :: 0 <= j < |t| ==> LexLe(key(y), key(t[j]))
  {
    forall j | 0 <= j < |t|
      ensures LexLe(key(y), key(t[j]))
    {
      assert t[j] in multiset(t);
      if t[j] != x {
        assert t[j] in multiset(rest);
        var k :| 0 <= k < |rest| && rest[k] == t[j];
        assert ([y] + rest)[0] == y && ([y] + rest)[k + 1] == t[j];
      }
    }
  }

  /** Insertion sort: a permutation of the input, ordered by key. */
  function SortBy<T(==)>(s: seq<T>, key: T -> seq<int>): (r: seq<T>)
    ensures multiset(r) == multiset(s)
    ensures |r| == |s|
    ensures SortedBy(r, key)
  {
    if |s| == 0 then []
    else
      assert s == s[..|s| - 1] + [s[|s| - 1]];
      Insert(s[|s| - 1], SortBy(s[..|s| - 1], key), key)
  }

  /** An element whose key is not below any key of `s` goes last. */
  lemma {:induction false} InsertAtEnd<T>(x: T, s: seq<T>, key: T -> seq<int>)
    requires SortedBy(s, key)
    requires forall i :: 0 <= i < |s| ==> LexLe(key(s[i]), key(x))
    ensures Insert(x, s, key) == s + [x]
  {
    if |s| > 0 {
      assert SortedBy(s[1..], key);
      InsertAtEnd(x, s[1..], key);
      assert s == [s[0]] + s[1..];
    }
  }

  /** Sorting leaves an already ordered sequence as it is; in particular,
      elements with equal keys keep their input order. */
  lemma {:induction false} SortKeepsSorted<T>(s: seq<T>, key: T -> seq<int>)
    requires SortedBy(s, key)
    ensures SortBy(s, key) == s
  {
    if |s| > 0 {
      var init, last := s[..|s| - 1], s[|s| - 1];
      assert s == init + [last];
      SortedInit(init, last, key);
      SortKeepsSorted(init, key);
      InsertAtEnd(last, init, key);
    }
  }

  /** Dropping the last element keeps the order, and that element's key is
      not below any other. */
  lemma SortedInit<T>(init: seq<T>, last: T, key: T -> seq<int>)
    requires SortedBy(init + [last], key)
    ensures SortedBy(init, key)
    ensures forall i :: 0 <= i < |init| ==> LexLe(key(init[i]), key(last))
  {
    var s := init + [last];
    forall i, j | 0 <= i < j < |init|
      ensures LexLe(key(init[i]), key(init[j]))
    {
      assert s[i] == init[i] && s[j] == init[j];
    }
    forall i | 0 <= i < |init|
      ensures LexLe(key(init[i]), key(last))
    {
      assert s[i] == init[i] && s[|init|] == last;
    }
  }

  /** The elements of `s` whose key is `k`, in their order in `s`. */
  function WithKey<T>(s: seq<T>, key: T -> seq<int>, k: seq<int>): (r: seq<T>)
    ensures |r| <= |s|
  {
    if |s| == 0 then []
    else (if key(s[0]) == k then [s[0]] else []) + WithKey(s[1..], key, k)
  }

  lemma {:induction false} WithKeyConcat<T>(a: seq<T>, b: seq<T>, key: T -> seq<int>, k: seq<int>)
    ensures WithKey(a + b, key, k) == WithKey(a, key, k) + WithKey(b, key, k)
  {
    if |a| > 0 {
      assert (a + b)[1..] == a[1..] + b;
      WithKeyConcat(a[1..], b, key, k);
    } else {
      assert a + b == b;
    }
  }

  /** No element of `s` has key `k`. */
  lemma {:induction false} WithKeyNone<T>(s: seq<T>, key: T -> seq<int>, k: seq<int>)
    requires forall i :: 0 <= i < |s| ==> key(s[i]) != k
    ensures WithKey(s, key, k) == []
  {
    if |s| > 0 {
      WithKeyNone(s[1..], key, k);
    }
  }

  lemma ConcatAssoc<T>(a: seq<T>, b: seq<T>, c: seq<T>)
    ensures a + (b + c) == (a + b) + c
  {
  }

  /** Peeling one element off the front. */
  lemma WithKeyCons<T>(y: T, t: seq<T>, key: T -> seq<int>, k: seq<int>)
    ensures WithKey([y] + t, key, k) == (if key(y) == k then [y] else []) + WithKey(t, key, k)
  {
    assert ([y] + t)[1..] == t;
  }

  /** Where `Insert` puts `x` relative to the first element. */
  lemma InsertStep<T>(x: T, s: seq<T>, key: T -> seq<int>)
    requires SortedBy(s, key) && |s| > 0
    ensures !LexLe(key(s[0]), key(x)) ==> Insert(x, s, key) == [x] + s
    ensures LexLe(key(s[0]), key(x)) ==> Insert(x, s, key) == [s[0]] + Insert(x, s[1..], key)
  {
  }

  /** In a sorted sequence, nothing has the key of an element placed before its first. */
  lemma NoKeyBelowFirst<T>(x: T, s: seq<T>, key: T -> seq<int>)
    requires SortedBy(s, key) && |s| > 0 && !LexLe(key(s[0]), key(x))
    ensures WithKey(s, key, key(x)) == []
  {
    forall i | 0 <= i < |s|
      ensures key(s[i]) != key(x)
    {
      LexRefl(key(s[0]));
      if i > 0 {
        assert LexLe(key(s[0]), key(s[i]));
      }
    }
    WithKeyNone(s, key, key(x));
  }

  /** Insertion puts `x` after every element of the same key. */
  lemma {:induction false} InsertIsStable<T>(x: T, s: seq<T>, key: T -> seq<int>, k: seq<int>)
    requires SortedBy(s, key)
    ensures WithKey(Insert(x, s, key), key, k) == WithKey(s, key, k) + (if key(x) == k then [x] else [])
  {
    var mine: seq<T> := if key(x) == k then [x] else [];
    if |s| == 0 {
      WithKeyCons(x, [], key, k);
      assert [x] + [] == [x];
    } else if !LexLe(key(s[0]), key(x)) {
      InsertStep(x, s, key);
      WithKeyCons(x, s, key, k);
      var w := WithKey(s, key, k);
      if key(x) == k {
        NoKeyBelowFirst(x, s, key);
        assert mine + w == w + mine;
      } else {
        assert mine + w == w + mine;
      }
    } else {
      InsertStep(x, s, key);
      var t := Insert(x, s[1..], key);
      var head: seq<T> := if key(s[0]) == k then [s[0]] else [];
      WithKeyCons(s[0], t, key, k);
      assert s == [s[0]] + s[1..];
      WithKeyCons(s[0], s[1..], key, k);
      InsertIsStable(x, s[1..], key, k);
      var w := WithKey(s[1..], key, k);
      ConcatAssoc(head, w, mine);
    }
  }

  /** Python's sort is stable: for every key, the elements carrying it come
      out in their input order. */
  lemma {:induction false} SortByIsStable<T>(s: seq<T>, key: T -> seq<int>, k: seq<int>)
    ensures WithKey(SortBy(s, key), key, k) == WithKey(s, key, k)
  {
    if |s| > 0 {
      var init, last := s[..|s| - 1], s[|s| - 1];
      assert s == init + [last];
      var r := SortBy(init, key);
      assert SortBy(s, key) == Insert(last, r, key);
      SortByIsStable(init, key, k);
      InsertIsStable(last, r, key, k);
      WithKeyConcat(init, [last], key, k);
      WithKeyCons(last, [], key, k);
      assert [last] + [] == [last];
    }
  }

  /** A string's key: its code points. */
  function CodePoints(s: string): (k: seq<int>)
    ensures |k| == |s|
    ensures forall i :: 0 <= i < |s| ==> k[i] == s[i] as int
  {
    seq(|s|, i requires 0 <= i < |s| => s[i] as int)
  }
}

=== FILE: strings.dfy ===
/** The handful of Python `str` operations the program relies on, written out
    with their Python semantics: `lower`, `in`, `startswith`, `find`, `rfind`,
    slicing with negative bounds, `strip`, `split` on one character, `join`
    and `str()` of an integer. */
module Strings {

  /** Python's `str.lower()` on one character, restricted to ASCII letters. */
  function LowerChar(c: char): char {
    if 'A' <= c <= 'Z' then (c as int + 32) as char else c
  }

  function Lower(s: string): string {
    seq(|s|, i requires 0 <= i < |s| => LowerChar(s[i]))
  }

  predicate OccursAt(s: string, p: string, i: int) {
    0 <= i && i + |p| <= |s| && s[i..i + |p|] == p
  }

  /** Python's `p in s` for strings. */
  predicate Contains(s: string, p: string) {
    exists i :: 0 <= i <= |s| - |p| && OccursAt(s, p, i)
  }

  predicate StartsWith(s: string, p: string) {
    |p| <= |s| && s[..|p|] == p
  }

  lemma PrefixOfConcat(a: string, b: string)
    ensures StartsWith(a + b, a)
  {
    assert (a + b)[..|a|] == a;
  }

  lemma OccursExtend(s: string, p: string, i: int, y: string)
    requires OccursAt(s, p, i)
    ensures OccursAt(s + y, p, i)
  {
    assert (s + y)[i..i + |p|] == s[i..i + |p|];
  }

  lemma HeadThenTail(x: string, y: string)
    requires |x| > 0
    ensures x + y == [x[0]] + (x[1..] + y)
  {
    assert x == [x[0]] + x[1..];
  }

  lemma PrefixExtend(s: string, p: string, y: string)
    requires StartsWith(s, p)
    ensures StartsWith(s + y, p)
  {
    assert (s + y)[..|p|] == s[..|p|];
  }

  /** Python's `s.find(p, start)`: the least index at or after `start` where `p`
      occurs, or -1 when there is none. */
  function Find(s: string, p: string, start: nat): (r: int)
    ensures r == -1 || (start <= r && OccursAt(s, p, r))
    ensures r == -1 ==> forall i :: start <= i ==> !OccursAt(s, p, i)
    ensures r >= 0 ==> forall i :: start <= i < r ==> !OccursAt(s, p, i)
    decreases |s| - start
  {
    if start + |p| > |s| then -1
    else if OccursAt(s, p, start) then start
    else Find(s, p, start + 1)
  }

  /** `find` gives the first occurrence at or after `start`. */
  lemma FindIsFirst(s: string, p: string, start: nat, k: nat)
    requires start <= k && OccursAt(s, p, k)
    requires forall i :: start <= i < k ==> !OccursAt(s, p, i)
    ensures Find(s, p, start) == k
  {
  }

  /** A string lacking one of the pattern's characters does not contain the pattern. */
  lemma MissingCharNotContained(s: string, p: string, c: char)
    requires c in p && c !in s
    ensures !Contains(s, p)
  {
    var j :| 0 <= j < |p| && p[j] == c;
    forall i | 0 <= i <= |s| - |p|
      ensures !OccursAt(s, p, i)
    {
      assert s[i..i + |p|][j] == s[i + j] != p[j];
    }
  }

  /** `find` succeeds exactly on the strings `in` accepts. */
  lemma FindIffContains(s: string, p: string)
    ensures Find(s, p, 0) >= 0 <==> Contains(s, p)
  {
    if Contains(s, p) {
      var i :| 0 <= i <= |s| - |p| && OccursAt(s, p, i);
      assert Find(s, p, 0) != -1;
    }
  }

  /** The index of the first `c` in `s`, or -1. */
  function IndexOf(s: string, c: char): (r: int)
    ensures -1 <= r < |s|
    ensures r >= 0 ==> s[r] == c && forall i :: 0 <= i < r ==> s[i] != c
    ensures r == -1 <==> c !in s
  {
    if |s| == 0 then -1
    else if s[0] == c then 0
    else
      var k := IndexOf(s[1..], c);
      assert forall i :: 1 <= i < |s| ==> s[i] == s[1..][i - 1];
      if k == -1 then -1 else k + 1
  }

  /** Python's `s.rfind(c)` for one character. */
  function RFind(s: string, c: char): (r: int)
    ensures -1 <= r < |s|
    ensures r >= 0 ==> s[r] == c
    ensures forall i :: r < i < |s| ==> s[i] != c
  {
    if |s| == 0 then -1
    else if s[|s| - 1] == c then |s| - 1
    else RFind(s[..|s| - 1], c)
  }

  /** Python's normalisation of one slice bound: negative bounds count from the end. */
  function SliceBound(n: nat, x: int): (b: nat)
    ensures b <= n
  {
    if x < 0 then (if x + n < 0 then 0 else x + n)
    else if x > n then n
    else x
  }

  /** Python's `s[start:end]`. */
  function Slice(s: string, start: int, end: int): string {
    var a := SliceBound(|s|, start);
    var b := SliceBound(|s|, end);
    if a < b then s[a..b] else ""
  }

  /** The characters `str.strip()` removes: those Python's `str.isspace()`
      accepts, the ASCII controls and blank first, then the Unicode ones. */
  predicate IsSpace(c: char) {
    c == ' ' || c == '\t' || c == '\n' || c == '\r' || c == '\U{B}' || c == '\U{C}'
    || c == '\U{1C}' || c == '\U{1D}' || c == '\U{1E}' || c == '\U{1F}'
    || c == '\U{85}' || c == '\U{A0}' || c == '\U{1680}' || '\U{2000}' <= c <= '\U{200A}'
    || c == '\U{2028}' || c == '\U{2029}' || c == '\U{202F}' || c == '\U{205F}' || c == '\U{3000}'
  }

  function TrimLeft(s: string): (r: string)
    ensures |r| <= |s| && r == s[|s| - |r|..]
    ensures |r| == 0 || !IsSpace(r[0])
    ensures forall i :: 0 <= i < |s| - |r| ==> IsSpace(s[i])
  {
    if |s| > 0 && IsSpace(s[0]) then
      var r := TrimLeft(s[1..]);
      assert forall i :: 1 <= i < |s| - |r| ==> s[i] == s[1..][i - 1];
      r
    else s
  }

  function TrimRight(s: string): (r: string)
    ensures |r| <= |s| && r == s[..|r|]
    ensures |r| == 0 || !IsSpace(r[|r| - 1])
    ensures forall i :: |r| <= i < |s| ==> IsSpace(s[i])
  {
    if |s| > 0 && IsSpace(s[|s| - 1]) then
      var r := TrimRight(s[..|s| - 1]);
      r
    else s
  }

  /** `r` is `s` with the first `k` characters and some characters at the
      end cut, and every character cut is whitespace. */
  predicate CutsOnlySpace(s: string, k: int, r: string) {
    && 0 <= k <= |s| - |r| && r == s[k..k + |r|]
    && (forall i :: 0 <= i < k ==> IsSpace(s[i]))
    && (forall i :: k + |r| <= i < |s| ==> IsSpace(s[i]))
  }

  /** Python's `str.strip()`: neither end of the result is whitespace. */
  function Strip(s: string): (r: string)
    ensures |r| <= |s|
    ensures |r| == 0 || (!IsSpace(r[0]) && !IsSpace(r[|r| - 1]))
  {
    TrimRight(TrimLeft(s))
  }

  /** What `str.strip()` cuts from either end is whitespace, and what it keeps
      is a middle run of the text. */
  lemma StripCutsOnlySpace(s: string)
    ensures exists k :: CutsOnlySpace(s, k, Strip(s))
  {
    var left := TrimLeft(s);
    var r := TrimRight(left);
    assert Strip(s) == r;
    StripCuts(s, left, r);
    assert CutsOnlySpace(s, |s| - |left|, Strip(s));
  }

  lemma StripCuts(s: string, left: string, r: string)
    requires |left| <= |s| && left == s[|s| - |left|..]
    requires forall i :: 0 <= i < |s| - |left| ==> IsSpace(s[i])
    requires |left| == 0 || !IsSpace(left[0])
    requires |r| <= |left| && r == left[..|r|]
    requires forall i :: |r| <= i < |left| ==> IsSpace(left[i])
    ensures CutsOnlySpace(s, |s| - |left|, r)
    ensures |r| == 0 || !IsSpace(r[0])
  {
    var k := |s| - |left|;
    SliceOfSuffix(s, k, |r|);
    forall i | k + |r| <= i < |s|
      ensures IsSpace(s[i])
    {
      assert s[i] == left[i - k];
    }
    if |r| > 0 {
      assert r[0] == left[0];
    }
  }

  lemma SliceOfSuffix(s: string, k: nat, n: nat)
    requires k + n <= |s|
    ensures s[k..][..n] == s[k..k + n]
  {
  }

  /** Python's `s.split(sep)` for a one-character separator: never empty, and no
      piece contains the separator. */
  function Split(s: string, sep: char): (r: seq<string>)
    ensures |r| >= 1
    ensures forall k :: 0 <= k < |r| ==> sep !in r[k]
  {
    if |s| == 0 then [""]
    else
      var rest := Split(s[1..], sep);
      if s[0] == sep then [""] + rest
      else [[s[0]] + rest[0]] + rest[1..]
  }

  /** Python's `sep.join(xs)`. */
  function Join(xs: seq<string>, sep: string): string {
    if |xs| == 0 then ""
    else if |xs| == 1 then xs[0]
    else xs[0] + sep + Join(xs[1..], sep)
  }

  /** Concatenation of all pieces in order (`"".join(xs)`). */
  function Concat(xs: seq<string>): string {
    if |xs| == 0 then "" else xs[0] + Concat(xs[1..])
  }

  /** Splitting and re-joining on the same separator gives back the string. */
  lemma {:induction false} JoinSplit(s: string, sep: char)
    ensures Join(Split(s, sep), [sep]) == s
  {
    if |s| > 0 {
      var rest := Split(s[1..], sep);
      JoinSplit(s[1..], sep);
      if s[0] == sep {
        assert Split(s, sep) == [""] + rest;
        assert ([""] + rest)[1..] == rest;
        assert s == [sep] + s[1..];
      } else {
        var r := Split(s, sep);
        assert r == [[s[0]] + rest[0]] + rest[1..];
        if |rest| == 1 {
          assert s == [s[0]] + s[1..];
        } else {
          assert r[1..] == rest[1..];
          assert Join(rest, [sep]) == rest[0] + [sep] + Join(rest[1..], [sep]);
          assert s == [s[0]] + s[1..];
        }
      }
    }
  }

  /** A string without the separator splits into itself alone. */
  lemma {:induction false} SplitNoSep(t: string, sep: char)
    requires sep !in t
    ensures Split(t, sep) == [t]
  {
    if |t| > 0 {
      SplitNoSep(t[1..], sep);
      assert t == [t[0]] + t[1..];
    }
  }

  /** Splitting a string by its first character. */
  lemma SplitCons(c: char, t: string, sep: char)
    ensures Split([c] + t, sep) ==
      if c == sep then [""] + Split(t, sep) else [[c] + Split(t, sep)[0]] + Split(t, sep)[1..]
  {
    assert ([c] + t)[1..] == t;
  }

  /** Splitting distributes over a separator occurrence. */
  lemma {:induction false} SplitAppend(a: string, b: string, sep: char)
    ensures Split(a + [sep] + b, sep) == Split(a, sep) + Split(b, sep)
  {
    if |a| == 0 {
      assert a + [sep] + b == [sep] + b;
      SplitCons(sep, b, sep);
    } else {
      var t := a[1..] + [sep] + b;
      assert a + [sep] + b == [a[0]] + t;
      assert a == [a[0]] + a[1..];
      SplitCons(a[0], t, sep);
      SplitCons(a[0], a[1..], sep);
      SplitAppend(a[1..], b, sep);
      ConsDistributes(a[0], Split(a[1..], sep), Split(b, sep), sep);
    }
  }

  /** The list algebra behind `SplitAppend`'s inductive step. */
  lemma ConsDistributes(c: char, ra: seq<string>, rb: seq<string>, sep: char)
    requires |ra| >= 1
    ensures (if c == sep then [""] + (ra + rb) else [[c] + (ra + rb)[0]] + (ra + rb)[1..])
         == (if c == sep then [""] + ra else [[c] + ra[0]] + ra[1..]) + rb
  {
    if c != sep {
      assert (ra + rb)[0] == ra[0];
      assert (ra + rb)[1..] == ra[1..] + rb;
    }
  }

  /** Joining one more element appends the separator and that element. */
  lemma {:induction false} JoinAppend(xs: seq<string>, y: string, sep: string)
    requires |xs| >= 1
    ensures Join(xs + [y], sep) == Join(xs, sep) + sep + y
  {
    if |xs| == 1 {
      assert (xs + [y])[1..] == [y];
    } else {
      assert (xs + [y])[1..] == xs[1..] + [y];
      JoinAppend(xs[1..], y, sep);
    }
  }

  function DigitChar(d: nat): (c: char)
    requires d < 10
    ensures '0' <= c <= '9'
  {
    ('0' as int + d) as char
  }

  function DigitValue(c: char): nat
    requires '0' <= c <= '9'
  {
    c as int - '0' as int
  }

  predicate AllDigits(s: string) {
    forall i :: 0 <= i < |s| ==> '0' <= s[i] <= '9'
  }

  /** Python's `str(n)` for a natural number: a non-empty run of decimal digits. */
  function NatToString(n: nat): (r: string)
    ensures |r| >= 1 && AllDigits(r)
  {
    if n < 10 then [DigitChar(n)]
    else NatToString(n / 10) + [DigitChar(n % 10)]
  }

  /** The decimal value of a digit string, most significant digit first. */
  function ParseNat(s: string): nat
    requires AllDigits(s)
  {
    if |s| == 0 then 0
    else ParseNat(s[..|s| - 1]) * 10 + DigitValue(s[|s| - 1])
  }

  function Pow10(n: nat): (r: nat)
    ensures r >= 1
  {
    if n == 0 then 1 else 10 * Pow10(n - 1)
  }

  /** Rendering a natural number and reading it back gives the number. */
  lemma {:induction false} ParseNatToString(n: nat)
    ensures ParseNat(NatToString(n)) == n
  {
    var s := NatToString(n);
    if n >= 10 {
      ParseNatToString(n / 10);
      assert s[..|s| - 1] == NatToString(n / 10);
    }
  }

  /** Python's `str(i)` for an integer. */
  function IntToString(i: int): string {
    if i < 0 then "-" + NatToString(-i) else NatToString(i)
  }

  /** A rendered negative number starts with a minus sign, a non-negative one with a digit. */
  lemma SignOfRendering(i: int)
    ensures |IntToString(i)| >= 1
    ensures IntToString(i)[0] == '-' <==> i < 0
  {
    if i >= 0 {
      var s := NatToString(i);
      assert AllDigits(s);
      assert '0' <= s[0] <= '9';
    }
  }

  /** Equal renderings of natural numbers come from equal numbers. */
  lemma NatToStringInjective(a: nat, b: nat)
    requires NatToString(a) == NatToString(b)
    ensures a == b
  {
    ParseNatToString(a);
    ParseNatToString(b);
  }

  /** Different integers render differently. */
  lemma IntToStringInjective(a: int, b: int)
    requires IntToString(a) == IntToString(b)
    ensures a == b
  {
    SignOfRendering(a);
    SignOfRendering(b);
    if a < 0 {
      var na, nb := NatToString(-a), NatToString(-b);
      assert ("-" + na)[1..] == na;
      assert ("-" + nb)[1..] == nb;
      NatToStringInjective(-a, -b);
    } else {
      NatToStringInjective(a, b);
    }
  }
}

=== FILE: work_items_api.dfy ===
/** The work-item endpoints of the web API (src/ado_ai_web/api/work_items.py)
    that carry rules of their own: the paginated history listing and the
    writing of an analysis's suggested file changes into its work folder.
    The database is the map of history rows, the default user is given, and
    the filesystem is an oracle. */
module WorkItemsApi {
  import opened Wrappers
  import opened Strings
  import opened Http
  import Json
  import Paths
  import Sorting
  import Models
  import WorkflowService

  type History = WorkflowService.History

  // ---------------------------------------------------------------------
  // list_work_items

  /** One listed row, as the endpoint renders it. */
  datatype HistoryItem = HistoryItem(
    id: int,
    workItemId: int,
    workItemType: Option<string>,
    title: Option<string>,
    status: string,
    cost: Option<nat>,
    customPrompt: Option<string>,
    workFolderPath: Option<string>,
    createdAt: int,
    completedAt: Option<int>,
    errorMessage: Option<string>)

  function ItemOf(h: History): (v: HistoryItem)
    ensures v.id == h.id && v.workItemId == h.workItemId && v.createdAt == h.createdAt
    ensures v.status == WorkflowService.StatusName(h.status)
  {
    HistoryItem(h.id, h.workItemId, h.workItemType, h.title, WorkflowService.StatusName(h.status), h.cost,
                h.customPrompt, h.workFolderPath, h.createdAt, h.completedAt, h.errorMessage)
  }

  /** The user's rows, in table order. */
  function UserRows(rows: seq<History>, userId: int): (r: seq<History>)
    ensures forall h :: h in r <==> h in rows && h.userId == userId
  {
    if |rows| == 0 then []
    else UserRows(rows[..|rows| - 1], userId)
         + (if rows[|rows| - 1].userId == userId then [rows[|rows| - 1]] else [])
  }

  /** `ORDER BY created_at DESC`: a later creation time sorts first. */
  function NewestFirstKey(h: History): seq<int> {
    [-h.createdAt]
  }

  /** The user's rows, newest first; rows created at the same time keep table order. */
  function Ranked(rows: seq<History>, userId: int): seq<History> {
    Sorting.SortBy(UserRows(rows, userId), NewestFirstKey)
  }

  /** `OFFSET offset LIMIT limit` on the ranked rows. */
  function Window(s: seq<History>, offset: nat, limit: nat): (w: seq<History>)
    ensures |w| <= limit
    ensures offset <= |s| ==> w == s[offset..if offset + limit <= |s| then offset + limit else |s|]
    ensures offset > |s| ==> w == []
  {
    if offset >= |s| then []
    else if offset + limit <= |s| then s[offset..offset + limit]
    else s[offset..]
  }

  /** The listed form of each row of a page, in page order. */
  function Items(page: seq<History>): (r: seq<HistoryItem>)
    ensures |r| == |page|
    ensures forall i :: 0 <= i < |page| ==> r[i] == ItemOf(page[i])
  {
    seq(|page|, i requires 0 <= i < |page| => ItemOf(page[i]))
  }

  /** The rows of a window are the rows of `s` from `offset` on. */
  lemma WindowRows(s: seq<History>, offset: nat, limit: nat)
    ensures var w := Window(s, offset, limit);
      && (forall i :: 0 <= i < |w| ==> offset + i < |s| && w[i] == s[offset + i])
      && (forall h :: h in w ==> h in s)
  {
    var w := Window(s, offset, limit);
    forall h | h in w
      ensures h in s
    {
      var i :| 0 <= i < |w| && w[i] == h;
      assert s[offset + i] == h;
    }
  }

  /** The query parameters the framework rejects: `limit` outside 1..100 and a negative `offset`. */
  function InvalidParams(limit: int, offset: int): seq<string> {
    (if 1 <= limit <= 100 then [] else ["limit"]) + (if offset >= 0 then [] else ["offset"])
  }

  /** `list_work_items`. */
  function ListWorkItems(rows: seq<History>, user: Option<int>, limit: int, offset: int): (r: Result<seq<HistoryItem>, HttpError>)
    ensures r.Failure? <==> !(1 <= limit <= 100) || offset < 0
    ensures r.Failure? ==> r.error == QueryInvalid(InvalidParams(limit, offset)) && StatusCode(r.error) == 422
    ensures r.Success? ==> |r.value| <= limit
    ensures r.Success? && user.None? ==> r.value == []
  {
    if |InvalidParams(limit, offset)| > 0 then Failure(QueryInvalid(InvalidParams(limit, offset)))
    else if user.None? then Success([])
    else
      var page := Window(Ranked(rows, user.value), offset, limit);
      Success(Items(page))
  }

  /** The ranking holds exactly the user's rows, each as often as in the
      table, and never puts an older row before a newer one. */
  lemma RankedIsUsersNewestFirst(rows: seq<History>, userId: int)
    ensures var ranked := Ranked(rows, userId);
      && multiset(ranked) == multiset(UserRows(rows, userId))
      && (forall h :: h in ranked <==> h in rows && h.userId == userId)
      && (forall i, j :: 0 <= i < j < |ranked| ==> ranked[i].createdAt >= ranked[j].createdAt)
  {
    var ranked := Ranked(rows, userId);
    forall h
      ensures h in ranked <==> h in UserRows(rows, userId)
    {
      assert h in ranked <==> h in multiset(ranked);
      assert h in UserRows(rows, userId) <==> h in multiset(UserRows(rows, userId));
    }
    forall i, j | 0 <= i < j < |ranked|
      ensures ranked[i].createdAt >= ranked[j].createdAt
    {
      assert Sorting.LexLe(NewestFirstKey(ranked[i]), NewestFirstKey(ranked[j]));
    }
  }

  /** The page listed for a user is the slice of the ranking that the offset
      and limit select: only that user's rows, newest first. */
  lemma ListedPage(rows: seq<History>, userId: int, limit: int, offset: int)
    requires 1 <= limit <= 100 && offset >= 0
    ensures var r := ListWorkItems(rows, Some(userId), limit, offset);
      var w := Window(Ranked(rows, userId), offset, limit);
      && r.Success?
      && |r.value| == |w|
      && (forall i :: 0 <= i < |w| ==> r.value[i] == ItemOf(w[i]))
      && (forall h :: h in w ==> h in rows && h.userId == userId)
      && (forall i, j :: 0 <= i < j < |r.value| ==> r.value[i].createdAt >= r.value[j].createdAt)
  {
    var ranked := Ranked(rows, userId);
    var w := Window(ranked, offset, limit);
    RankedIsUsersNewestFirst(rows, userId);
    WindowRows(ranked, offset, limit);
    assert ListWorkItems(rows, Some(userId), limit, offset) == Success(Items(w));
  }

  lemma InRanked(rows: seq<History>, userId: int, h: History)
    requires h in rows && h.userId == userId
    ensures h in Ranked(rows, userId)
  {
    var u := UserRows(rows, userId);
    assert h in multiset(u);
    assert h in multiset(Ranked(rows, userId));
  }

  lemma OnePage(rows: seq<History>, userId: int, k: nat)
    requires k < |Ranked(rows, userId)|
    ensures ListWorkItems(rows, Some(userId), 1, k) == Success([ItemOf(Ranked(rows, userId)[k])])
  {
    var ranked := Ranked(rows, userId);
    var page := Window(ranked, k, 1);
    assert page == [ranked[k]];
    assert Items(page) == [ItemOf(ranked[k])];
  }

  /** Every row of the user is listed on some page: paging with limit 1
      reaches each of them. */
  lemma EveryRowIsListed(rows: seq<History>, userId: int, h: History)
    requires h in rows && h.userId == userId
    ensures exists offset :: 0 <= offset < |Ranked(rows, userId)| && ListWorkItems(rows, Some(userId), 1, offset) == Success([ItemOf(h)])
  {
    var ranked := Ranked(rows, userId);
    InRanked(rows, userId, h);
    var k :| 0 <= k < |ranked| && ranked[k] == h;
    OnePage(rows, userId, k);
  }

  // ---------------------------------------------------------------------
  // apply_file_changes

  /** The filesystem as the endpoint uses it. `join` is `Path(folder) / rel`;
      `resolve` is `Path(p).resolve()` or the text of the error it raises;
      `makeParents` and `write` return the text of the error they raise, if
      any; `typeError` is the text of the `TypeError` a non-string operand
      raises. */
  datatype Fs = Fs(
    pathExists: string -> bool,
    join: (string, string) -> string,
    resolve: string -> Result<string, string>,
    makeParents: string -> Option<string>,
    write: (string, string) -> Option<string>,
    typeError: Json.Json -> string)

  /** Why an entry was not written: it lacks a path or content, its target
      lies outside the work folder, or an operation raised an error with the
      given text. */
  datatype EntryError = MissingPathOrContent | PathTraversal | Raised(text: string)

  /** The `error` text of a rejected entry. */
  function ErrorText(e: EntryError): string {
    match e
    case MissingPathOrContent => "Missing path or content"
    case PathTraversal => "Path traversal detected - file must be within work folder"
    case Raised(t) => t
  }

  /** One entry of the response's `results`: a written file, or a rejected
      entry with the path as given (or "unknown") and the reason. */
  datatype FileResult =
    | Written(path: string, absolutePath: string, description: Json.Json)
    | Rejected(entryPath: Json.Json, error: EntryError)

  /** A file the endpoint attempted to write: the target and the content. */
  datatype WriteAttempt = WriteAttempt(target: string, content: string)

  /** The containment test between a resolved target and the resolved folder. */
  type Containment = (string, string) -> bool

  /** One `file_change` entry: validated, checked for containment, written.
      Also returns the write attempted, if the entry got that far. */
  function ProcessEntry(folder: string, entry: map<string, Json.Json>, fs: Fs, contained: Containment)
    : (r: (FileResult, Option<WriteAttempt>))
    ensures r.1.Some? ==> Json.Get(entry, "path").JStr? && r.1.value.target == fs.join(folder, Json.Get(entry, "path").s)
    ensures r.0.Written? ==> r.1.Some?
    ensures r.1.Some? ==> var t := fs.resolve(r.1.value.target); var b := fs.resolve(folder);
      t.Success? && b.Success? && contained(t.value, b.value)
    ensures !Json.Truthy(Json.Get(entry, "path")) || Json.Get(entry, "content").JNull? <==>
      r.0 == Rejected(if Json.Truthy(Json.Get(entry, "path")) then Json.Get(entry, "path") else Json.JStr("unknown"),
                      MissingPathOrContent) && r.1.None?
  {
    var path := Json.Get(entry, "path");
    var content := Json.Get(entry, "content");
    var description := if "description" in entry then entry["description"] else Json.JStr("");
    if !Json.Truthy(path) || content.JNull? then
      (Rejected(if Json.Truthy(path) then path else Json.JStr("unknown"), MissingPathOrContent), None)
    else if !path.JStr? then (Rejected(path, Raised(fs.typeError(path))), None)
    else
      var target := fs.join(folder, path.s);
      match fs.resolve(target)
      case Failure(e) => (Rejected(path, Raised(e)), None)
      case Success(resolved) =>
        match fs.resolve(folder)
        case Failure(e) => (Rejected(path, Raised(e)), None)
        case Success(base) =>
          if !contained(resolved, base) then (Rejected(path, PathTraversal), None)
          else if fs.makeParents(target).Some? then (Rejected(path, Raised(fs.makeParents(target).value)), None)
          else if !content.JStr? then (Rejected(path, Raised(fs.typeError(content))), None)
          else
            var attempt := WriteAttempt(target, content.s);
            match fs.write(target, content.s)
            case Some(e) => (Rejected(path, Raised(e)), Some(attempt))
            case None => (Written(path.s, resolved, description), Some(attempt))
  }

  /** The loop over the entries: the results and writes so far, and whether an
      entry that is not an object stopped it with an unhandled error. */
  datatype Progress = Progress(results: seq<FileResult>, writes: seq<WriteAttempt>, crashed: bool)

  function ProcessAll(folder: string, entries: seq<Json.Json>, fs: Fs, contained: Containment): (p: Progress)
    ensures |p.results| <= |entries|
    ensures !p.crashed <==> forall i :: 0 <= i < |entries| ==> entries[i].JObj?
    ensures !p.crashed ==> |p.results| == |entries|
    ensures forall i :: 0 <= i < |p.results| ==> entries[i].JObj? && p.results[i] == ProcessEntry(folder, entries[i].fields, fs, contained).0
    ensures forall w :: w in p.writes ==> var t := fs.resolve(w.target); var b := fs.resolve(folder);
      t.Success? && b.Success? && contained(t.value, b.value)
  {
    if |entries| == 0 then Progress([], [], false)
    else if !entries[0].JObj? then Progress([], [], true)
    else
      var (res, w) := ProcessEntry(folder, entries[0].fields, fs, contained);
      var rest := ProcessAll(folder, entries[1..], fs, contained);
      Progress([res] + rest.results, (if w.Some? then [w.value] else []) + rest.writes, rest.crashed)
  }

  /** `sum(1 for r in results if r["success"])`. */
  function Succeeded(rs: seq<FileResult>): (n: nat)
    ensures n <= |rs|
  {
    if |rs| == 0 then 0 else (if rs[0].Written? then 1 else 0) + Succeeded(rs[1..])
  }

  /** `sum(1 for r in results if not r["success"])`. */
  function FailedCount(rs: seq<FileResult>): (n: nat)
    ensures n <= |rs|
  {
    if |rs| == 0 then 0 else (if rs[0].Written? then 0 else 1) + FailedCount(rs[1..])
  }

  /** Every entry is counted exactly once, as succeeded or as failed. */
  lemma {:induction false} CountsAddUp(rs: seq<FileResult>)
    ensures Succeeded(rs) + FailedCount(rs) == |rs|
  {
    if |rs| > 0 {
      CountsAddUp(rs[1..]);
    }
  }

  /** All entries succeeded exactly when the success count is the entry count. */
  lemma {:induction false} AllSucceededIff(rs: seq<FileResult>)
    ensures Succeeded(rs) == |rs| <==> forall i :: 0 <= i < |rs| ==> rs[i].Written?
  {
    if |rs| > 0 {
      AllSucceededIff(rs[1..]);
      assert forall i :: 1 <= i < |rs| ==> rs[i] == rs[1..][i - 1];
    }
  }

  /** The response of a completed request. */
  datatype ApplySummary = ApplySummary(
    success: bool,
    workFolder: string,
    processed: nat,
    succeeded: nat,
    failed: nat,
    results: seq<FileResult>)

  /** What a request does: its response, and the files it wrote, which a
      request answered with an error may also have written. */
  datatype ApplyOutcome = ApplyOutcome(response: Result<ApplySummary, HttpError>, writes: seq<WriteAttempt>)

  const NoFileChanges := "No file changes found in analysis result"

  /** The rejections made before any entry is looked at, in the order
      they are checked; `None` when the request goes ahead. */
  function Precheck(rows: map<int, History>, user: Option<int>, historyId: int, pathExists: string -> bool): (r: Option<HttpError>)
    ensures r.Some? ==> r.value.HttpException? || r.value.Unhandled?
    ensures user.None? ==> r == Some(HttpException(404, "No user found"))
    ensures user.Some? && (historyId !in rows || rows[historyId].userId != user.value) ==>
      r == Some(HttpException(404, "Analysis " + IntToString(historyId) + " not found"))
    ensures user.Some? && historyId in rows && rows[historyId].userId == user.value ==>
      var h := rows[historyId];
      var folderSet := Models.Present(h.workFolderPath);
      var hasResult := h.analysisResult.Some? && Json.Truthy(h.analysisResult.value);
      var isObject := hasResult && h.analysisResult.value.JObj?;
      var hasChanges := isObject && Json.Truthy(Json.Get(h.analysisResult.value.fields, "file_changes"));
      && (!folderSet ==> r == Some(HttpException(400, "No work folder path specified for this analysis")))
      && (folderSet && !hasResult ==> r == Some(HttpException(400, NoFileChanges)))
      && (folderSet && hasResult && !isObject ==> r == Some(Unhandled))
      && (folderSet && isObject && !hasChanges ==> r == Some(HttpException(400, NoFileChanges)))
      && (folderSet && hasChanges && !pathExists(h.workFolderPath.value) ==>
            r == Some(HttpException(400, "Work folder does not exist: " + h.workFolderPath.value)))
      && (folderSet && hasChanges && pathExists(h.workFolderPath.value) ==>
            r == (if Json.Get(h.analysisResult.value.fields, "file_changes").JArr? then None else Some(Unhandled)))
  {
    if user.None? then Some(HttpException(404, "No user found"))
    else if historyId !in rows || rows[historyId].userId != user.value then
      Some(HttpException(404, "Analysis " + IntToString(historyId) + " not found"))
    else
      var h := rows[historyId];
      if h.workFolderPath.None? || h.workFolderPath.value == "" then
        Some(HttpException(400, "No work folder path specified for this analysis"))
      else if h.analysisResult.None? || !Json.Truthy(h.analysisResult.value) then Some(HttpException(400, NoFileChanges))
      else if !h.analysisResult.value.JObj? then Some(Unhandled)
      else if !Json.Truthy(Json.Get(h.analysisResult.value.fields, "file_changes")) then Some(HttpException(400, NoFileChanges))
      else if !pathExists(h.workFolderPath.value) then
        Some(HttpException(400, "Work folder does not exist: " + h.workFolderPath.value))
      else if !Json.Get(h.analysisResult.value.fields, "file_changes").JArr? then Some(Unhandled)
      else None
  }

  /** `apply_file_changes`, with the containment test as a parameter. */
  function ApplyWith(rows: map<int, History>, user: Option<int>, historyId: int, fs: Fs, contained: Containment): (o: ApplyOutcome)
    ensures Precheck(rows, user, historyId, fs.pathExists).Some? ==>
      o == ApplyOutcome(Failure(Precheck(rows, user, historyId, fs.pathExists).value), [])
  {
    match Precheck(rows, user, historyId, fs.pathExists)
    case Some(e) => ApplyOutcome(Failure(e), [])
    case None =>
      var folder := rows[historyId].workFolderPath.value;
      var entries := Json.Get(rows[historyId].analysisResult.value.fields, "file_changes").items;
      var p := ProcessAll(folder, entries, fs, contained);
      if p.crashed then ApplyOutcome(Failure(Unhandled), p.writes)
      else
        var rs := p.results;
        ApplyOutcome(Success(ApplySummary((forall i :: 0 <= i < |rs| ==> rs[i].Written?), folder,
                                          |rs|, Succeeded(rs), FailedCount(rs), rs)), p.writes)
  }

  /** `apply_file_changes` as the model uses it: a target must lie within the
      work folder component-wise. */
  function ApplyFileChanges(rows: map<int, History>, user: Option<int>, historyId: int, fs: Fs): (o: ApplyOutcome)
    ensures Precheck(rows, user, historyId, fs.pathExists).Some? ==>
      o == ApplyOutcome(Failure(Precheck(rows, user, historyId, fs.pathExists).value), [])
    ensures forall w :: w in o.writes ==>
      var folder := rows[historyId].workFolderPath.value;
      fs.resolve(w.target).Success? && fs.resolve(folder).Success?
      && Paths.IsWithin(fs.resolve(w.target).value, fs.resolve(folder).value)
  {
    ApplyWith(rows, user, historyId, fs, Paths.IsWithin)
  }

  /** `apply_file_changes` as written: a target's resolved string must start
      with the folder's resolved string. */
  function ApplyFileChangesAsWritten(rows: map<int, History>, user: Option<int>, historyId: int, fs: Fs): (o: ApplyOutcome)
    ensures Precheck(rows, user, historyId, fs.pathExists).Some? ==>
      o == ApplyOutcome(Failure(Precheck(rows, user, historyId, fs.pathExists).value), [])
    ensures forall w :: w in o.writes ==>
      var folder := rows[historyId].workFolderPath.value;
      fs.resolve(w.target).Success? && fs.resolve(folder).Success?
      && Paths.PrefixContained(fs.resolve(w.target).value, fs.resolve(folder).value)
  {
    ApplyWith(rows, user, historyId, fs, Paths.PrefixContained)
  }

  /** The summary counts every entry once, reports success exactly when every
      entry was written, and lists one result per entry in input order. */
  lemma SummaryCounts(rows: map<int, History>, user: Option<int>, historyId: int, fs: Fs)
    requires ApplyFileChanges(rows, user, historyId, fs).response.Success?
    ensures var s := ApplyFileChanges(rows, user, historyId, fs).response.value;
      var entries := Json.Get(rows[historyId].analysisResult.value.fields, "file_changes").items;
      && s.processed == |s.results| == |entries|
      && s.succeeded + s.failed == s.processed
      && (s.success <==> s.succeeded == s.processed)
      && (s.success <==> forall i :: 0 <= i < |s.results| ==> s.results[i].Written?)
      && (forall i :: 0 <= i < |entries| ==>
            entries[i].JObj? && s.results[i] == ProcessEntry(s.workFolder, entries[i].fields, fs, Paths.IsWithin).0)
  {
    var s := ApplyFileChanges(rows, user, historyId, fs).response.value;
    CountsAddUp(s.results);
    AllSucceededIff(s.results);
  }

  /** A filesystem where the entry "../work-evil/x" of the folder "/tmp/work"
      resolves to the sibling directory "/tmp/work-evil". */
  function SiblingFs(): Fs {
    Fs(p => true,
       (f, r) => f + "/" + r,
       p => if p == "/tmp/work" then Success("/tmp/work") else Success("/tmp/work-evil/x"),
       p => None,
       (p, c) => None,
       j => "")
  }

  /** The as-written check writes into the sibling directory; the
      component-wise check rejects the entry as a traversal and writes nothing. */
  lemma SiblingWriteAsWritten()
    ensures var e := map["path" := Json.JStr("../work-evil/x"), "content" := Json.JStr("x")];
      && ProcessEntry("/tmp/work", e, SiblingFs(), Paths.PrefixContained).0.Written?
      && ProcessEntry("/tmp/work", e, SiblingFs(), Paths.IsWithin) == (Rejected(Json.JStr("../work-evil/x"), PathTraversal), None)
  {
    var e := map["path" := Json.JStr("../work-evil/x"), "content" := Json.JStr("x")];
    assert Json.Get(e, "path") == Json.JStr("../work-evil/x");
    assert Json.Get(e, "content") == Json.JStr("x");
    var fs := SiblingFs();
    var target := fs.join("/tmp/work", "../work-evil/x");
    assert target != "/tmp/work" by {
      assert |target| > |"/tmp/work"|;
    }
    assert fs.resolve(target) == Success("/tmp/work-evil/x");
    assert fs.resolve("/tmp/work") == Success("/tmp/work");
    Paths.SiblingAdmittedByPrefix();
  }
}

=== FILE: workflow.dfy ===
/** The work-item completion orchestrator (src/ado_ai_cli/core/workflow.py):
    the update diff computed from a work item and its analysis, the comment
    posted with it, and the fixed step sequence of `complete_work_item` with
    its dry-run, approval and update branches. The clients are modelled by
    their one-attempt functions fed with backend oracles; the user's answer to
    the confirmation prompt is an oracle too. The output is the list of
    progress events and the result. */
module Workflow {
  import opened Wrappers
  import opened Strings
  import opened Errors
  import opened Models
  import AdoClient
  import ClaudeClient
  import Json

  const RemainingWorkField := "Microsoft.VSTS.Scheduling.RemainingWork"
  const TagsField := "System.Tags"
  const CompletedTag := "AI-Completed"

  /** The value of a key in an ordered field map, if it is there. */
  function Lookup(fields: FieldMap, key: string): Option<FieldValue> {
    if |fields| == 0 then None
    else if fields[0].0 == key then Some(fields[0].1)
    else Lookup(fields[1..], key)
  }

  /** Python's `!=` between the suggested remaining work and the current one:
      `None` equals only `None`. */
  predicate RemainingDiffers(suggested: Option<real>, current: Option<Float>) {
    match (suggested, current)
    case (None, None) => false
    case (Some(s), Some(c)) => s != c.value
    case _ => true
  }

  /** The value sent for a remaining-work suggestion. */
  function RemainingValue(suggested: Option<real>): FieldValue {
    if suggested.Some? then Number(suggested.value) else NullValue
  }

  /** The existing tags: the tag string split on `;`, nothing when it is absent or empty. */
  function ExistingTags(tags: Option<string>): seq<string> {
    if Present(tags) then Split(tags.value, ';') else []
  }

  /** The state entry of the diff: a non-empty suggestion that differs. */
  function StateChange(w: WorkItem, a: ClaudeClient.AnalysisResult): FieldMap {
    var status := a.suggestedStatus;
    if Present(status) && status.value != w.state then [(AdoClient.StateField, Text(status.value))] else []
  }

  /** The remaining-work entry of the diff: a suggestion that differs. */
  function RemainingChange(w: WorkItem, a: ClaudeClient.AnalysisResult): FieldMap {
    if RemainingDiffers(a.suggestedRemainingWork, w.remainingWork)
    then [(RemainingWorkField, RemainingValue(a.suggestedRemainingWork))] else []
  }

  /** The tags entry of the diff: the marker tag appended when it is missing. */
  function TagsChange(w: WorkItem): FieldMap {
    var existing := ExistingTags(w.tags);
    if CompletedTag !in existing then [(TagsField, Text(Join(existing + [CompletedTag], ";")))] else []
  }

  /** `_build_update_fields`: state, remaining work and tags, in that order,
      each only when it would change something. */
  function BuildUpdateFields(w: WorkItem, a: ClaudeClient.AnalysisResult): (fields: FieldMap)
    ensures |fields| <= 3
    ensures forall i :: 0 <= i < |fields| ==> fields[i].0 in {AdoClient.StateField, RemainingWorkField, TagsField}
    ensures forall i, j :: 0 <= i < j < |fields| ==> fields[i].0 != fields[j].0
  {
    StateChange(w, a) + RemainingChange(w, a) + TagsChange(w)
  }

  /** Each key is present exactly when its rule fires, with the value the rule gives. */
  lemma UpdateFieldRules(w: WorkItem, a: ClaudeClient.AnalysisResult)
    ensures var f := BuildUpdateFields(w, a);
      && (Lookup(f, AdoClient.StateField).Some? <==>
            a.suggestedStatus.Some? && a.suggestedStatus.value != "" && a.suggestedStatus.value != w.state)
      && (Lookup(f, AdoClient.StateField).Some? ==> Lookup(f, AdoClient.StateField) == Some(Text(a.suggestedStatus.value)))
      && (Lookup(f, RemainingWorkField).Some? <==> RemainingDiffers(a.suggestedRemainingWork, w.remainingWork))
      && (w.remainingWork.None? && a.suggestedRemainingWork.Some? ==> Lookup(f, RemainingWorkField).Some?)
      && (Lookup(f, RemainingWorkField).Some? ==>
            Lookup(f, RemainingWorkField) == Some(if a.suggestedRemainingWork.Some? then Number(a.suggestedRemainingWork.value) else NullValue))
      && (Lookup(f, TagsField).Some? <==> CompletedTag !in ExistingTags(w.tags))
      && (Lookup(f, TagsField).Some? ==> Lookup(f, TagsField) == Some(Text(Join(ExistingTags(w.tags) + [CompletedTag], ";"))))
  {
    var status := a.suggestedStatus;
    var existing := ExistingTags(w.tags);
    var s: FieldMap := if Present(status) && status.value != w.state then [(AdoClient.StateField, Text(status.value))] else [];
    var r: FieldMap := if RemainingDiffers(a.suggestedRemainingWork, w.remainingWork)
      then [(RemainingWorkField, RemainingValue(a.suggestedRemainingWork))] else [];
    var t: FieldMap := if CompletedTag !in existing then [(TagsField, Text(Join(existing + [CompletedTag], ";")))] else [];
    LookupConcat(s, r + t, AdoClient.StateField);
    LookupConcat(s, r + t, RemainingWorkField);
    LookupConcat(s, r + t, TagsField);
    LookupConcat(r, t, AdoClient.StateField);
    LookupConcat(r, t, RemainingWorkField);
    LookupConcat(r, t, TagsField);
    assert s + r + t == s + (r + t);
  }

  /** Looking a key up in two joined maps looks in the first, then the second. */
  lemma {:induction false} LookupConcat(f: FieldMap, g: FieldMap, key: string)
    ensures Lookup(f + g, key) == if Lookup(f, key).Some? then Lookup(f, key) else Lookup(g, key)
  {
    if |f| > 0 {
      assert (f + g)[0] == f[0];
      assert (f + g)[1..] == f[1..] + g;
      LookupConcat(f[1..], g, key);
    } else {
      assert f + g == g;
    }
  }

  /** The tag value sent lists the original tags in order, then one marker tag. */
  lemma TagsAppendMarker(tags: Option<string>)
    requires CompletedTag !in ExistingTags(tags)
    ensures Split(Join(ExistingTags(tags) + [CompletedTag], ";"), ';') == ExistingTags(tags) + [CompletedTag]
  {
    var existing := ExistingTags(tags);
    SplitNoSep(CompletedTag, ';');
    if |existing| == 0 {
      assert existing + [CompletedTag] == [CompletedTag];
    } else {
      JoinAppend(existing, CompletedTag, ";");
      JoinSplit(tags.value, ';');
      SplitAppend(tags.value, CompletedTag, ';');
      assert tags.value + ";" + CompletedTag == tags.value + [';'] + CompletedTag;
    }
  }

  /** The diff is empty exactly when the state needs no change, the remaining
      work equals the suggestion and the marker tag is already there. */
  lemma EmptyDiff(w: WorkItem, a: ClaudeClient.AnalysisResult)
    ensures BuildUpdateFields(w, a) == [] <==>
      && (!Present(a.suggestedStatus) || a.suggestedStatus.value == w.state)
      && !RemainingDiffers(a.suggestedRemainingWork, w.remainingWork)
      && CompletedTag in ExistingTags(w.tags)
  {
  }

  /** The work item after the tracking service applied a field map; `render`
      gives the text Python would show for a number. */
  function ApplyFields(w: WorkItem, fields: FieldMap, render: real -> string): WorkItem
    decreases |fields|
  {
    if |fields| == 0 then w
    else ApplyFields(ApplyField(w, fields[0].0, fields[0].1, render), fields[1..], render)
  }

  /** The effect of one entry; other keys leave the modelled fields alone. */
  function ApplyField(w: WorkItem, key: string, value: FieldValue, render: real -> string): WorkItem {
    if key == AdoClient.StateField && value.Text? then w.(state := value.s)
    else if key == RemainingWorkField && value.Number? then w.(remainingWork := Some(Float(value.n, render(value.n))))
    else if key == RemainingWorkField && value.NullValue? then w.(remainingWork := None)
    else if key == TagsField && value.Text? then w.(tags := Some(value.s))
    else w
  }

  lemma ApplySingle(w: WorkItem, key: string, value: FieldValue, render: real -> string)
    ensures ApplyFields(w, [(key, value)], render) == ApplyField(w, key, value, render)
  {
    assert [(key, value)][1..] == [];
  }

  lemma FieldNamesDistinct()
    ensures TagsField != AdoClient.StateField && TagsField != RemainingWorkField
    ensures AdoClient.StateField != RemainingWorkField
  {
    assert |TagsField| == 11 && |AdoClient.StateField| == 12;
  }

  lemma SettleState(w: WorkItem, a: ClaudeClient.AnalysisResult, render: real -> string)
    ensures var w1 := ApplyFields(w, StateChange(w, a), render);
      w1.remainingWork == w.remainingWork && w1.tags == w.tags && StateChange(w1, a) == []
  {
    if StateChange(w, a) != [] {
      ApplySingle(w, AdoClient.StateField, Text(a.suggestedStatus.value), render);
    }
  }

  lemma SettleRemaining(w: WorkItem, a: ClaudeClient.AnalysisResult, render: real -> string)
    ensures var w2 := ApplyFields(w, RemainingChange(w, a), render);
      w2.state == w.state && w2.tags == w.tags && RemainingChange(w2, a) == []
  {
    if RemainingChange(w, a) != [] {
      FieldNamesDistinct();
      ApplySingle(w, RemainingWorkField, RemainingValue(a.suggestedRemainingWork), render);
    }
  }

  lemma SettleTags(w: WorkItem, render: real -> string)
    ensures var w3 := ApplyFields(w, TagsChange(w), render);
      w3.state == w.state && w3.remainingWork == w.remainingWork && TagsChange(w3) == []
  {
    var existing := ExistingTags(w.tags);
    if CompletedTag !in existing {
      TagsAppendMarker(w.tags);
      var sent := Join(existing + [CompletedTag], ";");
      FieldNamesDistinct();
      ApplySingle(w, TagsField, Text(sent), render);
      var w3 := ApplyFields(w, TagsChange(w), render);
      assert w3 == w.(tags := Some(sent));
      assert ExistingTags(w3.tags) == existing + [CompletedTag];
      assert (existing + [CompletedTag])[|existing|] == CompletedTag;
    }
  }

  /** Once the diff is applied, the same analysis asks for no further change. */
  lemma UpdateSettles(w: WorkItem, a: ClaudeClient.AnalysisResult, render: real -> string)
    ensures BuildUpdateFields(ApplyFields(w, BuildUpdateFields(w, a), render), a) == []
  {
    var s, r, t := StateChange(w, a), RemainingChange(w, a), TagsChange(w);
    assert s + r + t == s + (r + t);
    ApplyConcat(w, s, r + t, render);
    var w1 := ApplyFields(w, s, render);
    SettleState(w, a, render);
    assert r == RemainingChange(w1, a) && t == TagsChange(w1);
    ApplyConcat(w1, r, t, render);
    var w2 := ApplyFields(w1, r, render);
    SettleRemaining(w1, a, render);
    assert t == TagsChange(w2);
    var w3 := ApplyFields(w2, t, render);
    SettleTags(w2, render);
    assert StateChange(w3, a) == StateChange(w1, a) && RemainingChange(w3, a) == RemainingChange(w2, a);
  }

  /** Applying two maps in turn is applying their concatenation. */
  lemma {:induction false} ApplyConcat(w: WorkItem, f: FieldMap, g: FieldMap, render: real -> string)
    ensures ApplyFields(w, f + g, render) == ApplyFields(ApplyFields(w, f, render), g, render)
    decreases |f|
  {
    if |f| > 0 {
      assert (f + g)[0] == f[0];
      assert (f + g)[1..] == f[1..] + g;
      ApplyConcat(ApplyField(w, f[0].0, f[0].1, render), f[1..], g, render);
    } else {
      assert f + g == g;
    }
  }

  // The comment posted with an update. Its first line carries the robot emoji
  // as the source file spells it: the emoji's UTF-8 bytes read back as
  // Windows-1254 (Turkish) text, four characters in all.
  const CommentHeader := "\U{11F}\U{178}\U{A4}\U{2013} AI Analysis\n\n"
  const CommentFooter := "\n\n---\n*Generated by Claude AI*\n"

  /** `str()` of the analysis comment: `None` renders as "None". */
  function CommentText(c: Option<string>): string {
    if c.Some? then c.value else "None"
  }

  /** `_format_ai_comment`. */
  function FormatAiComment(a: ClaudeClient.AnalysisResult): (r: string)
    ensures |r| == |CommentHeader| + |CommentText(a.comment)| + |CommentFooter|
  {
    CommentHeader + CommentText(a.comment) + CommentFooter
  }

  /** The analysis comment can be read back from the posted text, and that
      text is never empty, so it is always posted. */
  lemma CommentRoundTrip(a: ClaudeClient.AnalysisResult)
    ensures var r := FormatAiComment(a);
      r[|CommentHeader|..|r| - |CommentFooter|] == CommentText(a.comment)
    ensures StartsWith(FormatAiComment(a), CommentHeader)
    ensures Present(Some(FormatAiComment(a)))
  {
    var r := FormatAiComment(a);
    assert r == CommentHeader + CommentText(a.comment) + CommentFooter;
    assert r[..|CommentHeader|] == CommentHeader;
    assert |CommentFooter| > 0;
  }

  /** A progress event: its step, the work item id, and the error text that
      `error` and `failed` events carry. */
  datatype Event = Event(step: Step, workItemId: int, error: Option<string>)

  datatype Step = Fetching | FetchingComments | Analyzing | DryRunComplete | Updating | Completed | Failed | ErrorStep

  /** The name each step is emitted under. */
  function StepName(s: Step): string {
    match s
    case Fetching => "fetching"
    case FetchingComments => "fetching_comments"
    case Analyzing => "analyzing"
    case DryRunComplete => "dry_run_complete"
    case Updating => "updating"
    case Completed => "completed"
    case Failed => "failed"
    case ErrorStep => "error"
  }

  /** The events for a run of steps: each names the work item, and only the
      last may carry an error text. */
  function Emit(id: int, steps: seq<Step>, error: Option<string>): (events: seq<Event>)
    ensures |events| == |steps|
    ensures forall i :: 0 <= i < |steps| ==> events[i].step == steps[i] && events[i].workItemId == id
    ensures forall i :: 0 <= i < |steps| - 1 ==> events[i].error.None?
    ensures |steps| > 0 ==> events[|steps| - 1].error == error
  {
    seq(|steps|, i requires 0 <= i < |steps| => Event(steps[i], id, if i == |steps| - 1 then error else None))
  }

  datatype WorkflowResult = WorkflowResult(
    success: bool,
    workItemId: int,
    workItem: Option<WorkItem>,
    analysis: Option<ClaudeClient.AnalysisResult>,
    updateResult: Option<UpdateWorkItemResult>,
    errorMessage: Option<string>)

  /** `fetch_work_item`, with the backend's answer as an oracle. */
  function FetchWorkItem(id: int, backend: Result<Option<AdoClient.RawWorkItem>, Error>): (r: WorkflowResult)
    ensures r.workItemId == id
    ensures r.success <==> AdoClient.GetWorkItem(id, backend).Success?
    ensures r.success ==> r.workItem == Some(AdoClient.GetWorkItem(id, backend).value) && r.errorMessage.None?
    ensures !r.success ==> r.workItem.None?
    ensures !r.success ==> r.errorMessage == Some("Failed to fetch work item " + IntToString(id) + ": " + Message(AdoClient.GetWorkItem(id, backend).error))
    ensures r.analysis.None? && r.updateResult.None?
  {
    match AdoClient.GetWorkItem(id, backend)
    case Success(w) => WorkflowResult(true, id, Some(w), None, None, None)
    case Failure(e) =>
      WorkflowResult(false, id, None, None, None, Some("Failed to fetch work item " + IntToString(id) + ": " + Message(e)))
  }

  /** Everything outside the orchestrator that `complete_work_item` consults:
      the tracking service's answers, the LLM and the JSON decoder, and the
      user's answer to the confirmation prompt. */
  datatype Backends = Backends(
    fetch: Result<Option<AdoClient.RawWorkItem>, Error>,
    comments: Result<Option<seq<AdoClient.RawComment>>, Error>,
    call: string -> Result<ClaudeClient.ApiResponse, Error>,
    decode: string -> Json.DecodeResult,
    update: Option<Error>,
    postComment: Option<Error>,
    confirm: bool)

  datatype Options = Options(autoApprove: bool, dryRun: bool, display: bool, custom: Option<string>, settingsAutoApprove: bool)

  /** One run of `complete_work_item`: the events emitted, the result, and the
      update call made, if any. */
  datatype Run = Run(events: seq<Event>, result: WorkflowResult, update: Option<AdoClient.UpdateRun>)

  function Steps(events: seq<Event>): (steps: seq<Step>)
    ensures |steps| == |events|
    ensures forall i :: 0 <= i < |events| ==> steps[i] == events[i].step
  {
    if |events| == 0 then [] else [events[0].step] + Steps(events[1..])
  }

  const Started := [Fetching, FetchingComments, Analyzing]

  /** The handler of `complete_work_item`: the steps so far, one `error` event
      carrying the message, and a failed result holding nothing but it. */
  function Crashed(id: int, steps: seq<Step>, e: Error): (r: Run)
    ensures r.result.workItemId == id && !r.result.success && r.result.errorMessage.Some?
    ensures r.update.None? && r.result.updateResult.None?
    ensures forall i :: 0 <= i < |r.events| ==> r.events[i].workItemId == id
  {
    var msg := "Workflow failed: " + Message(e);
    Run(Emit(id, steps + [ErrorStep], Some(msg)), WorkflowResult(false, id, None, None, None, Some(msg)), None)
  }

  /** Whether the run stops to ask the user, and the user declines. */
  predicate Declined(o: Options, b: Backends) {
    !o.autoApprove && !o.settingsAutoApprove && o.display && !b.confirm
  }

  /** The part of `complete_work_item` after a successful analysis: the dry
      run, the confirmation and the update. */
  function Decide(id: int, w: WorkItem, a: ClaudeClient.AnalysisResult, o: Options, b: Backends): (r: Run)
    ensures r.result.workItemId == id
    ensures r.result.workItem == Some(w) && r.result.analysis == Some(a)
    ensures r.result.success ==> r.result.errorMessage.None?
    ensures !r.result.success ==> r.result.errorMessage.Some?
    ensures r.update.Some? <==> !o.dryRun && !Declined(o, b)
    ensures r.update.Some? ==> r.result.updateResult == Some(r.update.value.result)
    ensures r.update.None? ==> r.result.updateResult.None?
    ensures forall i :: 0 <= i < |r.events| ==> r.events[i].workItemId == id
  {
    if o.dryRun then
      Run(Emit(id, Started + [DryRunComplete], None), WorkflowResult(true, id, Some(w), Some(a), None, None), None)
    else if Declined(o, b) then
      Run(Emit(id, Started, None), WorkflowResult(false, id, Some(w), Some(a), None, Some("User cancelled changes")), None)
    else
      Updated(id, w, a, AdoClient.UpdateWorkItem(id, BuildUpdateFields(w, a), Some(FormatAiComment(a)), b.update, b.postComment))
  }

  /** The end of a run that called the update: its outcome decides the last
      event and the result. */
  function Updated(id: int, w: WorkItem, a: ClaudeClient.AnalysisResult, run: AdoClient.UpdateRun): (r: Run)
    ensures r.result == WorkflowResult(run.result.success, id, Some(w), Some(a), Some(run.result),
                                       if run.result.success then None else run.result.errorMessage)
    ensures r.update == Some(run)
    ensures forall i :: 0 <= i < |r.events| ==> r.events[i].workItemId == id
  {
    if run.result.success then
      Run(Emit(id, Started + [Updating, Completed], None),
          WorkflowResult(true, id, Some(w), Some(a), Some(run.result), None), Some(run))
    else
      Run(Emit(id, Started + [Updating, Failed], run.result.errorMessage),
          WorkflowResult(false, id, Some(w), Some(a), Some(run.result), run.result.errorMessage), Some(run))
  }

  /** `complete_work_item`: never raises; a failure of either client call
      ends the run with an `error` event. */
  function CompleteWorkItem(id: int, o: Options, b: Backends): (r: Run)
    ensures r.result.workItemId == id
    ensures forall i :: 0 <= i < |r.events| ==> r.events[i].workItemId == id
    ensures r.result.success ==> r.result.errorMessage.None? && r.result.workItem.Some? && r.result.analysis.Some?
    ensures !r.result.success ==> r.result.errorMessage.Some?
    ensures r.update.Some? ==> r.result.updateResult == Some(r.update.value.result)
    ensures r.update.None? ==> r.result.updateResult.None?
  {
    match AdoClient.GetWorkItem(id, b.fetch)
    case Failure(e) => Crashed(id, [Fetching], e)
    case Success(w) =>
      match ClaudeClient.AnalyzeWorkItem(w, AdoClient.GetComments(b.comments), o.custom, b.call, b.decode)
      case Failure(e) => Crashed(id, Started, e)
      case Success(a) => Decide(id, w, a, o, b)
  }

  /** The step sequences a run can produce: a failure after either client
      call, a dry run, a declined confirmation, an update that succeeded or
      failed. */
  predicate AllowedTrace(steps: seq<Step>) {
    || steps == [Fetching, ErrorStep]
    || steps == Started + [ErrorStep]
    || steps == Started + [DryRunComplete]
    || steps == Started
    || steps == Started + [Updating, Completed]
    || steps == Started + [Updating, Failed]
  }

  /** The steps of emitted events are the steps emitted. */
  lemma StepsOfEmit(id: int, steps: seq<Step>, error: Option<string>)
    ensures Steps(Emit(id, steps, error)) == steps
  {
  }

  /** After a successful analysis the run emits one of the four decision
      traces, never an `error` event; an update's outcome decides the last
      event and the result. */
  lemma DecideTrace(id: int, w: WorkItem, a: ClaudeClient.AnalysisResult, o: Options, b: Backends)
    ensures var r := Decide(id, w, a, o, b);
      && AllowedTrace(Steps(r.events)) && ErrorStep !in Steps(r.events)
      && (r.update.Some? ==>
            var u := r.update.value.result;
            && r.result.success == u.success
            && (u.success ==> r.events[|r.events| - 1] == Event(Completed, id, None))
            && (!u.success ==> r.events[|r.events| - 1] == Event(Failed, id, u.errorMessage)
                               && r.result.errorMessage == u.errorMessage))
  {
    var r := Decide(id, w, a, o, b);
    if o.dryRun {
      StepsOfEmit(id, Started + [DryRunComplete], None);
    } else if Declined(o, b) {
      StepsOfEmit(id, Started, None);
    } else {
      UpdatedTrace(id, w, a, AdoClient.UpdateWorkItem(id, BuildUpdateFields(w, a), Some(FormatAiComment(a)), b.update, b.postComment));
    }
  }

  lemma UpdatedTrace(id: int, w: WorkItem, a: ClaudeClient.AnalysisResult, run: AdoClient.UpdateRun)
    ensures var r := Updated(id, w, a, run);
      && AllowedTrace(Steps(r.events)) && ErrorStep !in Steps(r.events)
      && r.result.success == run.result.success
      && (run.result.success ==> r.events[|r.events| - 1] == Event(Completed, id, None))
      && (!run.result.success ==> r.events[|r.events| - 1] == Event(Failed, id, run.result.errorMessage)
                                  && r.result.errorMessage == run.result.errorMessage)
  {
    if run.result.success {
      StepsOfEmit(id, Started + [Updating, Completed], None);
      assert Started + [Updating, Completed] == [Fetching, FetchingComments, Analyzing, Updating, Completed];
    } else {
      StepsOfEmit(id, Started + [Updating, Failed], run.result.errorMessage);
      assert Started + [Updating, Failed] == [Fetching, FetchingComments, Analyzing, Updating, Failed];
    }
  }

  /** A failure emits the steps so far and then one `error` event carrying
      the result's message. */
  lemma CrashedTrace(id: int, steps: seq<Step>, e: Error)
    ensures var r := Crashed(id, steps, e);
      && Steps(r.events) == steps + [ErrorStep]
      && r.events[|r.events| - 1] == Event(ErrorStep, id, r.result.errorMessage)
      && !r.result.success && r.result.workItem.None? && r.result.analysis.None? && r.result.updateResult.None?
  {
    StepsOfEmit(id, steps + [ErrorStep], Crashed(id, steps, e).result.errorMessage);
  }

  /** Every run emits one of the allowed step sequences, and `error` comes
      last and only with a failed result that carries no work item, analysis
      or update. */
  lemma EventProtocol(id: int, o: Options, b: Backends)
    ensures var r := CompleteWorkItem(id, o, b);
      && AllowedTrace(Steps(r.events))
      && (ErrorStep in Steps(r.events) ==>
            && r.events[|r.events| - 1] == Event(ErrorStep, id, r.result.errorMessage)
            && !r.result.success && r.result.workItem.None? && r.result.analysis.None? && r.result.updateResult.None?)
  {
    match AdoClient.GetWorkItem(id, b.fetch)
    case Failure(e) =>
      CrashedTrace(id, [Fetching], e);
      assert CompleteWorkItem(id, o, b) == Crashed(id, [Fetching], e);
    case Success(w) =>
      match ClaudeClient.AnalyzeWorkItem(w, AdoClient.GetComments(b.comments), o.custom, b.call, b.decode)
      case Failure(e) =>
        CrashedTrace(id, Started, e);
        assert CompleteWorkItem(id, o, b) == Crashed(id, Started, e);
      case Success(a) =>
        DecideTrace(id, w, a, o, b);
        assert CompleteWorkItem(id, o, b) == Decide(id, w, a, o, b);
  }

  /** Whether both client calls before the decision succeed. */
  predicate Analysed(id: int, o: Options, b: Backends) {
    && AdoClient.GetWorkItem(id, b.fetch).Success?
    && ClaudeClient.AnalyzeWorkItem(AdoClient.GetWorkItem(id, b.fetch).value,
         AdoClient.GetComments(b.comments), o.custom, b.call, b.decode).Success?
  }

  /** The update is called exactly when both client calls succeed, the run is
      not a dry run and the user did not decline. */
  lemma UpdateCalledIff(id: int, o: Options, b: Backends)
    ensures CompleteWorkItem(id, o, b).update.Some? <==> Analysed(id, o, b) && !o.dryRun && !Declined(o, b)
  {
  }

  /** A dry run that gets through analysis reports success with the work item
      and the analysis, and never calls the update. */
  lemma DryRun(id: int, o: Options, b: Backends)
    requires o.dryRun && Analysed(id, o, b)
    ensures var r := CompleteWorkItem(id, o, b);
      && Steps(r.events) == Started + [DryRunComplete]
      && r.update.None?
      && r.result == WorkflowResult(true, id, Some(AdoClient.GetWorkItem(id, b.fetch).value),
           Some(ClaudeClient.AnalyzeWorkItem(AdoClient.GetWorkItem(id, b.fetch).value,
                  AdoClient.GetComments(b.comments), o.custom, b.call, b.decode).value), None, None)
  {
    EventProtocol(id, o, b);
  }

  /** A declined confirmation keeps the work item and analysis, reports the
      cancellation, and makes no update; with display off nobody is asked. */
  lemma Approval(id: int, o: Options, b: Backends)
    requires !o.dryRun && Analysed(id, o, b) && !o.autoApprove && !o.settingsAutoApprove
    ensures o.display && !b.confirm ==>
      var r := CompleteWorkItem(id, o, b);
      && r.update.None? && !r.result.success
      && r.result.errorMessage == Some("User cancelled changes")
      && r.result.workItem.Some? && r.result.analysis.Some?
    ensures !o.display ==> CompleteWorkItem(id, o, b).update.Some?
    ensures CompleteWorkItem(id, o, b) == CompleteWorkItem(id, o.(display := false), b.(confirm := true))
      <==> !o.display || b.confirm
  {
    var o' := o.(display := false);
    var b' := b.(confirm := true);
    assert Analysed(id, o', b');
    if o.display && !b.confirm {
      assert CompleteWorkItem(id, o', b').update.Some?;
    }
  }

  /** An update call's outcome decides the result: success emits `completed`,
      failure emits `failed` and copies the update's error message. */
  lemma UpdateOutcome(id: int, o: Options, b: Backends)
    requires CompleteWorkItem(id, o, b).update.Some?
    ensures var r := CompleteWorkItem(id, o, b);
      var u := r.update.value.result;
      && r.result.success == u.success
      && r.result.updateResult == Some(u)
      && (u.success ==> r.events[|r.events| - 1] == Event(Completed, id, None))
      && (!u.success ==> r.events[|r.events| - 1] == Event(Failed, id, u.errorMessage)
                         && r.result.errorMessage == u.errorMessage)
  {
    var w, a, run := ReachesUpdate(id, o, b);
    UpdatedTrace(id, w, a, run);
  }

  /** A run that calls the update is `Updated` on the fetched item, its
      analysis and the update's outcome. */
  lemma ReachesUpdate(id: int, o: Options, b: Backends) returns (w: WorkItem, a: ClaudeClient.AnalysisResult, run: AdoClient.UpdateRun)
    requires CompleteWorkItem(id, o, b).update.Some?
    ensures run == AdoClient.UpdateWorkItem(id, BuildUpdateFields(w, a), Some(FormatAiComment(a)), b.update, b.postComment)
    ensures CompleteWorkItem(id, o, b) == Updated(id, w, a, run)
  {
    UpdateCalledIff(id, o, b);
    w := AdoClient.GetWorkItem(id, b.fetch).value;
    a := ClaudeClient.AnalyzeWorkItem(w, AdoClient.GetComments(b.comments), o.custom, b.call, b.decode).value;
    run := AdoClient.UpdateWorkItem(id, BuildUpdateFields(w, a), Some(FormatAiComment(a)), b.update, b.postComment);
    assert CompleteWorkItem(id, o, b) == Updated(id, w, a, run);
  }

  /** The update sends the diff as its patch document, and once the fields
      are patched it always posts the formatted comment. */
  lemma UpdateSendsDiffAndComment(id: int, o: Options, b: Backends)
    requires CompleteWorkItem(id, o, b).update.Some?
    ensures var r := CompleteWorkItem(id, o, b);
      var w := r.result.workItem.value;
      var a := r.result.analysis.value;
      && r.update.value.document == AdoClient.PatchDocument(BuildUpdateFields(w, a))
      && (b.update.None? ==> r.update.value.commentSent == Some(FormatAiComment(a)))
  {
    var w, a, run := ReachesUpdate(id, o, b);
    CommentRoundTrip(a);
  }

  /** A failing client call leaves a failed result holding only "Workflow failed: ...". */
  lemma FailureIsReported(id: int, o: Options, b: Backends)
    requires !Analysed(id, o, b)
    ensures var r := CompleteWorkItem(id, o, b);
      && r.update.None?
      && r.result.workItem.None? && r.result.analysis.None?
      && r.result.errorMessage.Some? && StartsWith(r.result.errorMessage.value, "Workflow failed: ")
      && r.events[|r.events| - 1] == Event(ErrorStep, id, r.result.errorMessage)
  {
    match AdoClient.GetWorkItem(id, b.fetch)
    case Failure(e) =>
      assert CompleteWorkItem(id, o, b) == Crashed(id, [Fetching], e);
      CrashedReports(id, [Fetching], e);
    case Success(w) =>
      var e := ClaudeClient.AnalyzeWorkItem(w, AdoClient.GetComments(b.comments), o.custom, b.call, b.decode).error;
      assert CompleteWorkItem(id, o, b) == Crashed(id, Started, e);
      CrashedReports(id, Started, e);
  }

  /** A crashed run holds only the failure message, and reports it last. */
  lemma CrashedReports(id: int, steps: seq<Step>, e: Error)
    ensures var r := Crashed(id, steps, e);
      && r.result.workItem.None? && r.result.analysis.None?
      && r.result.errorMessage.Some? && StartsWith(r.result.errorMessage.value, "Workflow failed: ")
      && |r.events| > 0 && r.events[|r.events| - 1] == Event(ErrorStep, id, r.result.errorMessage)
  {
    PrefixOfConcat("Workflow failed: ", Message(e));
    StepsOfEmit(id, steps + [ErrorStep], Crashed(id, steps, e).result.errorMessage);
  }
}

=== FILE: workflow_service.dfy ===
/** The web layer's wrapper around the orchestrator
    (src/ado_ai_web/services/workflow_service.py): building the orchestrator's
    settings from a user's stored credentials, the work item view with HTML
    tags stripped, and the history record an analysis run leaves behind. The
    database, the clock and the environment are inputs. */
module WorkflowService {
  import opened Wrappers
  import opened Strings
  import opened Errors
  import Models
  import Json
  import AdoClient
  import ClaudeClient
  import Config
  import SettingsManager
  import Workflow
  import DateTimes

  /** The length of the match of `<[^>]+>` at the start of `s`, or 0 when
      there is none: a `<`, at least one character other than `>`, then the
      first `>`. */
  function TagLength(s: string): (n: nat)
    ensures n == 0 || (3 <= n <= |s| && s[0] == '<' && s[n - 1] == '>' && '>' !in s[1..n - 1])
    ensures n > 0 <==> |s| >= 3 && s[0] == '<' && s[1] != '>' && '>' in s[2..]
  {
    if |s| >= 2 && s[0] == '<' && s[1] != '>' then
      var j := IndexOf(s[1..], '>');
      assert s[1..] == [s[1]] + s[2..];
      if j >= 0 then
        assert s[1..j + 1] == s[1..][..j];
        j + 2
      else 0
    else 0
  }

  /** `re.sub(r'<[^>]+>', '', s)`: matches are removed left to right. */
  function StripTags(s: string): (r: string)
    ensures |r| <= |s|
    ensures '<' !in s ==> r == s
    decreases |s|
  {
    if |s| == 0 then ""
    else if TagLength(s) > 0 then StripTags(s[TagLength(s)..])
    else [s[0]] + StripTags(s[1..])
  }

  /** No match of the tag pattern starts anywhere in `s`. */
  predicate NoTags(s: string) {
    forall i :: 0 <= i < |s| ==> TagLength(s[i..]) == 0
  }

  /** The text shown for an optional field: tags stripped, "" when absent or empty. */
  function CleanText(t: Option<string>): (r: string)
    ensures !Models.Present(t) ==> r == ""
    ensures Models.Present(t) ==> r == StripTags(t.value)
    ensures NoTags(r)
  {
    if Models.Present(t) then StripTagsClean(t.value); StripTags(t.value) else ""
  }

  /** Stripping only removes characters. */
  lemma {:induction false} StripKeepsChars(s: string, c: char)
    requires c in StripTags(s)
    ensures c in s
    decreases |s|
  {
    if TagLength(s) > 0 {
      StripKeepsChars(s[TagLength(s)..], c);
    } else if c != s[0] {
      StripKeepsChars(s[1..], c);
    }
  }

  /** The result of stripping holds no further match. */
  lemma {:induction false} StripTagsClean(s: string)
    ensures NoTags(StripTags(s))
    decreases |s|
  {
    if |s| > 0 {
      if TagLength(s) > 0 {
        StripTagsClean(s[TagLength(s)..]);
      } else {
        var rest := StripTags(s[1..]);
        StripTagsClean(s[1..]);
        var r := [s[0]] + rest;
        assert r == StripTags(s);
        forall i | 1 <= i < |r|
          ensures TagLength(r[i..]) == 0
        {
          assert r[i..] == rest[i - 1..];
        }
        if s[0] == '<' && |rest| > 0 {
          if '>' in s[1..] {
            assert s[1] == '>';
            assert TagLength(s[1..]) == 0;
            assert rest[0] == '>';
          } else if '>' in rest {
            StripKeepsChars(s[1..], '>');
          }
          assert r[1..] == rest;
        }
      }
    }
  }

  /** Text without a match is left as it is. */
  lemma {:induction false} StripNoTagsIdentity(s: string)
    requires NoTags(s)
    ensures StripTags(s) == s
    decreases |s|
  {
    if |s| > 0 {
      assert TagLength(s[0..]) == 0;
      assert s[0..] == s;
      forall i | 0 <= i < |s| - 1
        ensures TagLength(s[1..][i..]) == 0
      {
        assert s[1..][i..] == s[i + 1..];
      }
      StripNoTagsIdentity(s[1..]);
    }
  }

  /** Stripping twice is stripping once. */
  lemma StripIdempotent(s: string)
    ensures StripTags(StripTags(s)) == StripTags(s)
  {
    StripTagsClean(s);
    StripNoTagsIdentity(StripTags(s));
  }

  /** A first character other than `<` starts no match and is kept. */
  lemma StripKeepsPlainChar(c: char, rest: string)
    requires c != '<'
    ensures StripTags([c] + rest) == [c] + StripTags(rest)
  {
    assert ([c] + rest)[1..] == rest;
  }

  /** A run of text without `<` starts no match and is kept as it is. */
  lemma {:induction false} StripKeepsPlainText(x: string, rest: string)
    requires '<' !in x
    ensures StripTags(x + rest) == x + StripTags(rest)
    decreases |x|
  {
    if |x| > 0 {
      var tail := x[1..] + rest;
      assert x + rest == [x[0]] + tail;
      StripKeepsPlainChar(x[0], tail);
      StripKeepsPlainText(x[1..], rest);
      Strings.HeadThenTail(x, StripTags(rest));
    } else {
      assert x + rest == rest;
      assert x + StripTags(rest) == StripTags(rest);
    }
  }

  /** A tag alone: a `<`, at least one character other than `>`, then a `>`. */
  predicate IsTag(tag: string) {
    && |tag| >= 3 && tag[0] == '<' && tag[|tag| - 1] == '>'
    && forall i :: 1 <= i < |tag| - 1 ==> tag[i] != '>'
  }

  /** A tag at the front of the text is one match and is removed whole. */
  lemma StripLeadingTag(tag: string, rest: string)
    requires IsTag(tag)
    ensures StripTags(tag + rest) == StripTags(rest)
  {
    var s := tag + rest;
    var n := |tag|;
    var t := s[1..];
    assert t[n - 2] == '>';
    assert forall i :: 0 <= i < n - 2 ==> t[i] == tag[i + 1];
    assert IndexOf(t, '>') == n - 2;
    assert s[n..] == rest;
  }

  function OpenTag(name: string): string {
    "<" + name + ">"
  }

  function CloseTag(name: string): string {
    "</" + name + ">"
  }

  /** Both tags of a non-empty name without `>` are matches. */
  lemma TagsOfName(name: string)
    requires |name| > 0 && '>' !in name
    ensures IsTag(OpenTag(name)) && IsTag(CloseTag(name))
  {
    assert forall i :: 1 <= i < |name| + 1 ==> OpenTag(name)[i] == name[i - 1];
    assert forall i :: 2 <= i < |name| + 2 ==> CloseTag(name)[i] == name[i - 2];
  }

  /** A tag pair `<name>` … `</name>` disappears and the plain text between
      stays, whatever the tag's name. */
  lemma StripTagPair(name: string, x: string)
    requires |name| > 0 && '>' !in name && '<' !in x
    ensures StripTags(OpenTag(name) + x + CloseTag(name)) == x
  {
    var open, close := OpenTag(name), CloseTag(name);
    TagsOfName(name);
    assert open + x + close == open + (x + close);
    StripLeadingTag(open, x + close);
    StripKeepsPlainText(x, close);
    assert close == close + "";
    StripLeadingTag(close, "");
    assert x + "" == x;
  }

  /** `_get_orchestrator`: the user's credentials, then the orchestrator's
      settings built from them; `env` supplies the fields the credentials do
      not set. A validation failure reports the failing fields. */
  function OrchestratorSettings(db: SettingsManager.Db, userId: int, systemKey: Option<string>,
                                decrypt: SettingsManager.Cipher -> Result<string, Error>, env: Config.SettingsInput): (r: Result<Config.Settings, Error>)
    ensures SettingsManager.GetDecryptedCredentials(db, userId, systemKey, decrypt) == Success(None) ==>
      r == Failure(ValueError("Credentials not found"))
    ensures SettingsManager.GetDecryptedCredentials(db, userId, systemKey, decrypt).Failure? ==>
      r == Failure(SettingsManager.GetDecryptedCredentials(db, userId, systemKey, decrypt).error)
    ensures r.Success? ==>
      var c := SettingsManager.GetDecryptedCredentials(db, userId, systemKey, decrypt).value.value;
      && r.value.pat == c.pat && r.value.apiKey == c.apiKey && r.value.claudeModel == c.claudeModel
      && r.value.orgUrl == c.orgUrl && r.value.project == c.project
  {
    var creds :- SettingsManager.GetDecryptedCredentials(db, userId, systemKey, decrypt);
    if creds.None? then Failure(ValueError("Credentials not found"))
    else
      var c := creds.value;
      var input := env.(orgUrl := Some(c.orgUrl), project := Some(c.project), pat := Some(c.pat),
                        apiKey := Some(c.apiKey), claudeModel := Some(c.claudeModel),
                        autoApprove := Some(c.autoApprove), maxTokens := Some(c.maxTokens),
                        temperature := Some(c.temperature));
      match Config.BuildSettings(input)
      case Success(s) => Success(s)
      case Failure(fields) => Failure(OtherError(Join(fields, ", ")))
  }

  /** A comment as the page receives it: the text without tags and the dates as ISO 8601 text. */
  datatype CommentView = CommentView(id: int, text: string, createdBy: Option<string>,
                                     createdDate: Option<string>, modifiedDate: Option<string>)

  datatype WorkItemView = WorkItemView(
    workItemId: int, workItemType: string, title: string, state: string, description: string,
    assignedTo: Option<string>, priority: Option<int>, remainingWork: Option<Models.Float>,
    tags: Option<string>, url: Option<string>, comments: seq<CommentView>)

  /** `isoformat()` of a date when there is one; the text reads back as the same date. */
  function IsoText(d: Option<DateTimes.ValidDateTime>): (r: Option<string>)
    ensures r.Some? <==> d.Some?
    ensures r.Some? ==> DateTimes.ParseIso(r.value) == Some(d.value)
  {
    if d.Some? then DateTimes.IsoRoundTrip(d.value); Some(DateTimes.IsoFormat(d.value)) else None
  }

  function ViewComment(c: Models.WorkItemComment): CommentView {
    CommentView(c.id, StripTags(c.text), c.createdBy, IsoText(c.createdDate), IsoText(c.modifiedDate))
  }

  /** One view per comment, in order, each without tags. */
  function ViewComments(cs: seq<Models.WorkItemComment>): (views: seq<CommentView>)
    ensures |views| == |cs|
    ensures forall i :: 0 <= i < |cs| ==> views[i] == ViewComment(cs[i])
    ensures forall i :: 0 <= i < |views| ==> NoTags(views[i].text)
  {
    var views := seq(|cs|, i requires 0 <= i < |cs| => ViewComment(cs[i]));
    assert forall i :: 0 <= i < |cs| ==> NoTags(views[i].text) by {
      forall i | 0 <= i < |cs| { StripTagsClean(cs[i].text); }
    }
    views
  }

  /** `fetch_work_item` of the service: the orchestrator's fetch, then up to
      ten comments; descriptions and comment texts are shown without tags. */
  function FetchWorkItem(db: SettingsManager.Db, userId: int, systemKey: Option<string>,
                         decrypt: SettingsManager.Cipher -> Result<string, Error>, env: Config.SettingsInput, id: int,
                         fetch: Result<Option<AdoClient.RawWorkItem>, Error>,
                         comments: Result<Option<seq<AdoClient.RawComment>>, Error>): (r: Result<WorkItemView, Error>)
    ensures r.Success? ==> NoTags(r.value.description)
    ensures r.Success? ==> forall i :: 0 <= i < |r.value.comments| ==> NoTags(r.value.comments[i].text)
    ensures r.Success? ==> |r.value.comments| == |AdoClient.GetComments(comments)|
    ensures OrchestratorSettings(db, userId, systemKey, decrypt, env).Failure? ==>
      r == Failure(OrchestratorSettings(db, userId, systemKey, decrypt, env).error)
    ensures OrchestratorSettings(db, userId, systemKey, decrypt, env).Success? && AdoClient.GetWorkItem(id, fetch).Success? ==>
      var w := AdoClient.GetWorkItem(id, fetch).value;
      && r.Success?
      && r.value.workItemId == w.id && r.value.workItemType == w.workItemType && r.value.title == w.title
      && r.value.state == w.state && r.value.description == CleanText(w.description)
      && r.value.assignedTo == w.assignedTo && r.value.priority == w.priority
      && r.value.remainingWork == w.remainingWork && r.value.tags == w.tags && r.value.url == w.url
      && r.value.comments == ViewComments(AdoClient.GetComments(comments))
    ensures OrchestratorSettings(db, userId, systemKey, decrypt, env).Success? && AdoClient.GetWorkItem(id, fetch).Failure? ==>
      r == Failure(OtherError(Workflow.FetchWorkItem(id, fetch).errorMessage.value))
  {
    var _ :- OrchestratorSettings(db, userId, systemKey, decrypt, env);
    var result := Workflow.FetchWorkItem(id, fetch);
    if !result.success then Failure(OtherError(result.errorMessage.value))
    else
      var w := result.workItem.value;
      Success(WorkItemView(w.id, w.workItemType, w.title, w.state, CleanText(w.description), w.assignedTo,
                           w.priority, w.remainingWork, w.tags, w.url, ViewComments(AdoClient.GetComments(comments))))
  }

  datatype Status = Pending | Analyzing | Completed | Failed

  function StatusName(s: Status): string {
    match s
    case Pending => "pending"
    case Analyzing => "analyzing"
    case Completed => "completed"
    case Failed => "failed"
  }

  /** A `WorkItemHistory` row; times are the clock's readings, the cost is in
      micro-dollars. */
  datatype History = History(
    id: int,
    userId: int,
    workItemId: int,
    workItemType: Option<string>,
    title: Option<string>,
    analysisResult: Option<Json.Json>,
    customPrompt: Option<string>,
    workFolderPath: Option<string>,
    status: Status,
    errorMessage: Option<string>,
    tokenUsage: Option<Json.Json>,
    cost: Option<nat>,
    createdAt: int,
    completedAt: Option<int>)

  /** A text as JSON: a string, or null for `None`. */
  function TextJson(t: Option<string>): (j: Json.Json)
    ensures t.Some? ==> j == Json.JStr(t.value)
    ensures t.None? ==> j == Json.JNull
  {
    if t.Some? then Json.JStr(t.value) else Json.JNull
  }

  /** The eight keys stored for an analysis, each holding that field: a text
      as a string, a missing text or estimate as null, the two lists as
      decoded, and the file changes as a list. */
  function StoredAnalysis(a: ClaudeClient.AnalysisResult): (j: Json.Json)
    ensures j.JObj?
    ensures j.fields.Keys == {"analysis", "solution", "tasks", "risks", "suggested_status", "suggested_remaining_work", "comment", "file_changes"}
    ensures j.fields["analysis"] == TextJson(a.analysis) && j.fields["solution"] == TextJson(a.solution)
    ensures j.fields["tasks"] == a.tasks && j.fields["risks"] == a.risks
    ensures j.fields["suggested_status"] == TextJson(a.suggestedStatus)
    ensures a.suggestedRemainingWork.Some? ==> j.fields["suggested_remaining_work"] == Json.JNum(a.suggestedRemainingWork.value)
    ensures a.suggestedRemainingWork.None? ==> j.fields["suggested_remaining_work"] == Json.JNull
    ensures j.fields["comment"] == TextJson(a.comment)
    ensures j.fields["file_changes"] == Json.JArr(a.fileChanges)
  {
    var m := map[
      "analysis" := TextJson(a.analysis),
      "solution" := TextJson(a.solution),
      "tasks" := a.tasks,
      "risks" := a.risks,
      "suggested_status" := TextJson(a.suggestedStatus),
      "suggested_remaining_work" := if a.suggestedRemainingWork.Some? then Json.JNum(a.suggestedRemainingWork.value) else Json.JNull,
      "comment" := TextJson(a.comment),
      "file_changes" := Json.JArr(a.fileChanges)];
    Json.JObj(m)
  }

  /** Nothing of the analysis is lost in storage: reading the stored object
      back the way a reply is read gives the same analysis. */
  lemma StoredAnalysisRoundTrip(a: ClaudeClient.AnalysisResult, state: string)
    ensures ClaudeClient.AnalysisFromJson(StoredAnalysis(a).fields, state, a.tokenUsage, a.rawResponse) == Success(a)
  {
    var f := StoredAnalysis(a).fields;
    assert ClaudeClient.TextKey(f, "analysis", "") == Success(a.analysis);
    assert ClaudeClient.TextKey(f, "solution", "") == Success(a.solution);
    assert ClaudeClient.TextKey(f, "suggested_status", state) == Success(a.suggestedStatus);
    assert ClaudeClient.NumberKey(f, "suggested_remaining_work") == Success(a.suggestedRemainingWork);
    assert ClaudeClient.TextKey(f, "comment", "") == Success(a.comment);
    assert ClaudeClient.FileChangesKey(f) == Success(a.fileChanges);
    assert ClaudeClient.ListKey(f, "tasks") == a.tasks && ClaudeClient.ListKey(f, "risks") == a.risks;
  }

  /** The two token counts stored for an analysis. */
  function StoredUsage(u: ClaudeClient.TokenUsage): (j: Json.Json)
    ensures j.JObj? && j.fields.Keys == {"input_tokens", "output_tokens"}
    ensures j.fields["input_tokens"] == Json.JNum(u.inputTokens as real)
    ensures j.fields["output_tokens"] == Json.JNum(u.outputTokens as real)
  {
    Json.JObj(map["input_tokens" := Json.JNum(u.inputTokens as real), "output_tokens" := Json.JNum(u.outputTokens as real)])
  }

  /** What the service needs besides the orchestrator's backends: the stored
      credentials, the environment, the id the new row gets and two clock
      readings. */
  datatype Context = Context(
    db: SettingsManager.Db,
    systemKey: Option<string>,
    decrypt: SettingsManager.Cipher -> Result<string, Error>,
    env: Config.SettingsInput,
    historyId: int,
    startedAt: int,
    finishedAt: int)

  /** One `analyze_work_item` call: the row as first committed, the row as
      finally committed, the events passed to the caller's callback, and the
      history id returned or the exception re-raised. */
  datatype AnalysisRun = AnalysisRun(initial: History, final: History, events: seq<Workflow.Event>,
                                     orchestrated: Option<Workflow.Run>, outcome: Result<int, Error>)

  /** The options the service always runs the orchestrator with: analysis
      only, no approval, no display. */
  function ServiceOptions(custom: Option<string>, s: Config.Settings): (o: Workflow.Options)
    ensures o.dryRun && !o.autoApprove && !o.display && o.custom == custom
  {
    Workflow.Options(false, true, false, custom, s.autoApprove)
  }

  /** The row's final state after a successful orchestration. */
  function Recorded(h: History, result: Workflow.WorkflowResult, model: string, finishedAt: int): History {
    if result.success then
      var h1 := h.(workItemType := if result.workItem.Some? then Some(result.workItem.value.workItemType) else None,
                   title := if result.workItem.Some? then Some(result.workItem.value.title) else None,
                   status := Completed, completedAt := Some(finishedAt));
      if result.analysis.Some? then
        var a := result.analysis.value;
        h1.(analysisResult := Some(StoredAnalysis(a)), tokenUsage := Some(StoredUsage(a.tokenUsage)),
            cost := Some(ClaudeClient.CostMicros(a.tokenUsage, model)))
      else h1
    else h.(status := Failed, errorMessage := result.errorMessage, completedAt := Some(finishedAt))
  }

  /** `analyze_work_item` of the service. The cost uses the credentials'
      model; the second credentials lookup reads the same database and so
      finds the same model. */
  function AnalyzeWorkItem(userId: int, workItemId: int, custom: Option<string>, workFolder: Option<string>,
                           ctx: Context, b: Workflow.Backends): (r: AnalysisRun)
    ensures r.initial.status == Analyzing && r.initial.completedAt.None? && r.initial.id == ctx.historyId
    ensures r.initial.userId == userId && r.initial.workItemId == workItemId && r.initial.customPrompt == custom
    ensures r.final.status == Completed || r.final.status == Failed
    ensures r.final.completedAt == Some(ctx.finishedAt)
    ensures r.final.status == Completed <==> r.outcome.Success? && r.orchestrated.Some? && r.orchestrated.value.result.success
    ensures r.outcome.Success? ==> r.outcome.value == ctx.historyId
    ensures r.orchestrated.Some? ==> r.orchestrated.value.update.None? && r.events == r.orchestrated.value.events
    ensures r.orchestrated.None? ==> r.events == []
    ensures r.outcome.Failure? ==> r.final.errorMessage == Some(Message(r.outcome.error)) && r.orchestrated.None?
  {
    var initial := History(ctx.historyId, userId, workItemId, None, None, None, custom, workFolder, Analyzing,
                           None, None, None, ctx.startedAt, None);
    match OrchestratorSettings(ctx.db, userId, ctx.systemKey, ctx.decrypt, ctx.env)
    case Failure(e) =>
      AnalysisRun(initial, initial.(status := Failed, errorMessage := Some(Message(e)), completedAt := Some(ctx.finishedAt)),
                  [], None, Failure(e))
    case Success(s) =>
      var run := Workflow.CompleteWorkItem(workItemId, ServiceOptions(custom, s), b);
      Workflow.UpdateCalledIff(workItemId, ServiceOptions(custom, s), b);
      AnalysisRun(initial, Recorded(initial, run.result, s.claudeModel, ctx.finishedAt), run.events, Some(run),
                  Success(ctx.historyId))
  }

  /** A completed row holds the analysis under its eight keys, the two token
      counts, and the cost at the credentials' model's price. */
  lemma CompletedRowContents(userId: int, workItemId: int, custom: Option<string>, workFolder: Option<string>,
                             ctx: Context, b: Workflow.Backends)
    requires AnalyzeWorkItem(userId, workItemId, custom, workFolder, ctx, b).final.status == Completed
    ensures var r := AnalyzeWorkItem(userId, workItemId, custom, workFolder, ctx, b);
      var a := r.orchestrated.value.result.analysis.value;
      var c := SettingsManager.GetDecryptedCredentials(ctx.db, userId, ctx.systemKey, ctx.decrypt).value.value;
      && r.final.analysisResult == Some(StoredAnalysis(a))
      && r.final.tokenUsage == Some(StoredUsage(a.tokenUsage))
      && r.final.cost == Some(ClaudeClient.CostMicros(a.tokenUsage, c.claudeModel))
      && r.final.errorMessage.None?
  {
  }

  /** A run whose orchestration fails is recorded as failed with the result's message. */
  lemma FailedRunRecorded(userId: int, workItemId: int, custom: Option<string>, workFolder: Option<string>,
                          ctx: Context, b: Workflow.Backends)
    requires var r := AnalyzeWorkItem(userId, workItemId, custom, workFolder, ctx, b);
      r.orchestrated.Some? && !r.orchestrated.value.result.success
    ensures var r := AnalyzeWorkItem(userId, workItemId, custom, workFolder, ctx, b);
      && r.final.status == Failed && r.outcome.Success?
      && r.final.errorMessage == r.orchestrated.value.result.errorMessage
      && r.final.analysisResult.None? && r.final.cost.None?
  {
  }

  /** A stored row as `get_analysis_result` returns it. */
  datatype HistoryView = HistoryView(id: int, workItemId: int, workItemType: Option<string>, title: Option<string>,
                                     status: string, analysisResult: Option<Json.Json>, tokenUsage: Option<Json.Json>,
                                     cost: Option<nat>, customPrompt: Option<string>, errorMessage: Option<string>,
                                     createdAt: int, completedAt: Option<int>)

  /** `get_analysis_result`: `None` for an unknown id, the row's fields otherwise. */
  function GetAnalysisResult(rows: map<int, History>, id: int): (r: Option<HistoryView>)
    ensures r.None? <==> id !in rows
    ensures r.Some? ==> r.value.id == rows[id].id && r.value.status == StatusName(rows[id].status)
    ensures r.Some? ==> r.value.analysisResult == rows[id].analysisResult && r.value.errorMessage == rows[id].errorMessage
  {
    if id !in rows then None
    else
      var h := rows[id];
      Some(HistoryView(h.id, h.workItemId, h.workItemType, h.title, StatusName(h.status), h.analysisResult,
                       h.tokenUsage, h.cost, h.customPrompt, h.errorMessage, h.createdAt, h.completedAt))
  }

  /** `apply_changes`: not implemented, whatever the arguments. */
  function ApplyChanges(userId: int, workItemId: int, modified: Option<Json.Json>): (r: Result<bool, Error>)
    ensures r.Failure? && r.error.NotImplementedError? && !IsA(r.error, AdoAiClass)
  {
    Failure(NotImplementedError("Apply changes not yet implemented"))
  }
}

=== FILE: wrappers.dfy ===
/** Option and Result, the two failure-carrying shapes used throughout the model.
    Python's `None` becomes `None`, and a raised exception becomes `Failure`. */
module Wrappers {

  datatype Option<+T> = None | Some(value: T) {

    /** The value, or `default` when absent (Python's `x if x is not None else default`). */
    function GetOr(default: T): T {
      match this
      case Some(v) => v
      case None => default
    }

    predicate IsFailure() {
      None?
    }

    function PropagateFailure<U>(): Option<U>
      requires None?
    {
      None
    }

    function Extract(): T
      requires Some?
    {
      value
    }
  }

  datatype Result<+R, +E> = Success(value: R) | Failure(error: E) {

    predicate IsFailure() {
      Failure?
    }

    function PropagateFailure<U>(): Result<U, E>
      requires Failure?
    {
      Failure(error)
    }

    function Extract(): R
      requires Success?
    {
      value
    }

    function ToOption(): Option<R> {
      match this
      case Success(v) => Some(v)
      case Failure(_) => None
    }
  }
}
